=== FILE: README.md ===
# FinSight core, modelled in Dafny

FinSight is a personal-finance web application. It aggregates bank data from three
providers: Salt Edge (the `lib/saltedge.ts` client and the `app/api/saltedge/*`
routes), GoCardless Bank Account Data (`lib/gocardless.ts` and
`app/api/gocardless/*`) and Revolut Open Banking (`app/api/revolut/*`). A service
worker (`public/sw.js`) adds offline caching. This project models the decision
logic under that plumbing as pure Dafny functions over explicit state, and proves
properties about it.

How the model represents the program:

- **Module-level globals become state records.** The Salt Edge client keeps several
  in-memory globals. Each is an explicit value that an operation takes and returns:
  - the rate-limit tracker (`RateLimit.Tracker`);
  - the customer cache (`CustomerCache.Cache`, a map from identifier to entry);
  - the log buffer, the performance metrics and the test-usage tracker (`History`).
- **Time is a parameter.** Times are `int` milliseconds, and `Date.now()` is passed
  in as `now`. Calendar dates (`made_on`, `bookingDate`, `referenceDate`) are `int`
  day numbers, so they can be ordered.
- **Money is integer cents.** The source parses amounts with `parseFloat`.
- **Remote calls are inputs.** Every call to a vendor API, to Prisma or to
  `getServerSession` is a `Result` parameter carrying its outcome. Route handlers
  also return the list of client calls they made, so "no call before the guard"
  can be stated.
- **Strings follow JavaScript truthiness.** An absent query parameter or
  environment variable is `""` wherever the source tests it with `||` or for
  truthiness. A session is `Option<string>`, and it counts as signed in only when
  the email is non-empty.
- **Errors are values.** A thrown error is an `Err` carrying its message. A handler
  that fails is a reply value carrying the HTTP status the source chooses.

Modules, one per source component:

| module | file | models |
|---|---|---|
| `Wrappers`, `Text` | wrappers.dfy, text.dfy | `Option`/`Result`; the string methods the source uses: `includes`, `startsWith`, `endsWith`, `toLowerCase` (ASCII), `replace` of the first occurrence, and trailing-slash trimming |
| `RateLimit` | rate_limit.dfy | `checkRateLimit`, `recordApiRequest`, the gate in `makeRequest` |
| `CustomerCache` | customer_cache.dfy | `getCachedCustomer`, `setCachedCustomer`, `clearCustomerCache` |
| `History` | history.dfy | `logSaltEdgeAction`, `getSaltEdgeLogs`, `recordApiPerformance`, `recordTestUsage`, `getTestStatus` |
| `SaltEdgeErrors` | saltedge_errors.dfy | `parseSaltEdgeError` and the error that `makeRequest` throws |
| `SaltEdgeClient` | saltedge_client.dfy | `createCustomer`, `getConnectionTransactions`, `formatTransactionForDisplay`, `createSaltEdgeClient` |
| `SaltEdgeStore` | saltedge_store.dfy | `lib/saltedge-db.ts` over a map-based store |
| `SaltEdgeRoutes` | saltedge_routes.dfy | the Salt Edge callback, data, auth and test-status routes |
| `GoCardless` | gocardless.dfy | the GoCardless client |
| `GoCardlessRoutes` | gocardless_routes.dfy | the GoCardless callback, data and auth routes |
| `RevolutRoutes` | revolut_routes.dfy | the Revolut callback and data routes |
| `ServiceWorker` | service_worker.dfy | `public/sw.js`: classifiers, fetch routing, cache cleanup, the four caching strategies |
| `Sorting`, `RouteTypes`, `SaltEdgeTypes` | sorting.dfy, route_types.dfy, saltedge_types.dfy | shared definitions: a descending insertion sort, route failures, and the Salt Edge records |

Where the written specification and the code disagree, the model follows the code:

- **Customer cache hit.** A cached customer is returned while `now <= created + ttl`.
  The hit test is inclusive.
- **Salt Edge callback GET order.** It tests `stage === 'success'` with a
  connection id before it looks at `error_message`. A success callback that also
  carries an error message is therefore decided by the connection lookup.
- **Salt Edge webhook POST.** It checks no signature and starts no sync. It
  acknowledges any parseable body. A body that parses to `null` makes the handler
  throw, so the reply is 500.
- **GoCardless Revolut lookup.** Choosing Revolut in `startBankConnection` lists
  the institutions a second time, through `getRevolutInstitution`. The model takes
  the two listings as separate inputs.
- **Salt Edge `logs_count`.** A value that does not parse as an integer gives `NaN`.
  `NaN` is falsy, so no slice is taken and the limit is dropped rather than defaulted
  (`SaltEdgeRoutes.LogsLimit`).
- **GoCardless null bank name.** A `bankName` of `null` in the body is not replaced
  by the `'revolut'` default, because destructuring defaults apply only to
  `undefined`. `startBankConnection` first lists the institutions. If that listing
  fails, the handler answers by the listing's error, for example 503 for a token
  failure. Otherwise it fails on `null.toLowerCase()` with status 500.
- **Service-worker cache writes.** A non-GET request is never written to a cache.
  The API strategy checks this explicitly. In the static and dynamic strategies,
  the un-awaited `cache.put` of a non-GET request is rejected by the Cache API and
  has no effect.

## Model

| member | source | states |
|---|---|---|
| RateLimit.CheckRateLimit | lib/saltedge.ts:77-102 | An ended window restarts with count 0 and end `now + 60000`. A request is admitted iff the live window holds fewer than the cap (15 in pending mode, 50 otherwise) and at least 100 ms have passed since the last request. A full window advises waiting until the window ends. An early request is told to wait out the rest of the 100 ms. Every advised wait is positive, and the last-request time is never changed by a check. |
| RateLimit.RecordApiRequest | lib/saltedge.ts:104-107 | Recording adds exactly one request, stamps the last-request time, and leaves the window end unchanged. |
| RateLimit.MakeRequestGate | lib/saltedge.ts:691-705 | The gate checks at most twice, waiting the advised time in between. Admission on the first check records exactly one request at `now`. Admission on the re-check happens strictly later. An admitted request never takes the window past its cap. A rejection ("Rate limit exceeded") records nothing, and it implies that the first check refused. |
| RateLimit.FullWindowRefuses | lib/saltedge.ts:86-93 | A full window that has not ended refuses, advising exactly the time left in the window. |
| RateLimit.EndedWindowAdmits | lib/saltedge.ts:80-84 | Once the window has ended, a well-spaced request is admitted into a fresh window with count 0 that ends at `now + 60000`. |
| RateLimit.SpacingWaitAlwaysAdmits | lib/saltedge.ts:691-705 | While the window is not full, the gate always lets the request through: waiting out the spacing always satisfies the re-check. |
| RateLimit.GateRejectsAfterAdvisedWait | lib/saltedge.ts:691-705 | As written: a full window whose last request came under 100 ms before the window's end is rejected, even though the gate waited exactly as advised (see Findings). |
| RateLimit.CheckRateLimitFixed | lib/saltedge.ts:77-102 | Corrected check. It admits exactly when the original does and updates the tracker in the same way. A full-window denial advises a wait no shorter than the original's. That this wait also clears the spacing rule is `RateLimit.FixedGateAlwaysProceeds`. |
| RateLimit.MakeRequestGateFixed | lib/saltedge.ts:691-705 | Corrected gate: an admitted request is recorded at the time it goes out, never before `now`. |
| RateLimit.FixedGateAlwaysProceeds | lib/saltedge.ts:691-705 | With the corrected wait, the single wait-then-recheck always admits the request. |
| CustomerCache.GetCachedCustomer | lib/saltedge.ts:110-123 | A read returns the customer iff the identifier is cached and `now <= created + ttl`. An expired entry is removed, and no other entry is touched. |
| CustomerCache.SetCachedCustomer | lib/saltedge.ts:125-132 | A write stores the customer created at `now` with a ttl of `hours * 3600000` ms, 24 hours by default. It leaves every other identifier unchanged. |
| CustomerCache.ClearCustomerCache | lib/saltedge.ts:134-137 | Clearing leaves an empty cache. |
| CustomerCache.CachedCustomerLivesOneDay | lib/saltedge.ts:110-132 | A customer written with the default ttl is read back exactly while `later <= now + 24 h`, and is a miss afterwards. |
| CustomerCache.ExpiredReadEvicts | lib/saltedge.ts:115-118 | After a read finds the entry expired, every later read of that identifier misses. |
| CustomerCache.ReadIsStable | lib/saltedge.ts:110-123 | Repeating a read at the same time gives the same answer. |
| History.LogSaltEdgeAction | lib/saltedge.ts:154-182 | The last entry is exactly the request's fields, stamped with `now`, with the level defaulting to info. The buffer's length is one more than before, capped at 100. It keeps only the most recent entries, in insertion order, and below the cap nothing is dropped. |
| History.ReplayKeepsLatest | lib/saltedge.ts:161-166 | Logging a sequence of entries one at a time gives the last 100 entries of the whole history. |
| History.LatestSuffix | lib/saltedge.ts:161-166 | Trimming before appending more entries gives the same buffer as trimming once at the end. |
| History.FilterLevel | lib/saltedge.ts:191-193 | The level filter keeps exactly the entries whose level name equals the requested one. |
| History.FilterAction | lib/saltedge.ts:195-197 | The action filter keeps exactly the entries whose action contains the requested text. |
| History.FilterLevelAppend | lib/saltedge.ts:191-193 | Filtering by level commutes with concatenation. With `FilterLevelSingle`, this pins the result down: the kept entries, each once, in history order. |
| History.FilterLevelSingle | lib/saltedge.ts:191-193 | A single entry is kept iff its level name is the requested one. |
| History.FilterActionAppend | lib/saltedge.ts:195-197 | Filtering by action commutes with concatenation, so the kept entries stay in history order, each once. |
| History.FilterActionSingle | lib/saltedge.ts:195-197 | A single entry is kept iff its action contains the requested text. |
| History.Matching | lib/saltedge.ts:184-204 | The one-pass reference selection keeps exactly the entries that pass every given filter. |
| History.FilteredIsMatching | lib/saltedge.ts:191-197 | Filtering by level and then by action equals the one-pass selection of the entries that pass both filters, in history order. |
| History.SliceFromEnd | lib/saltedge.ts:199-201 | `slice(-n)`: for n > 0, the last n entries. For n < 0, the sequence without its first `-n` entries. |
| History.GetSaltEdgeLogs | lib/saltedge.ts:184-204 | Without a non-zero `lastN`, the result is every entry that passes the given filters, in history order. A positive `lastN` keeps the last `lastN` of those, and a negative one drops the first `-lastN` of them, as `slice(-lastN)` does. With no filter and no limit, it is the whole history. |
| History.ClearSaltEdgeLogs | lib/saltedge.ts:206-209 | Clearing leaves no log entries. |
| History.RecordApiPerformance | lib/saltedge.ts:228-247 | Counts one more request, as either a success or a failure. The duration goes into a window of the last 50. The counters keep adding up, and the window never exceeds 50 entries. |
| History.GetTestStatus | lib/saltedge.ts:24-29 | Used plus remaining equals the total, and remaining lies between 0 and the total. |
| History.RecordTestUsage | lib/saltedge.ts:31-42 | Below the total, a use increments `usedTests` and appends exactly one history record (success defaults to true). At the total, nothing changes. Used never exceeds the total. The returned status reflects the new counter. |
| History.RecordAllSaturates | lib/saltedge.ts:31-42 | Recording k uses one after another adds `min(k, remaining)` to the counter and keeps the tracker valid. |
| SaltEdgeErrors.ClassifyPreserved | lib/saltedge.ts:391-449 | The table for a payload preserved by `makeRequest` yields one of six codes. It is retryable exactly for a rate-limit error. |
| SaltEdgeErrors.ClassifyTopLevel | lib/saltedge.ts:462-555 | The v6 table never yields a network or HTTP code. It is retryable exactly for ProviderDisabled, InvalidCredentials, ConnectionFailed, SessionExpired, RateLimit and Maintenance. |
| SaltEdgeErrors.ClassifyLegacy | lib/saltedge.ts:558-579 | A v5 body gives DUPLICATE_CUSTOMER iff its class is DuplicatedCustomer, and UNKNOWN_SALT_EDGE_ERROR otherwise. It is never retryable. |
| SaltEdgeErrors.ClassifyStatus | lib/saltedge.ts:582-642 | A bare status is retryable iff it is not 400, 401, 403 or 404. 429 maps to RATE_LIMIT. Statuses outside the listed ones map to HTTP_ERROR. |
| SaltEdgeErrors.ParseSaltEdgeError | lib/saltedge.ts:389-652 | The first present source decides, in order: the preserved payload, a network code, the top-level error, the v5 body, the status, nothing. NETWORK_ERROR and UNKNOWN_ERROR come exactly from their sources. HTTP codes come only from a bare status. Network errors are retryable. A generic error keeps its message (default "Unknown error"). A preserved payload uses the five-class table, where only RATE_LIMIT is retryable and CONNECTION_NOT_FOUND never occurs. A top-level error uses the ten-class v6 table, so CONNECTION_NOT_FOUND comes exactly from a `ConnectionNotFound` class. A v5 body gives DUPLICATE_CUSTOMER exactly for `DuplicatedCustomer`, and UNKNOWN_SALT_EDGE_ERROR otherwise, never retryable. |
| SaltEdgeErrors.TopLevelBeatsLegacyBody | lib/saltedge.ts:462-579 | A top-level v6 error object outranks the v5 response body: the response does not change the result, which is the v6 table's. |
| SaltEdgeErrors.RequestFailure | lib/saltedge.ts:739-754 | A failed request throws an error that preserves the parsed body and carries no code, error or response. Its message is the v6 error message when it is non-empty. Otherwise it is the v5 `error_message` when that is non-empty, and otherwise "Salt Edge API error: <status> <statusText>". An unparsed body also gives the status line. The message is never empty. |
| SaltEdgeErrors.PreservedPayloadWins | lib/saltedge.ts:391-449 | Once a preserved payload with an error object is present, no other field of the thrown value affects the classification. |
| SaltEdgeErrors.RequestFailuresUsePreservedTable | lib/saltedge.ts:739-754 | Every failed request with an error body is classified by the preserved-payload table. ConnectionNotFound falls through to UNKNOWN_SALT_EDGE_ERROR there. |
| SaltEdgeErrors.UnparsedFailureIsUnknown | lib/saltedge.ts:739-754 | A failed request whose body could not be parsed is a non-retryable UNKNOWN_ERROR with the message "Salt Edge API error: <status> <statusText>". |
| SaltEdgeErrors.RetryableIsNotAFunctionOfCode | lib/saltedge.ts:431-512 | ApiKeyNotFound and InvalidCredentials both give INVALID_CREDENTIALS, but only the second is retryable. |
| SaltEdgeErrors.PreservedAgreesWithTopLevel | lib/saltedge.ts:391-555 | For the four classes the two tables share, they give the same answer. |
| SaltEdgeClient.UniqueIdentifier | lib/saltedge.ts:833-834 | The retry identifier extends the original with `_` and a timestamp. |
| SaltEdgeClient.CreateAfterMiss | lib/saltedge.ts:802-873 | After a cache miss, one create is issued. Exactly one retry, under `identifier_<stamp>`, follows iff the first failure classifies as DUPLICATE_CUSTOMER. Success is cached for 24 h under the ORIGINAL identifier. Any failure leaves the cache alone and reports the source's message. |
| SaltEdgeClient.CreateCustomer | lib/saltedge.ts:802-873 | A live cache hit returns the cached customer with no request. Otherwise the create protocol runs. A returned customer is cached under the identifier, and no other identifier is added or changed. |
| SaltEdgeClient.CreateCustomerIsCachedForADay | lib/saltedge.ts:802-873 | After a successful create, asking again for the same identifier within 24 hours returns the same customer and issues no request. |
| SaltEdgeClient.GetConnectionTransactions | lib/saltedge.ts:966-987 | A failed account listing is the result's failure. Otherwise the result is exactly the multiset of transactions from the accounts whose fetch succeeded, sorted with `made_on` non-increasing. It is the stable sort of those transactions in account order. |
| Sorting.SortDescIsStable | lib/saltedge.ts:983-985 | The sort is stable, as `Array.prototype.sort` is: for every key, the elements with that key come out in their input order. |
| SaltEdgeClient.CollectedCountsOnlySuccesses | lib/saltedge.ts:966-987 | A transaction is collected iff some account's fetch succeeded and returned it. |
| SaltEdgeClient.FormatTransactionForDisplay | lib/saltedge.ts:1043-1064 | The displayed amount is the absolute value, and the direction is credit iff the amount is >= 0. Together they recover the signed amount. The id, date and balance are kept. |
| SaltEdgeClient.NormaliseBaseUrl | lib/saltedge.ts:1089-1100 | The normalised base URL always names an API version. A URL that already names one and does not mention v5 is unchanged. |
| SaltEdgeClient.UnversionedBaseUrlGetsV6 | lib/saltedge.ts:1096-1100 | When the v5-corrected URL names no version, the result is that URL with its trailing slashes removed and `/api/v6` appended. |
| SaltEdgeClient.UnsetBaseUrlIsDefault | lib/saltedge.ts:1089-1100 | With `SALTEDGE_BASE_URL` unset, the client uses the default v6 URL unchanged. |
| SaltEdgeClient.NormaliseIsStable | lib/saltedge.ts:1089-1100 | Normalising a normalised URL that no longer mentions v5 changes nothing. |
| SaltEdgeClient.V5UrlIsUpgraded | lib/saltedge.ts:1090-1095 | The first `/api/v5` is replaced in place by `/api/v6`, and nothing is appended. |
| SaltEdgeClient.CreateSaltEdgeClient | lib/saltedge.ts:1088-1131 | The caller's keys override the environment. Creation succeeds iff the app id and secret are both non-empty, and fails otherwise with the source's message. Without an override, the base URL names an API version. |
| SaltEdgeStore.GetOrCreateUser | lib/saltedge-db.ts:8-14 | An upsert by email. An update keeps the old name unless a new one is given. No other user changes. |
| SaltEdgeStore.GetOrCreateSaltEdgeInfo | lib/saltedge-db.ts:16-37 | An existing record for the email is returned and nothing changes. Otherwise exactly one `pending` record is appended with customer id `finsight_<email>_<now>`, and the user is created. Accounts and transactions are never touched. |
| SaltEdgeStore.GetOrCreateSaltEdgeInfoIsIdempotent | lib/saltedge-db.ts:16-37 | A second call for the same email returns the same record and leaves the store unchanged. |
| SaltEdgeStore.UpsertAccount | lib/saltedge-db.ts:73-105 | Creates the record when the id is absent. An update refreshes name, nature, balance, currency and `updatedAt`, and the four bank identifiers only when given. It never changes `userId` or `connectionId`. Other accounts are unchanged. |
| SaltEdgeStore.UpsertAccountIsIdempotent | lib/saltedge-db.ts:73-105 | Upserting the same account again, even under another user or connection, changes nothing but `updatedAt`. |
| SaltEdgeStore.UpsertTransaction | lib/saltedge-db.ts:118-155 | Keyed by the external id. The record takes the transaction's fields; on update, balance and merchant are kept unless given. It never changes `accountId`, and other transactions are unchanged. |
| SaltEdgeStore.UpsertTransactionTwice | lib/saltedge-db.ts:118-155 | Applying the same transaction twice leaves one record whose fields, apart from `updatedAt`, equal those after the first application. |
| SaltEdgeStore.SyncAccounts | lib/saltedge-db.ts:208-220 | The account loop continues past failures. Each input account ends up either stored or reported as `Account <name>: …`. The returned records match, one for one and in input order, the accounts whose upsert succeeded, and each such account is in the store afterwards. |
| SaltEdgeStore.SyncTransactions | lib/saltedge-db.ts:230-238 | The transaction loop continues past failures. Each input transaction ends up either stored or reported as `Transaction <id>: …`. The returned records match, one for one and in input order, the transactions whose upsert succeeded, and each such transaction is in the store afterwards. |
| SaltEdgeStore.AccountsPhase | lib/saltedge-db.ts:205-224 | A failed account fetch adds exactly one `Accounts: …` error and stores nothing. Otherwise the account loop runs. |
| SaltEdgeStore.TransactionsPhase | lib/saltedge-db.ts:227-242 | A failed transaction fetch adds exactly one `Transactions: …` error and stores nothing. Otherwise the transaction loop runs. |
| SaltEdgeStore.SyncSaltEdgeData | lib/saltedge-db.ts:189-259 | A failed connection lookup, or no info record for its customer, gives empty lists and one `Sync: …` error with the store unchanged. Otherwise both phases run whatever the first one did. The owning record is then marked active with `lastSyncAt = now`, unless that update fails. Users are never changed. |
| SaltEdgeStore.EveryAccountStoredOrReported | lib/saltedge-db.ts:208-220 | Every account is either stored or reported as an error. |
| SaltEdgeStore.UpsertedAccountsAreTheSuccesses | lib/saltedge-db.ts:208-220 | Every returned account record comes from an input account whose upsert did not fail. |
| SaltEdgeStore.ApplyAccountsStoresSuccesses | lib/saltedge-db.ts:208-220 | Every account whose upsert does not fail is present in the store afterwards. |
| SaltEdgeStore.ApplyAccountsLeavesOthers | lib/saltedge-db.ts:208-220 | Stored accounts not named in the input are left unchanged. |
| SaltEdgeStore.UpsertedAccountsFollowInput | lib/saltedge-db.ts:208-220 | The returned account records are, one for one and in input order, the records written for the accounts whose upsert succeeded. None is missing and none is extra. |
| SaltEdgeStore.UpsertedTransactionsFollowInput | lib/saltedge-db.ts:230-238 | The returned transaction records are, one for one and in input order, the records written for the transactions whose upsert succeeded. None is missing and none is extra. |
| SaltEdgeStore.EveryTransactionStoredOrReported | lib/saltedge-db.ts:230-238 | Stored plus reported transactions equals the number fetched. |
| SaltEdgeStore.ApplyTransactionsStoresSuccesses | lib/saltedge-db.ts:230-238 | Every transaction whose upsert does not fail is present in the store afterwards. |
| SaltEdgeStore.ApplyTransactionsLeavesOthers | lib/saltedge-db.ts:230-238 | Stored transactions not named in the input are left unchanged. |
| SaltEdgeRoutes.CallbackGet | app/api/saltedge/callback/route.ts:4-71 | With a connection id, `stage=success` is decided by the lookup alone: active gives success, another status gives pending, a failed lookup gives warning. Otherwise an error stage or message gives error, with the message or the default text. Otherwise `fetching` gives pending and everything else gives info. Only success carries the connection id. The handler throws only when the dashboard URL cannot be built. |
| SaltEdgeRoutes.SuccessStageIgnoresErrorMessage | app/api/saltedge/callback/route.ts:24-43 | On a success callback with a connection id, `error_message` has no influence. |
| SaltEdgeRoutes.SuccessStageNeverErrors | app/api/saltedge/callback/route.ts:24-43 | A success callback with a connection id never redirects with status error. |
| SaltEdgeRoutes.WebhookPost | app/api/saltedge/callback/route.ts:74-112 | The webhook answers 200 `{received: true}` iff the body parses to a non-null JSON value; a number or a string destructures without throwing. Otherwise it answers 500 "Webhook processing failed". |
| SaltEdgeRoutes.WebhookIgnoresStage | app/api/saltedge/callback/route.ts:74-112 | The acknowledgement does not depend on the stage in the body. |
| SaltEdgeRoutes.Summarise | app/api/saltedge/data/route.ts:72-84 | `total_count` is the full length, and `displayed_count = min(100, total)`. The date range runs from the last element's `made_on` to the first element's. Both ends are null iff the list is empty. |
| SaltEdgeRoutes.DataGetErrorStatus | app/api/saltedge/data/route.ts:100-122 | A message containing ConnectionNotFound gives 404. Otherwise one containing Expired gives 401. Otherwise 500. |
| SaltEdgeRoutes.DataGet | app/api/saltedge/data/route.ts:6-136 | No session gives 401 and a missing connection id gives 400, both with no client call. The connection is looked up first. A lookup error is mapped by message. A non-active connection gives 400, echoes its status, and fetches nothing more. Otherwise accounts are fetched iff the type is absent, `accounts` or `all`, and likewise for transactions. An active connection is always answered with data: a section failure is reported in that section without failing the response. At most 100 transactions are displayed, each formatted from the transaction at the same position. |
| SaltEdgeRoutes.UnknownTypeFetchesNothing | app/api/saltedge/data/route.ts:19-67 | An unknown `type` succeeds with neither section fetched. |
| SaltEdgeRoutes.RefreshErrorStatus | app/api/saltedge/data/route.ts:211-233 | A message containing ConnectionNotFound gives 404. Otherwise one containing CannotBeRefreshed gives 400. Otherwise 500. |
| SaltEdgeRoutes.DataPost | app/api/saltedge/data/route.ts:139-246 | No session gives 401, an unparseable body 500, a missing connection id 400. The type defaults to `refresh`. `refresh` and `reconnect` make exactly the matching call; any other type gives 400 with no call. Success returns that call's connect URL, and failure is mapped by the call's message. |
| SaltEdgeRoutes.RefreshFailure | app/api/saltedge/data/route.ts:211-233 | The failure's status is the one the refresh message maps to. |
| SaltEdgeRoutes.CustomerIdentifier | app/api/saltedge/auth/route.ts:24 | The identifier is exactly `finsight_` followed by the email. |
| SaltEdgeRoutes.SessionFor | app/api/saltedge/auth/route.ts:46-68 | Consent is always accounts, transactions and holder_info. `provider_code` is included iff it is truthy. The return URL is the callback route. |
| SaltEdgeRoutes.AuthClientFailure | app/api/saltedge/auth/route.ts:86-110 | A client failure records one use with success false. It answers 400 iff the message contains `Customer`, and 500 otherwise, with the message as details. |
| SaltEdgeRoutes.AuthPost | app/api/saltedge/auth/route.ts:6-122 | No session gives 401 with no call and no recorded use. The first call creates `finsight_<email>`. A retry under `_<timestamp>` happens only after a DuplicatedCustomer error. The session consent is fixed, and the provider is included only when truthy. When the customer is obtained (first creation, or the retry after a duplicate) and the widget session is created, the reply is a success with the widget URL, and one successful use is recorded. A failed customer or widget call is answered from its message: 400 if it mentions `Customer`, else 500, with one failed use recorded. |
| SaltEdgeRoutes.AuthAttemptUsesOneTest | app/api/saltedge/auth/route.ts:73-90 | Below the total, every signed-in attempt uses exactly one test, whether it succeeds or fails. |
| SaltEdgeRoutes.GenerateTestRecommendations | app/api/saltedge/test-status/route.ts:147-193 | Each recommendation appears exactly when its condition holds, in a fixed order. Fake banks appear iff nothing is used. The popular bank appears iff usage is under 30 %. Edge cases appear iff usage is from 30 % up to 70 %. The warning appears iff 3 or fewer tests remain, and the critical one iff all are used. |
| SaltEdgeRoutes.MediumRecommendationsExclusive | app/api/saltedge/test-status/route.ts:160-175 | The two medium recommendations never appear together. |
| SaltEdgeRoutes.FreshCounterRecommendations | app/api/saltedge/test-status/route.ts:147-193 | An example: a fresh counter yields the fake-banks recommendation, then the popular-bank one. |
| SaltEdgeRoutes.LogsLimit | app/api/saltedge/test-status/route.ts:28 | `logs_count` defaults to 20 when absent. A value that does not parse disables the limit. |
| SaltEdgeRoutes.TestStatusGet | app/api/saltedge/test-status/route.ts:13-70 | No session gives 401. Otherwise the reply carries the counter, its recommendations, performance iff `metrics=true`, and logs iff `logs=true`, filtered by level and limited by `logs_count`. Mode and base URL fall back to `pending` and the v6 default. |
| SaltEdgeRoutes.DefaultLogsCountIsTwenty | app/api/saltedge/test-status/route.ts:28 | Without `logs_count`, at most 20 log entries are returned. |
| SaltEdgeRoutes.TestStatusPost | app/api/saltedge/test-status/route.ts:72-145 | `reset` restores the counter, `clear_logs` empties the logs, `clear_cache` empties the customer cache, and `reset_all` does all three. Any other action gives 400 and changes nothing. Metrics are never touched, and no session gives 401. |
| SaltEdgeRoutes.ResetAllIsTheThreeResets | app/api/saltedge/test-status/route.ts:86-131 | `reset_all` has the same effect as `reset`, `clear_logs` and `clear_cache` in sequence, in either order. |
| GoCardless.GetAccessToken | lib/gocardless.ts:104-136 | A stored token is reused, with no request, iff it is non-empty and `now` is before its expiry. Otherwise a token is requested. A refusal fails with its status text. A grant is stored with expiry `now + (access_expires - 300) * 1000`, and it fails when `access` is missing. |
| GoCardless.GrantedTokenIsReusedUntilMargin | lib/gocardless.ts:104-136 | A granted token is reused exactly until 300 s before its announced expiry, and is requested again from then on. |
| GoCardless.MakeRequest | lib/gocardless.ts:138-160 | The request is sent iff a token was obtained, and the token's failure is the request's failure. A non-ok response fails with "GoCardless API error: <status> <statusText> - <body>". |
| GoCardless.ApiErrorNamesStatus | lib/gocardless.ts:154-157 | A fact about the message text: the API error message contains the HTTP status, which the routes read the failure by. |
| GoCardless.AgreementRequest | lib/gocardless.ts:170-195 | The options given override the defaults: 180 days of history, 90 days of access, and the scope balances, details, transactions. |
| GoCardless.AgreementDefaults | lib/gocardless.ts:175-181 | An example: with no options the defaults are used, and an option overrides only its own key. |
| GoCardless.RequisitionRequest | lib/gocardless.ts:197-216 | `agreement` is included iff a non-empty agreement id is given. The language is EN and the redirect is the GoCardless callback route. |
| GoCardless.FindFirst | lib/gocardless.ts:266-268 | The result is the first institution satisfying the test, and it is none iff no institution satisfies it. |
| GoCardless.ChooseInstitution | lib/gocardless.ts:243-273 | For `revolut` in any case, the choice is the first institution whose lowercased name or id contains `revolut`. Otherwise it is the first whose lowercased name contains the lowercased bank name. A failed listing is the failure. |
| GoCardless.StartBankConnection | lib/gocardless.ts:252-295 | An unmatched bank fails with "Institution <name> not found" before any agreement. The agreement asks for 365 days of history and 90 days of access. The requisition uses reference `finsight_<email>_<now>` and the agreement id. Success returns the requisition's link and id and the institution's name, and it is the outcome exactly when the institution is found and both calls succeed. A failed agreement or requisition call is the result's error, unchanged. |
| GoCardless.NotFoundMessageIsRecognisable | lib/gocardless.ts:271-273 | A fact about the message text: the not-found message contains both `Institution` and `not found`, the words the auth route maps to 400. |
| GoCardless.MarkPending | lib/gocardless.ts:326-331 | A pending transaction is marked pending and given a fresh id. Its booking date is its value date, or today when there is none. |
| GoCardless.CombineTransactions | lib/gocardless.ts:323-332 | Booked transactions come first, unchanged, followed by every pending one in order, marked. |
| GoCardless.AssembleAccounts | lib/gocardless.ts:313-344 | The accounts kept are exactly the reference selection `Successes`, read front to back: the accounts whose calls succeeded, in requisition order. Each keeps its id, details and balances. Its transactions are the booked ones followed by the marked pending ones. |
| GoCardless.SuccessesSnoc | lib/gocardless.ts:313-344 | The reference selection, peeled at the back, is the selection of all but the last account followed by the last one if its calls succeeded. |
| GoCardless.AssembleKeepsExactlyTheSuccesses | lib/gocardless.ts:315-344 | Exactly the accounts whose fetch succeeded are kept, each with its own id and details. |
| GoCardless.GetConnectedAccountData | lib/gocardless.ts:298-353 | A failed lookup is the failure. A status other than LN fails with "Requisition not ready. Status: <s>". Otherwise it succeeds iff the institution lookup succeeds, with the successful accounts in requisition order and the institution's name. |
| GoCardless.NotReadyIsRecognisable | lib/gocardless.ts:309-311 | A fact about the message text: the not-ready message contains "Requisition not ready", which the data route maps to 202. |
| GoCardlessRoutes.SiteBase | app/api/gocardless/callback/route.ts:9 | The redirect base is `NEXTAUTH_URL` when it is set, and a non-empty default otherwise. |
| GoCardlessRoutes.CallbackRequisitionId | app/api/gocardless/callback/route.ts:19 | The id falls back from `requisition_id` to `ref`. It is empty iff both are missing. |
| GoCardlessRoutes.ClassifyRequisition | app/api/gocardless/callback/route.ts:53-77 | LN with at least one account gives success, and CR gives in-progress. RJ gives rejected and EX gives expired. Everything else, including LN with no accounts, gives the generic warning. |
| GoCardlessRoutes.GcCallbackGet | app/api/gocardless/callback/route.ts:8-86 | No session redirects to login. The requisition is looked up iff there is no `error` parameter and some id. An `error` gives authorization_failed, and no id gives missing_data. A failed lookup gives callback_failed. Only the success and warning redirects carry the requisition id. |
| GoCardlessRoutes.LinkedWithoutAccountsIsOtherStatus | app/api/gocardless/callback/route.ts:53-77 | A linked requisition with no accounts falls through to the generic warning and keeps the requisition id. |
| GoCardlessRoutes.AccountName | app/api/gocardless/data/route.ts:51 | The name falls back from `name` to `displayName` to `<institution> Account`. |
| GoCardlessRoutes.ViewBalance | app/api/gocardless/data/route.ts:56-61 | The balance keeps its amount. Its date is the reference date, or today when there is none. |
| GoCardlessRoutes.ViewTransaction | app/api/gocardless/data/route.ts:62-75 | The id, amount and booking date are kept. The description falls back to `Transaction`. `pending` is true only for transactions marked pending. |
| GoCardlessRoutes.ViewAccount | app/api/gocardless/data/route.ts:48-76 | The balances map one to one. The transactions are a permutation of the mapped ones, sorted non-increasing by date. They are the stable sort of the mapped ones, so equal dates keep the account's order. |
| GoCardlessRoutes.ViewKeepsEveryTransaction | app/api/gocardless/data/route.ts:62-75 | Sorting drops no transaction: the view has as many transactions as the account, and each one appears. |
| GoCardlessRoutes.GcDataErrorStatus | app/api/gocardless/data/route.ts:95-132 | In order: "Requisition not ready" gives 202, `not found` or `404` gives 404, `access_expired` or `expired` gives 403, anything else gives 500. |
| GoCardlessRoutes.GcDataFailure | app/api/gocardless/data/route.ts:95-132 | The failure's status is the one the message maps to. Details are included only for 500 in development. |
| GoCardlessRoutes.ApiNotFoundIsConnectionNotFound | app/api/gocardless/data/route.ts:95-132 | An API call that failed with HTTP 404 is answered 404, because the client's error message names the status. It is answered 202 only when the message also says "Requisition not ready". |
| GoCardlessRoutes.GcDataGet | app/api/gocardless/data/route.ts:8-134 | No session gives 401 and no requisition id 400, both with no client call. Zero accounts gives 404. Success maps every account in order. The account count equals the number of accounts, and the total is the sum of the per-account transaction counts. |
| GoCardlessRoutes.TotalCountsEveryFetchedTransaction | app/api/gocardless/data/route.ts:86 | `totalTransactions` equals the number of transactions fetched across all accounts. |
| GoCardlessRoutes.TotalOfSameSizedViews | app/api/gocardless/data/route.ts:86 | Views with as many transactions as their accounts add up to the fetched total. |
| GoCardlessRoutes.NotReadyRequisitionIs202 | app/api/gocardless/data/route.ts:95-102 | A requisition that is not ready is answered with 202, whatever its status. |
| GoCardlessRoutes.GcAuthErrorStatus | app/api/gocardless/auth/route.ts:46-73 | A message with both `Institution` and `not found` gives 400. Otherwise "Failed to get access token" gives 503. Otherwise 500. |
| GoCardlessRoutes.GcAuthFailure | app/api/gocardless/auth/route.ts:46-73 | The failure's status is the one the message maps to. Details are included only for 500 in development. |
| GoCardlessRoutes.GcAuthPost | app/api/gocardless/auth/route.ts:8-74 | No session gives 401. A missing bank name means Revolut. A null one fails by the institution listing's error when that listing fails, and with a 500 otherwise. A started connection returns the link, requisition id and institution name. Every failure is mapped by its message. |
| GoCardlessRoutes.MissingBankNameMeansRevolut | app/api/gocardless/auth/route.ts:19 | A body without `bankName` behaves exactly as one asking for `revolut`. |
| GoCardlessRoutes.UnknownBankIsNotSupported | app/api/gocardless/auth/route.ts:46-54 | Every not-found error from `startBankConnection` is answered with 400 "Bank not supported". |
| RevolutRoutes.CallbackGuard | app/api/revolut/callback/route.ts:24-38 | The guards apply in order. An `error` parameter gives revolut_auth_failed. A missing code or state gives missing_parameters. A missing or different state cookie gives invalid_state. Otherwise the callback proceeds. |
| RevolutRoutes.Connect | app/api/revolut/callback/route.ts:40-93 | The code is exchanged first. The callback succeeds iff the token, the accounts (at least one) and the transactions are all obtained. Zero accounts gives no_accounts, and any other API failure gives api_failed. Only success touches cookies. It deletes the state and nonce cookies and stores the first account with at most 10 transactions for 3600 s. |
| RevolutRoutes.RevolutCallbackGet | app/api/revolut/callback/route.ts:8-97 | A session failure gives internal_error, and no session redirects to login. A tripped guard redirects with no API call. Otherwise the connection is made. |
| RevolutRoutes.StateMismatchExchangesNothing | app/api/revolut/callback/route.ts:34-38 | A state that does not match the cookie never leads to a token exchange or a cookie change. |
| RevolutRoutes.MapTransactionCategory | app/api/revolut/data/route.ts:86-106 | The first match wins, in order: Entertainment, Groceries, Dining, Transport, Income (a credit above 1000), Other. Merchant and information text are compared in lower case. |
| RevolutRoutes.CategoryIgnoresCase | app/api/revolut/data/route.ts:87-88 | Lower-casing the merchant name does not change the category. |
| RevolutRoutes.SignedAmount | app/api/revolut/data/route.ts:37 | Debits are negated and every other amount keeps its sign. |
| RevolutRoutes.DashboardView | app/api/revolut/data/route.ts:34-40 | The id and date are kept, the amount is signed and the category is mapped. The description falls back to the merchant name, then to `Transaction`. |
| RevolutRoutes.RevolutDataGet | app/api/revolut/data/route.ts:4-59 | No cookie gives `connected: false`. A cookie that does not parse to account data, or a transaction with no amount, gives 500 "Invalid data format". Otherwise the defaults are `Revolut Personal`, balance 0 and `EUR`, and each stored transaction is mapped in order. |
| RevolutRoutes.CallbackThenDataShowsStoredTransactions | app/api/revolut/callback/route.ts:65-87 | The data route shows back exactly the first 10 transactions the callback stored, each mapped in order. |
| RevolutRoutes.RevolutDataDelete | app/api/revolut/data/route.ts:61-84 | An authenticated DELETE always clears the data cookie and succeeds. No session gives 401, and a session failure gives 500. |
| ServiceWorker.ApiRequestMentionsApi | public/sw.js:189-192 | Every path classified as API contains `/api/`. |
| ServiceWorker.IsNavigationAsWritten | public/sw.js:194-197 | As written: the test throws exactly for a non-navigate GET without an Accept header. Otherwise it holds iff the mode is navigate, or the request is a GET whose Accept header mentions text/html. |
| ServiceWorker.NavigationAgreesWhenDefined | public/sw.js:194-197 | Wherever the written test does not throw, it agrees with the corrected one. Where it throws, the corrected one is false. |
| ServiceWorker.RouteAsWritten | public/sw.js:66-83 | As written: non-http requests are ignored. The listener throws exactly when a non-http-ignored, non-static, non-API request reaches the navigation test without an Accept header. |
| ServiceWorker.MissingAcceptMakesListenerThrow | public/sw.js:194-197 | A GET of `/` in cors mode without an Accept header makes the listener throw. The corrected routing serves it stale-while-revalidate. |
| ServiceWorker.Route | public/sw.js:66-83 | Non-http requests are ignored. The precedence is static, then API, then navigation, then dynamic, and each strategy is chosen exactly under its condition. The corrected routing never throws. |
| ServiceWorker.RouteAgreesWhenDefined | public/sw.js:66-83 | Wherever the written routing does not throw, it routes exactly as the corrected one. |
| ServiceWorker.ApiScriptIsStatic | public/sw.js:74-77 | `/api/x.js` is handled as a static asset, because static wins over API. |
| ServiceWorker.OldCaches | public/sw.js:218-233 | Cleanup deletes exactly the cache names other than the three current ones. |
| ServiceWorker.Remaining | public/sw.js:218-233 | What survives cleanup is exactly the current cache names. |
| ServiceWorker.CleanupPartitionsNames | public/sw.js:218-233 | Every cache name is either deleted or kept, never both. |
| ServiceWorker.CleanupIsIdempotent | public/sw.js:218-233 | A second cleanup deletes nothing. |
| ServiceWorker.CurrentNamesAreKept | public/sw.js:218-233 | When only current caches exist, cleanup deletes nothing. |
| ServiceWorker.MatchAll | public/sw.js:88 | `caches.match` answers only GET requests, from the static cache first, then the dynamic one. |
| ServiceWorker.Put | public/sw.js:94-97 | A GET response is stored under its URL. A non-GET put leaves the cache unchanged. |
| ServiceWorker.Install | public/sw.js:28-46 | `addAll` is all-or-nothing. Install stores every static asset iff every fetch is ok, and otherwise the caches are unchanged. Each asset is stored with its own fetched response under its path resolved against the worker's origin. No other entry is changed. |
| ServiceWorker.HandleStaticAsset | public/sw.js:86-104 | A cache hit is returned with no network call. Otherwise the network answer is returned and stored only if ok. A failed fetch gives the 503 offline response and changes no cache. |
| ServiceWorker.HandleApiRequest | public/sw.js:107-145 | Network first. An ok answer is returned and stored only for GET. Otherwise a GET falls back to the cache. Anything else gets the 503 JSON response. The static cache is never changed. |
| ServiceWorker.ApiResponseServedOffline | public/sw.js:107-145 | A successful GET answer is served again later when the network fails. |
| ServiceWorker.HandleNavigation | public/sw.js:148-165 | An ok network answer is returned. Otherwise the cached page is returned, then the `/offline.html` resolved against the worker's origin. No cache is changed. |
| ServiceWorker.PrecachedPagesServedOffline | public/sw.js:148-165 | After a successful install, an offline navigation to a precached page gets the response fetched for it at install. Any uncached navigation gets the precached offline page. |
| ServiceWorker.HandleDynamic | public/sw.js:168-180 | Stale-while-revalidate. A cached answer is returned at once, and the network otherwise. An ok network answer always refreshes the dynamic cache. |
| ServiceWorker.DynamicServesPreviousAnswer | public/sw.js:168-180 | After one ok answer, the next request is served that answer, whatever the network does. |
| ServiceWorker.Respond | public/sw.js:66-83 | The worker responds iff the routing handled the request. |

## Left out

- UI: every React page and component. It renders data and does not decide anything.
- `lib/revolut.ts` is not part of this model. It consists of fetch wrappers, and the Revolut routes take its outcomes as `Result` inputs.
- The Revolut auth route (`app/api/revolut/auth/route.ts`). It generates two random UUIDs, sets them as cookies and redirects. There is no decision to model beyond the session check.
- The request-signing crypto in `lib/saltedge.ts`, and the HTTP transport itself.
- These `lib/saltedge-db.ts` functions are left out:
  - `updateSaltEdgeConnection`, `deleteUserData`, `getUserBankingData`, `getUserAccounts`, `getUserTransactions`, `getAccountTransactions`, `createSyncLog`, `getUserSyncLogs`. They are single Prisma queries whose result order is the database's.
  - The lookups `getSaltEdgeInfoByEmail` and `getSaltEdgeInfoByCustomerId` are modelled as first-match searches (`InfoByEmail`, `InfoByCustomerId`).
- The provider listings of the Salt Edge client (`getFrenchBanks`, `getProviders`, `getCountries`) and the Salt Edge auth GET that returns them are left out. They forward to the API.
- Floating point is not modelled:
  - `averageResponseTime` and `successRate` are not computed.
  - `parseFloat` amounts are integer cents, so the Income threshold of 1000 units is 100000 cents.
  - Test usage is compared as `used * 100 < 30 * total` rather than as a float percentage.
- Concurrency: `Promise.all` in the GoCardless account fetch and the background revalidation in the service worker are modelled as if they ran in sequence.
- Side effects of client calls on the client's own state. `CreateCustomer`, `GetConnectionTransactions` and the route handlers do not append to the log buffer, and do not update the rate tracker or the performance metrics, as `logSaltEdgeAction` and `makeRequest` do in the source. These states are modelled and proved about on their own (`History`, `RateLimit`). The test-status route takes the log buffer as an input, so the logs it returns are whatever state it is given. The customer cache is not threaded either: `SaltEdgeRoutes.AuthPost` passes the two create outcomes directly, and does not consult or update the cache that `SaltEdgeClient.CreateCustomer` keeps.
- GoCardless.GetAccessToken: a granted token's expiry is computed from `now`, the time of the call before the request. The source reads `Date.now()` after the response and its JSON body arrive, so the model's token expires as much earlier as the request took.
- SaltEdgeClient.CreateAfterMiss: the cache entry is stamped with `now`, the time of the lookup before the request. The source stamps it with the `Date.now()` read after the response, so the model's entry expires as much earlier as the request took.
- Unicode case folding. `Text.ToLower` lowers ASCII letters only, so accented capitals stay as they are. For example, "SOCIÉTÉ GÉNÉRALE" does not lower to "société générale". This affects the bank-name match in `GoCardless.ChooseInstitution` and the keyword match in `RevolutRoutes.MapTransactionCategory` for non-ASCII text.
- `formatAccountForDisplay` is a field copy. It is modelled (`SaltEdgeClient.FormatAccountForDisplay`) without a contract.
- The free-form `details` payloads of log entries and of error replies.
- `NaN` dates in the comparators. Dates are day numbers, so `Array.prototype.sort` on invalid dates is not modelled. The model's insertion sort is stable, as `Array.prototype.sort` is (`Sorting.SortDescIsStable`).
- The lazy singleton that holds the Salt Edge client.
- The 3-month date window the Revolut callback computes for its transaction request. The fetched transactions are an input.
- ISO timestamps (`toISOString`) and all console logging.
- `Math.random` and `Date.now` pending-transaction ids in `getConnectedAccountData` are replaced by a `freshId` parameter. It is indexed by the pending transaction's position within its account, and the same function serves every account, so two accounts' pending transactions at the same position share an id. The source draws a new one each time.
- `getServerSession` throwing. In the Salt Edge and GoCardless routes the session is an input that cannot fail. In the Revolut routes it can fail, and is answered as the outer `catch` does.
- The `sync`, `push`, `notificationclick` and `message` listeners of `public/sw.js`, `preloadCriticalResources`, and `skipWaiting`/`clients.claim`. They talk to the browser, not to the caches the strategies use.
- RateLimit.MakeRequestGateFixed: its contract states only when and how the admitted request is recorded. That it always admits is the separate lemma `RateLimit.FixedGateAlwaysProceeds`.
- CustomerCache.ClearCustomerCache: states only that the cache is empty afterwards, which is all the source does.
- History.ClearSaltEdgeLogs: states only that the buffer is empty afterwards, which is all the source does.
- GoCardlessRoutes.LinkedWithoutAccountsIsOtherStatus: states the outcome and the requisition id of the redirect, not its message text.
- SaltEdgeStore.GetOrCreateUser: the user record holds only the email and the name. The other Prisma columns are not modelled.

## Findings

| source | as written | input that shows it | evidently intended | confidence | as-written member | corrected member |
|---|---|---|---|---|---|---|
| lib/saltedge.ts:86-93, 691-705 | When the window is full, `checkRateLimit` advises waiting until the window ends and ignores the 100 ms spacing rule. `makeRequest` waits exactly that long and re-checks once. If the last request came less than 100 ms before the window's end, the re-check refuses on spacing and `makeRequest` throws its rate-limit error, so the request fails. | Tracker with 50 requests, window end 100000, last request at 99950. A call at 99990 in non-pending mode is advised to wait 10 ms. At 100000 the window restarts, but only 50 ms have passed since the last request, so the re-check refuses. | The advised wait should also cover the spacing rule, so that one wait always suffices. | not executed; medium: it needs a burst that fills the window within its last 100 ms | RateLimit.GateRejectsAfterAdvisedWait | RateLimit.CheckRateLimitFixed, RateLimit.FixedGateAlwaysProceeds |
| public/sw.js:194-197 | `isNavigationRequest` calls `request.headers.get('accept').includes(...)`. When the Accept header is absent, `get` returns `null` and the fetch listener throws. The request then falls through to the browser instead of the stale-while-revalidate strategy. | A GET of `https://finsight.app/` with mode `cors` and no Accept header. | A missing Accept header should mean not a navigation, leaving the request to the dynamic strategy. | not executed; low to medium: browsers usually send an Accept header | ServiceWorker.RouteAsWritten, ServiceWorker.MissingAcceptMakesListenerThrow | ServiceWorker.Route, ServiceWorker.RouteAgreesWhenDefined |

=== FILE: customer_cache.dfy ===
/** The customer cache of the Salt Edge client (lib/saltedge.ts:65-74, 109-137): remote
    customers keyed by the caller-chosen identifier, each entry valid for a time-to-live
    and evicted lazily when read after it. */
module CustomerCache {
  import opened Wrappers
  import opened SaltEdgeTypes

  const MsPerHour: int := 3600000
  const DefaultTtlHours: int := 24

  datatype Entry = Entry(customer: Customer, created: int, ttl: int)

  type Cache = map<string, Entry>

  /** An entry is still valid at `now` up to and including its last millisecond. */
  predicate Live(e: Entry, now: int) {
    now <= e.created + e.ttl
  }

  /** `getCachedCustomer`: the cached customer when its entry is live; an expired entry
      is removed and reads as a miss. No other entry is touched. */
  function GetCachedCustomer(c: Cache, identifier: string, now: int): (r: (Option<Customer>, Cache))
    ensures r.0.Some? <==> identifier in c && Live(c[identifier], now)
    ensures r.0.Some? ==> r.0.value == c[identifier].customer
    ensures r.1.Keys == if identifier in c && !Live(c[identifier], now) then c.Keys - {identifier} else c.Keys
    ensures forall k :: k in r.1 ==> r.1[k] == c[k]
  {
    if identifier !in c then (None, c)
    else if now > c[identifier].created + c[identifier].ttl then (None, c - {identifier})
    else (Some(c[identifier].customer), c)
  }

  /** `setCachedCustomer`: stores `customer` under `identifier`, created now, for
      `ttlHours` hours (24 when not given); every other entry is kept. */
  function SetCachedCustomer(c: Cache, identifier: string, customer: Customer, now: int, ttlHours: Option<int>): (r: Cache)
    ensures r.Keys == c.Keys + {identifier}
    ensures r[identifier].customer == customer && r[identifier].created == now
    ensures r[identifier].ttl == ttlHours.GetOr(DefaultTtlHours) * MsPerHour
    ensures forall k :: k in c && k != identifier ==> r[k] == c[k]
  {
    c[identifier := Entry(customer, now, ttlHours.GetOr(DefaultTtlHours) * MsPerHour)]
  }

  /** `clearCustomerCache`. */
  function ClearCustomerCache(): (r: Cache)
    ensures |r| == 0
  {
    map[]
  }

  /** A customer cached with the default TTL is returned by every read within 24 hours
      (inclusive) and by none after. */
  lemma CachedCustomerLivesOneDay(c: Cache, identifier: string, customer: Customer, now: int, later: int)
    ensures GetCachedCustomer(SetCachedCustomer(c, identifier, customer, now, None), identifier, later).0
      == if later <= now + 24 * 3600000 then Some(customer) else None
  {
  }

  /** A read after the TTL evicts: the next read misses too, whenever it happens. */
  lemma ExpiredReadEvicts(c: Cache, identifier: string, now: int, later: int)
    requires identifier in c && !Live(c[identifier], now)
    ensures GetCachedCustomer(GetCachedCustomer(c, identifier, now).1, identifier, later).0 == None
  {
  }

  /** Reading never changes what a later read at the same time returns. */
  lemma ReadIsStable(c: Cache, identifier: string, now: int)
    ensures GetCachedCustomer(GetCachedCustomer(c, identifier, now).1, identifier, now).0
      == GetCachedCustomer(c, identifier, now).0
  {
  }
}

=== FILE: gocardless.dfy ===
/** The decision logic of the GoCardless bank-data client (lib/gocardless.ts): the
    access-token cache with its safety margin, the request wrapper's error text, the
    agreement and requisition bodies, the choice of institution in
    `startBankConnection`, and the assembly of account data once a requisition is
    linked. Remote answers are explicit `Result` outcomes, the clock an explicit
    millisecond count, and dates day numbers. */
module GoCardless {
  import opened Wrappers
  import opened Text

  // ---------------------------------------------------------------------------
  // Access token (lines 104-136)

  /** The cached token and its expiry (ms); `None` is null, or an Invalid Date. */
  datatype TokenState = TokenState(accessToken: Option<string>, expiry: Option<int>)

  /** The answer of POST /token/new/: refused (with the status text) or granted with
      the `access` token and `access_expires` seconds, either possibly missing. */
  datatype TokenResponse = TokenRefused(statusText: string) | TokenGranted(access: Option<string>, accessExpires: Option<int>)

  /** Seconds taken off the announced lifetime, so that a token is renewed early. */
  const SafetyMarginSeconds: int := 300

  /** The cached token can be reused at `now`. */
  predicate TokenIsFresh(st: TokenState, now: int) {
    st.accessToken.Some? && st.accessToken.value != "" && st.expiry.Some? && now < st.expiry.value
  }

  /** `getAccessToken`: reuses the cached token while it is fresh; otherwise requests
      one, stores it with an expiry 300 s before the announced one, and fails when the
      request is refused or no token comes back. Also returns whether a request was made. */
  function GetAccessToken(st: TokenState, now: int, response: TokenResponse): (r: (Result<string, string>, TokenState, bool))
    ensures TokenIsFresh(st, now) ==> r == (Ok(st.accessToken.value), st, false)
    ensures !TokenIsFresh(st, now) ==> r.2
    ensures !TokenIsFresh(st, now) && response.TokenRefused? ==>
      r.0 == Err("Failed to get access token: " + response.statusText) && r.1 == st
    ensures !TokenIsFresh(st, now) && response.TokenGranted? ==>
      r.1.accessToken == response.access
      && r.1.expiry == (if response.accessExpires.Some? then Some(now + (response.accessExpires.value - SafetyMarginSeconds) * 1000) else None)
      && (r.0.Ok? <==> response.access.Some? && response.access.value != "")
      && (r.0.Ok? ==> r.0.value == response.access.value)
      && (r.0.Err? ==> r.0.error == "No access token received from GoCardless API")
  {
    if TokenIsFresh(st, now) then (Ok(st.accessToken.value), st, false)
    else
      match response
      case TokenRefused(text) => (Err("Failed to get access token: " + text), st, true)
      case TokenGranted(access, expires) =>
        var st' := TokenState(access, if expires.Some? then Some(now + (expires.value - SafetyMarginSeconds) * 1000) else None);
        if access.Some? && access.value != "" then (Ok(access.value), st', true)
        else (Err("No access token received from GoCardless API"), st', true)
  }

  /** A granted token is reused, without a request, for every call until 300 s before
      its announced expiry, and renewed from then on. */
  lemma {:induction false} GrantedTokenIsReusedUntilMargin(st: TokenState, now: int, token: string, expires: int,
                                                         later: int, response: TokenResponse)
    requires !TokenIsFresh(st, now) && token != ""
    requires now <= later
    ensures var st1 := GetAccessToken(st, now, TokenGranted(Some(token), Some(expires))).1;
      var r := GetAccessToken(st1, later, response);
      (later < now + (expires - SafetyMarginSeconds) * 1000 ==> r == (Ok(token), st1, false))
      && (later >= now + (expires - SafetyMarginSeconds) * 1000 ==> r.2)
  {
    var st1 := GetAccessToken(st, now, TokenGranted(Some(token), Some(expires))).1;
    assert st1 == TokenState(Some(token), Some(now + (expires - SafetyMarginSeconds) * 1000));
  }

  // ---------------------------------------------------------------------------
  // Request wrapper (lines 138-160)

  /** The answer of an API call: its JSON body, or a failure status with its text. */
  datatype ApiResponse<T> = ApiOk(body: T) | ApiFailed(status: int, statusText: string, text: string)

  function ApiErrorMessage(status: int, statusText: string, text: string): string {
    "GoCardless API error: " + IntToString(status) + " " + statusText + " - " + text
  }

  /** `makeRequest`: obtains a token (its failure is the request's failure, and no call
      is made), then calls the API; a failed call is reported with its status, status
      text and body. Returns the result, the token state and whether the API was called. */
  function MakeRequest<T>(st: TokenState, now: int, token: TokenResponse, api: ApiResponse<T>): (r: (Result<T, string>, TokenState, bool))
    ensures r.1 == GetAccessToken(st, now, token).1
    ensures r.2 <==> GetAccessToken(st, now, token).0.Ok?
    ensures !r.2 ==> r.0 == Err(GetAccessToken(st, now, token).0.error)
    ensures r.2 ==> (r.0.Ok? <==> api.ApiOk?)
    ensures r.2 && api.ApiOk? ==> r.0 == Ok(api.body)
    ensures r.2 && api.ApiFailed? ==> r.0 == Err(ApiErrorMessage(api.status, api.statusText, api.text))
  {
    var (tok, st', _) := GetAccessToken(st, now, token);
    match tok
    case Err(e) => (Err(e), st', false)
    case Ok(_) =>
      match api
      case ApiOk(body) => (Ok(body), st', true)
      case ApiFailed(status, statusText, text) => (Err(ApiErrorMessage(status, statusText, text)), st', true)
  }

  /** The text of a failed call names its status code. */
  lemma {:induction false} ApiErrorNamesStatus(status: int, statusText: string, text: string)
    ensures Contains(ApiErrorMessage(status, statusText, text), IntToString(status))
  {
    var m := ApiErrorMessage(status, statusText, text);
    assert m == "GoCardless API error: " + IntToString(status) + (" " + statusText + " - " + text);
    ContainsInfix("GoCardless API error: ", IntToString(status), " " + statusText + " - " + text);
  }

  // ---------------------------------------------------------------------------
  // Agreements and requisitions (lines 170-216)

  /** The options of `createEndUserAgreement`; `None` is a key that is not given. */
  datatype AgreementOptions = AgreementOptions(maxHistoricalDays: Option<int>, accessValidForDays: Option<int>,
                                               accessScope: Option<seq<string>>)

  datatype AgreementBody = AgreementBody(institutionId: string, maxHistoricalDays: int, accessValidForDays: int,
                                         accessScope: seq<string>)

  const DefaultScope: seq<string> := ["balances", "details", "transactions"]

  /** The body of POST /agreements/enduser/: every key given in the options overrides
      its default (180 days of history, 90 days of access, the three scopes). */
  function AgreementRequest(institutionId: string, options: AgreementOptions): (r: AgreementBody)
    ensures r.institutionId == institutionId
    ensures r.maxHistoricalDays == options.maxHistoricalDays.GetOr(180)
    ensures r.accessValidForDays == options.accessValidForDays.GetOr(90)
    ensures r.accessScope == options.accessScope.GetOr(DefaultScope)
  {
    AgreementBody(institutionId, options.maxHistoricalDays.GetOr(180), options.accessValidForDays.GetOr(90),
                  options.accessScope.GetOr(DefaultScope))
  }

  /** With no options the defaults apply; options only ever replace the keys they give. */
  lemma AgreementDefaults(institutionId: string, days: int)
    ensures AgreementRequest(institutionId, AgreementOptions(None, None, None)) == AgreementBody(institutionId, 180, 90, DefaultScope)
    ensures AgreementRequest(institutionId, AgreementOptions(Some(days), None, None)) == AgreementBody(institutionId, days, 90, DefaultScope)
  {
  }

  datatype RequisitionBody = RequisitionBody(redirect: string, institutionId: string, reference: string,
                                             userLanguage: string, agreement: Option<string>)

  /** The body of POST /requisitions/: the callback URL of the site, user language
      'EN', and the agreement only when an id is given. */
  function RequisitionRequest(siteUrl: string, institutionId: string, reference: string, agreementId: Option<string>): (r: RequisitionBody)
    ensures r.agreement.Some? <==> agreementId.Some? && agreementId.value != ""
    ensures r.agreement.Some? ==> r.agreement == agreementId
    ensures r.userLanguage == "EN" && r.redirect == siteUrl + "/api/gocardless/callback"
    ensures r.institutionId == institutionId && r.reference == reference
  {
    RequisitionBody(siteUrl + "/api/gocardless/callback", institutionId, reference, "EN",
                    if agreementId.Some? && agreementId.value != "" then agreementId else None)
  }

  // ---------------------------------------------------------------------------
  // startBankConnection (lines 242-295)

  datatype Institution = Institution(id: string, name: string)

  datatype Requisition = Requisition(id: string, status: string, institutionId: string, accounts: seq<string>, link: string)

  predicate IsRevolut(inst: Institution) {
    Contains(ToLower(inst.name), "revolut") || Contains(ToLower(inst.id), "revolut")
  }

  predicate NameMatches(inst: Institution, bankName: string) {
    Contains(ToLower(inst.name), ToLower(bankName))
  }

  /** The first institution satisfying `P`. */
  function FindFirst(s: seq<Institution>, P: Institution -> bool): (r: Option<Institution>)
    ensures r.Some? ==> P(r.value) && exists k :: 0 <= k < |s| && s[k] == r.value && forall j :: 0 <= j < k ==> !P(s[j])
    ensures r.None? <==> forall j :: 0 <= j < |s| ==> !P(s[j])
    decreases |s|
  {
    if |s| == 0 then None
    else if P(s[0]) then
      assert s[0] == s[0];
      Some(s[0])
    else
      var rest := FindFirst(s[1..], P);
      if rest.Some? then
        var k :| 0 <= k < |s[1..]| && s[1..][k] == rest.value && forall j :: 0 <= j < k ==> !P(s[1..][j]);
        assert s[k + 1] == rest.value;
        assert forall j :: 0 <= j < k + 1 ==> !P(s[j]) by {
          forall j | 0 <= j < k + 1 ensures !P(s[j]) {
            if j > 0 { assert s[j] == s[1..][j - 1]; }
          }
        }
        rest
      else
        assert forall j :: 1 <= j < |s| ==> s[j] == s[1..][j - 1];
        None
  }

  /** The institution `startBankConnection` chooses: for 'revolut' (in any case) the
      first of the second listing whose name or id mentions revolut, otherwise the
      first of the first listing whose name contains the bank name, both compared in
      lower case. A failed listing is the call's failure. */
  function ChooseInstitution(bankName: string, listed: Result<seq<Institution>, string>,
                             revolutListed: Result<seq<Institution>, string>): (r: Result<Option<Institution>, string>)
    ensures listed.Err? ==> r == Err(listed.error)
    ensures listed.Ok? && ToLower(bankName) == "revolut" ==>
      r == (match revolutListed case Err(e) => Err(e) case Ok(s) => Ok(FindFirst(s, IsRevolut)))
    ensures listed.Ok? && ToLower(bankName) != "revolut" ==>
      r == Ok(FindFirst(listed.value, (inst: Institution) => NameMatches(inst, bankName)))
  {
    match listed
    case Err(e) => Err(e)
    case Ok(s) =>
      if ToLower(bankName) == "revolut" then
        match revolutListed
        case Err(e) => Err(e)
        case Ok(s2) => Ok(FindFirst(s2, IsRevolut))
      else Ok(FindFirst(s, (inst: Institution) => NameMatches(inst, bankName)))
  }

  function NotFoundMessage(bankName: string): string {
    "Institution " + bankName + " not found"
  }

  datatype BankLink = BankLink(link: string, requisitionId: string, institutionName: string)

  /** The result, and the agreement and requisition bodies that were sent. */
  datatype StartOutcome = StartOutcome(result: Result<BankLink, string>, agreement: Option<AgreementBody>,
                                       requisition: Option<RequisitionBody>)

  /** `startBankConnection`: chooses the institution (none is a "not found" failure),
      asks for a one-year, 90-day agreement with it, then creates a requisition with a
      reference built from the email and the clock and the agreement's id. */
  function StartBankConnection(bankName: string, email: string, now: int, siteUrl: string,
                               listed: Result<seq<Institution>, string>, revolutListed: Result<seq<Institution>, string>,
                               agreement: Result<Option<string>, string>, requisition: Result<Requisition, string>): (r: StartOutcome)
    ensures ChooseInstitution(bankName, listed, revolutListed).Err? ==>
      r == StartOutcome(Err(ChooseInstitution(bankName, listed, revolutListed).error), None, None)
    ensures ChooseInstitution(bankName, listed, revolutListed) == Ok(None) ==>
      r == StartOutcome(Err(NotFoundMessage(bankName)), None, None)
    ensures r.agreement.Some? ==>
      var inst := ChooseInstitution(bankName, listed, revolutListed);
      inst.Ok? && inst.value.Some?
      && r.agreement.value == AgreementBody(inst.value.value.id, 365, 90, DefaultScope)
    ensures r.requisition.Some? ==>
      r.agreement.Some? && agreement.Ok?
      && r.requisition.value.institutionId == r.agreement.value.institutionId
      && r.requisition.value.reference == "finsight_" + email + "_" + IntToString(now)
      && r.requisition.value.agreement == (if agreement.value.Some? && agreement.value.value != "" then agreement.value else None)
    ensures r.result.Ok? ==>
      r.requisition.Some? && requisition.Ok?
      && r.result.value == BankLink(requisition.value.link, requisition.value.id,
                                    ChooseInstitution(bankName, listed, revolutListed).value.value.name)
    ensures ChooseInstitution(bankName, listed, revolutListed).Ok? && ChooseInstitution(bankName, listed, revolutListed).value.Some? ==>
      (agreement.Err? ==> r.result == Err(agreement.error))
      && (agreement.Ok? && requisition.Err? ==> r.result == Err(requisition.error))
      && (agreement.Ok? && requisition.Ok? ==>
            r.result == Ok(BankLink(requisition.value.link, requisition.value.id,
                                    ChooseInstitution(bankName, listed, revolutListed).value.value.name)))
  {
    match ChooseInstitution(bankName, listed, revolutListed)
    case Err(e) => StartOutcome(Err(e), None, None)
    case Ok(None) => StartOutcome(Err(NotFoundMessage(bankName)), None, None)
    case Ok(Some(inst)) =>
      var agreementBody := AgreementRequest(inst.id, AgreementOptions(Some(365), Some(90), Some(DefaultScope)));
      match agreement
      case Err(e) => StartOutcome(Err(e), Some(agreementBody), None)
      case Ok(agreementId) =>
        var body := RequisitionRequest(siteUrl, inst.id, "finsight_" + email + "_" + IntToString(now), agreementId);
        match requisition
        case Err(e) => StartOutcome(Err(e), Some(agreementBody), Some(body))
        case Ok(req) => StartOutcome(Ok(BankLink(req.link, req.id, inst.name)), Some(agreementBody), Some(body))
  }

  /** The "not found" failure names the institution, which is what the auth route
      recognises it by. */
  lemma {:induction false} NotFoundMessageIsRecognisable(bankName: string)
    ensures Contains(NotFoundMessage(bankName), "Institution") && Contains(NotFoundMessage(bankName), "not found")
  {
    var m := NotFoundMessage(bankName);
    assert m == "" + "Institution" + (" " + bankName + " not found");
    ContainsInfix("", "Institution", " " + bankName + " not found");
    assert m == "Institution " + bankName + " not found" + "";
    ContainsInfix("Institution " + bankName + " ", "not found", "");
    assert m == ("Institution " + bankName + " ") + "not found" + "";
  }

  // ---------------------------------------------------------------------------
  // getConnectedAccountData (lines 297-353)

  /** A transaction as the API sends it; `pending` is only set on the ones this client
      moves out of the pending list. Amounts are in minor units, dates day numbers. */
  datatype GcTransaction = GcTransaction(
    transactionId: string,
    amount: int,
    currency: string,
    bookingDate: int,
    valueDate: Option<int>,
    remittanceInformation: Option<string>,
    debtorName: Option<string>,
    creditorName: Option<string>,
    debtorIban: Option<string>,
    creditorIban: Option<string>,
    bankTransactionCode: Option<string>,
    pending: Option<bool>)

  datatype AccountDetails = AccountDetails(
    resourceId: string,
    iban: string,
    currency: string,
    ownerName: Option<string>,
    name: Option<string>,
    displayName: Option<string>,
    product: Option<string>)

  datatype Balance = Balance(amount: int, currency: string, balanceType: string, referenceDate: Option<int>)

  /** What the three per-account calls return together. */
  datatype AccountBundle = AccountBundle(details: AccountDetails, balances: seq<Balance>,
                                         booked: seq<GcTransaction>, pendingList: seq<GcTransaction>)

  datatype ConnectedAccount = ConnectedAccount(id: string, details: AccountDetails, balances: seq<Balance>,
                                               transactions: seq<GcTransaction>)

  datatype ConnectedData = ConnectedData(accounts: seq<ConnectedAccount>, institution: string)

  /** A pending transaction as the client relabels it: a fresh id, booked on its value
      date (today when it has none), and flagged pending. */
  function MarkPending(t: GcTransaction, freshId: string, today: int): (r: GcTransaction)
    ensures r.pending == Some(true) && r.transactionId == freshId
    ensures r.bookingDate == t.valueDate.GetOr(today)
    ensures r.amount == t.amount && r.valueDate == t.valueDate
  {
    t.(transactionId := freshId, bookingDate := t.valueDate.GetOr(today), pending := Some(true))
  }

  /** Booked transactions, then the relabelled pending ones. `freshId(k)` stands for the
      clock-and-random id drawn for the k-th pending transaction. */
  function CombineTransactions(b: AccountBundle, today: int, freshId: nat -> string): (r: seq<GcTransaction>)
    ensures |r| == |b.booked| + |b.pendingList|
    ensures r[..|b.booked|] == b.booked
    ensures forall k :: 0 <= k < |b.pendingList| ==> r[|b.booked| + k] == MarkPending(b.pendingList[k], freshId(k), today)
  {
    b.booked + seq(|b.pendingList|, k requires 0 <= k < |b.pendingList| => MarkPending(b.pendingList[k], freshId(k), today))
  }

  /** Reference selection, read front to back: each account whose calls succeeded, in
      requisition order, with its balances and its combined transactions. */
  function Successes(ids: seq<string>, fetches: seq<Result<AccountBundle, string>>, today: int,
                     freshId: nat -> string): seq<ConnectedAccount>
    requires |fetches| == |ids|
    decreases |ids|
  {
    if |ids| == 0 then []
    else
      (if fetches[0].Ok?
       then [ConnectedAccount(ids[0], fetches[0].value.details, fetches[0].value.balances,
                              CombineTransactions(fetches[0].value, today, freshId))]
       else [])
      + Successes(ids[1..], fetches[1..], today, freshId)
  }

  /** The reference selection also peels off at the back. */
  lemma {:induction false} SuccessesSnoc(ids: seq<string>, fetches: seq<Result<AccountBundle, string>>, today: int,
                                         freshId: nat -> string)
    requires |fetches| == |ids| > 0
    ensures Successes(ids, fetches, today, freshId)
      == Successes(ids[..|ids| - 1], fetches[..|ids| - 1], today, freshId)
         + (if fetches[|ids| - 1].Ok?
            then [ConnectedAccount(ids[|ids| - 1], fetches[|ids| - 1].value.details, fetches[|ids| - 1].value.balances,
                                   CombineTransactions(fetches[|ids| - 1].value, today, freshId))]
            else [])
    decreases |ids|
  {
    var n := |ids| - 1;
    if n == 0 {
      assert ids[1..] == [] && ids[..0] == [];
      assert fetches[1..] == [] && fetches[..0] == [];
    } else {
      SuccessesSnoc(ids[1..], fetches[1..], today, freshId);
      assert ids[1..][..n - 1] == ids[..n][1..];
      assert fetches[1..][..n - 1] == fetches[..n][1..];
      assert ids[1..][n - 1] == ids[n] && fetches[1..][n - 1] == fetches[n];
      assert ids[..n][0] == ids[0] && fetches[..n][0] == fetches[0];
    }
  }

  /** The client's loop over the requisition's accounts, read back to front: the accounts
      whose three calls all succeeded, in requisition order. */
  function AssembleAccounts(ids: seq<string>, fetches: seq<Result<AccountBundle, string>>, today: int,
                            freshId: nat -> string): (r: seq<ConnectedAccount>)
    requires |fetches| == |ids|
    ensures |r| <= |ids|
    ensures r == Successes(ids, fetches, today, freshId)
    decreases |ids|
  {
    if |ids| == 0 then []
    else
      var n := |ids| - 1;
      SuccessesSnoc(ids, fetches, today, freshId);
      AssembleAccounts(ids[..n], fetches[..n], today, freshId)
        + match fetches[n]
          case Err(_) => []
          case Ok(b) => [ConnectedAccount(ids[n], b.details, b.balances, CombineTransactions(b, today, freshId))]
  }

  /** How many accounts' calls all succeeded. */
  function SuccessCount(fetches: seq<Result<AccountBundle, string>>): nat {
    if |fetches| == 0 then 0
    else SuccessCount(fetches[..|fetches| - 1]) + if fetches[|fetches| - 1].Ok? then 1 else 0
  }

  /** No account is lost but the failed ones, and each kept one is the account whose
      calls succeeded, with its details. */
  lemma {:induction false} AssembleKeepsExactlyTheSuccesses(ids: seq<string>, fetches: seq<Result<AccountBundle, string>>,
                                                           today: int, freshId: nat -> string)
    requires |fetches| == |ids|
    ensures |AssembleAccounts(ids, fetches, today, freshId)| == SuccessCount(fetches)
    ensures forall a :: a in AssembleAccounts(ids, fetches, today, freshId) ==>
      exists j :: 0 <= j < |ids| && ids[j] == a.id && fetches[j].Ok? && fetches[j].value.details == a.details
    decreases |ids|
  {
    if |ids| > 0 {
      var n := |ids| - 1;
      AssembleKeepsExactlyTheSuccesses(ids[..n], fetches[..n], today, freshId);
      var front := AssembleAccounts(ids[..n], fetches[..n], today, freshId);
      var last := match fetches[n]
        case Err(_) => []
        case Ok(b) => [ConnectedAccount(ids[n], b.details, b.balances, CombineTransactions(b, today, freshId))];
      assert AssembleAccounts(ids, fetches, today, freshId) == front + last;
      forall a | a in front + last
        ensures exists j :: 0 <= j < |ids| && ids[j] == a.id && fetches[j].Ok? && fetches[j].value.details == a.details
      {
        if a in front {
          var j :| 0 <= j < n && ids[..n][j] == a.id && fetches[..n][j].Ok? && fetches[..n][j].value.details == a.details;
          assert ids[j] == a.id && fetches[j] == fetches[..n][j];
        } else {
          assert a in last;
          assert ids[n] == a.id;
        }
      }
    }
  }

  /** `getConnectedAccountData`: refuses a requisition that is not linked ('LN'), skips
      the accounts whose calls fail, and names the institution (whose lookup failing is
      the call's failure). `fetches[i]` is the outcome of the calls for the i-th account. */
  function GetConnectedAccountData(requisition: Result<Requisition, string>, fetches: seq<Result<AccountBundle, string>>,
                                   institution: Result<Institution, string>, today: int, freshId: nat -> string): (r: Result<ConnectedData, string>)
    requires requisition.Ok? ==> |fetches| == |requisition.value.accounts|
    ensures requisition.Err? ==> r == Err(requisition.error)
    ensures requisition.Ok? && requisition.value.status != "LN" ==>
      r == Err("Requisition not ready. Status: " + requisition.value.status)
    ensures r.Ok? <==> requisition.Ok? && requisition.value.status == "LN" && institution.Ok?
    ensures r.Ok? ==>
      r.value.institution == institution.value.name
      && r.value.accounts == AssembleAccounts(requisition.value.accounts, fetches, today, freshId)
  {
    match requisition
    case Err(e) => Err(e)
    case Ok(req) =>
      if req.status != "LN" then Err("Requisition not ready. Status: " + req.status)
      else
        var accounts := AssembleAccounts(req.accounts, fetches, today, freshId);
        match institution
        case Err(e) => Err(e)
        case Ok(inst) => Ok(ConnectedData(accounts, inst.name))
  }

  /** The "not ready" failure is recognisable by its prefix. */
  lemma {:induction false} NotReadyIsRecognisable(status: string)
    ensures Contains("Requisition not ready. Status: " + status, "Requisition not ready")
  {
    assert "Requisition not ready. Status: " + status == "" + "Requisition not ready" + (". Status: " + status);
    ContainsInfix("", "Requisition not ready", ". Status: " + status);
  }
}

=== FILE: gocardless_routes.dfy ===
/** The GoCardless route handlers (app/api/gocardless/**/route.ts): the bank callback,
    the account-data GET and the connection-start POST, as functions from the session,
    the request and the client's outcomes to the reply. */
module GoCardlessRoutes {
  import opened Wrappers
  import opened Text
  import opened Sorting
  import opened GoCardless
  import opened RouteTypes

  // ---------------------------------------------------------------------------
  // Callback GET (app/api/gocardless/callback/route.ts:8-87)

  /** The `error`/`success`/`warning` flag and its value on the add-account page. */
  datatype CallbackOutcome =
    | Connected          // success=true
    | InProgress         // warning=true, status CR
    | OtherStatus        // warning=true, any other status
    | Rejected           // error=rejected
    | Expired            // error=expired
    | AuthorizationFailed
    | MissingData
    | CallbackFailed

  /** A redirect to /login?error=unauthorized, or to /dashboard/add-account with an
      outcome, a message and possibly the requisition id. */
  datatype GcCallbackReply =
    | ToLogin(baseUrl: string)
    | ToAddAccount(baseUrl: string, outcome: CallbackOutcome, message: string, requisitionId: Option<string>)

  /** The site URL the redirects are built on, `NEXTAUTH_URL || 'http://localhost:3000'`. */
  function SiteBase(nextAuthUrl: string): (r: string)
    ensures r != ""
    ensures nextAuthUrl != "" ==> r == nextAuthUrl
  {
    if nextAuthUrl != "" then nextAuthUrl else "http://localhost:3000"
  }

  /** The requisition id the callback looks up: `requisition_id`, else `ref`. */
  function CallbackRequisitionId(requisitionIdParam: string, refParam: string): (r: string)
    ensures r == "" <==> requisitionIdParam == "" && refParam == ""
    ensures requisitionIdParam != "" ==> r == requisitionIdParam
  {
    if requisitionIdParam != "" then requisitionIdParam else refParam
  }

  /** The outcome a looked-up requisition leads to. */
  function ClassifyRequisition(req: Requisition): (r: CallbackOutcome)
    ensures r == Connected <==> req.status == "LN" && |req.accounts| > 0
    ensures r == InProgress <==> !(req.status == "LN" && |req.accounts| > 0) && req.status == "CR"
    ensures r == Rejected <==> req.status == "RJ"
    ensures r == Expired <==> req.status == "EX"
    ensures r in {Connected, InProgress, Rejected, Expired, OtherStatus}
  {
    if req.status == "LN" && |req.accounts| > 0 then Connected
    else if req.status == "CR" then InProgress
    else if req.status == "RJ" then Rejected
    else if req.status == "EX" then Expired
    else OtherStatus
  }

  function OutcomeMessage(o: CallbackOutcome, status: string): string {
    match o
    case Connected => "Bank account connected successfully!"
    case InProgress => "Connection in progress. Please complete the authorization in your banking app."
    case OtherStatus => "Connection status: " + status + ". Please try again if needed."
    case Rejected => "Bank authorization was rejected. Please try again."
    case Expired => "Authorization link has expired. Please start over."
    case AuthorizationFailed => "Bank authorization was cancelled or failed"
    case MissingData => "Invalid callback - missing requisition ID"
    case CallbackFailed => "Failed to process bank authorization. Please try again."
  }

  /** The callback GET. Query parameters are "" when absent; `requisition` is the
      outcome of the lookup, made only once the user is signed in, no `error` came
      back and an id is present. Returns the redirect and whether the lookup was made. */
  function GcCallbackGet(nextAuthUrl: string, sessionEmail: Option<string>, requisitionIdParam: string, refParam: string,
                         errorParam: string, requisition: Result<Requisition, string>): (r: (GcCallbackReply, bool))
    ensures var base := SiteBase(nextAuthUrl);
      (!SignedIn(sessionEmail) <==> r.0 == ToLogin(base))
      && (r.0.ToAddAccount? ==> r.0.baseUrl == base)
    ensures r.1 <==> SignedIn(sessionEmail) && errorParam == "" && CallbackRequisitionId(requisitionIdParam, refParam) != ""
    ensures SignedIn(sessionEmail) && errorParam != "" ==> r.0.ToAddAccount? && r.0.outcome == AuthorizationFailed
    ensures SignedIn(sessionEmail) && errorParam == "" && CallbackRequisitionId(requisitionIdParam, refParam) == "" ==>
      r.0.ToAddAccount? && r.0.outcome == MissingData
    ensures r.1 && requisition.Err? ==> r.0.ToAddAccount? && r.0.outcome == CallbackFailed
    ensures r.1 && requisition.Ok? ==> r.0.ToAddAccount? && r.0.outcome == ClassifyRequisition(requisition.value)
    ensures r.0.ToAddAccount? ==>
      (r.0.requisitionId.Some? <==> r.0.outcome in {Connected, InProgress, OtherStatus})
      && (r.0.requisitionId.Some? ==> r.0.requisitionId == Some(CallbackRequisitionId(requisitionIdParam, refParam)))
  {
    var base := SiteBase(nextAuthUrl);
    if !SignedIn(sessionEmail) then (ToLogin(base), false)
    else if errorParam != "" then (ToAddAccount(base, AuthorizationFailed, OutcomeMessage(AuthorizationFailed, ""), None), false)
    else
      var id := CallbackRequisitionId(requisitionIdParam, refParam);
      if id == "" then (ToAddAccount(base, MissingData, OutcomeMessage(MissingData, ""), None), false)
      else
        match requisition
        case Err(_) => (ToAddAccount(base, CallbackFailed, OutcomeMessage(CallbackFailed, ""), None), true)
        case Ok(req) =>
          var o := ClassifyRequisition(req);
          (ToAddAccount(base, o, OutcomeMessage(o, req.status),
                        if o in {Connected, InProgress, OtherStatus} then Some(id) else None), true)
  }

  /** A linked requisition with no account is not a success: it is reported as an
      unexpected status, with its id. */
  lemma LinkedWithoutAccountsIsOtherStatus(nextAuthUrl: string, email: string, id: string, req: Requisition)
    requires email != "" && id != "" && req.status == "LN" && req.accounts == []
    ensures var r := GcCallbackGet(nextAuthUrl, Some(email), id, "", "", Ok(req)).0;
      r.ToAddAccount? && r.outcome == OtherStatus && r.requisitionId == Some(id)
  {
  }

  // ---------------------------------------------------------------------------
  // Data GET (app/api/gocardless/data/route.ts:8-135)

  datatype BalanceView = BalanceView(amount: int, currency: string, balanceType: string, date: int)

  datatype TransactionView = TransactionView(
    id: string,
    amount: int,
    currency: string,
    date: int,
    valueDate: Option<int>,
    description: string,
    debtorName: Option<string>,
    creditorName: Option<string>,
    debtorIban: Option<string>,
    creditorIban: Option<string>,
    bankTransactionCode: Option<string>,
    pending: bool)

  datatype AccountView = AccountView(
    id: string,
    iban: string,
    name: string,
    currency: string,
    ownerName: Option<string>,
    product: Option<string>,
    balances: seq<BalanceView>,
    transactions: seq<TransactionView>)

  datatype GcDataReply =
    | GcDataOk(institution: string, accounts: seq<AccountView>, accountCount: nat, totalTransactions: nat)
    | GcDataFailed(failure: Failure)

  function Truthy(s: Option<string>): bool {
    s.Some? && s.value != ""
  }

  /** The account's display name: its name, else its display name, else
      "<institution> Account". */
  function AccountName(d: AccountDetails, institution: string): (r: string)
    ensures Truthy(d.name) ==> r == d.name.value
    ensures !Truthy(d.name) && Truthy(d.displayName) ==> r == d.displayName.value
    ensures !Truthy(d.name) && !Truthy(d.displayName) ==> r == institution + " Account"
  {
    if Truthy(d.name) then d.name.value
    else if Truthy(d.displayName) then d.displayName.value
    else institution + " Account"
  }

  function ViewBalance(b: Balance, today: int): (r: BalanceView)
    ensures r.date == b.referenceDate.GetOr(today) && r.amount == b.amount
  {
    BalanceView(b.amount, b.currency, b.balanceType, b.referenceDate.GetOr(today))
  }

  function ViewTransaction(t: GcTransaction): (r: TransactionView)
    ensures r.id == t.transactionId && r.amount == t.amount && r.date == t.bookingDate
    ensures r.description == if Truthy(t.remittanceInformation) then t.remittanceInformation.value else "Transaction"
    ensures r.pending <==> t.pending == Some(true)
  {
    TransactionView(t.transactionId, t.amount, t.currency, t.bookingDate, t.valueDate,
                    if Truthy(t.remittanceInformation) then t.remittanceInformation.value else "Transaction",
                    t.debtorName, t.creditorName, t.debtorIban, t.creditorIban, t.bankTransactionCode,
                    t.pending == Some(true))
  }

  function ViewDate(v: TransactionView): int {
    v.date
  }

  /** An account as the route returns it: its transactions, converted, most recent
      booking date first. */
  function ViewAccount(a: ConnectedAccount, institution: string, today: int): (r: AccountView)
    ensures r.id == a.id && r.iban == a.details.iban && r.name == AccountName(a.details, institution)
    ensures |r.balances| == |a.balances|
    ensures forall k :: 0 <= k < |a.balances| ==> r.balances[k] == ViewBalance(a.balances[k], today)
    ensures SortedDesc(r.transactions, ViewDate)
    ensures multiset(r.transactions) == multiset(seq(|a.transactions|, k requires 0 <= k < |a.transactions| => ViewTransaction(a.transactions[k])))
    ensures r.transactions == SortDesc(seq(|a.transactions|, k requires 0 <= k < |a.transactions| => ViewTransaction(a.transactions[k])), ViewDate)
  {
    var views := seq(|a.transactions|, k requires 0 <= k < |a.transactions| => ViewTransaction(a.transactions[k]));
    AccountView(a.id, a.details.iban, AccountName(a.details, institution), a.details.currency,
                a.details.ownerName, a.details.product,
                seq(|a.balances|, k requires 0 <= k < |a.balances| => ViewBalance(a.balances[k], today)),
                SortDesc(views, ViewDate))
  }

  /** Every transaction of the account, and nothing else, is in its view. */
  lemma {:induction false} ViewKeepsEveryTransaction(a: ConnectedAccount, institution: string, today: int)
    ensures |ViewAccount(a, institution, today).transactions| == |a.transactions|
    ensures forall t :: t in a.transactions ==> ViewTransaction(t) in ViewAccount(a, institution, today).transactions
  {
    var views := seq(|a.transactions|, k requires 0 <= k < |a.transactions| => ViewTransaction(a.transactions[k]));
    var r := ViewAccount(a, institution, today).transactions;
    assert |multiset(r)| == |multiset(views)|;
    forall t | t in a.transactions ensures ViewTransaction(t) in r {
      var k :| 0 <= k < |a.transactions| && a.transactions[k] == t;
      assert views[k] == ViewTransaction(t);
      assert ViewTransaction(t) in multiset(views);
    }
  }

  /** The number of transactions over all accounts, `reduce((sum, acc) => sum + acc.transactions.length, 0)`. */
  function TotalTransactions(accounts: seq<AccountView>): nat {
    if |accounts| == 0 then 0
    else TotalTransactions(accounts[..|accounts| - 1]) + |accounts[|accounts| - 1].transactions|
  }

  /** The status of a failed data fetch, by its message. */
  function GcDataErrorStatus(message: string): (r: int)
    ensures r == 202 <==> Contains(message, "Requisition not ready")
    ensures r == 404 <==> !Contains(message, "Requisition not ready") && (Contains(message, "not found") || Contains(message, "404"))
    ensures r == 403 <==>
      !Contains(message, "Requisition not ready") && !(Contains(message, "not found") || Contains(message, "404"))
      && (Contains(message, "access_expired") || Contains(message, "expired"))
    ensures r in {202, 404, 403, 500}
  {
    if Contains(message, "Requisition not ready") then 202
    else if Contains(message, "not found") || Contains(message, "404") then 404
    else if Contains(message, "access_expired") || Contains(message, "expired") then 403
    else 500
  }

  function GcDataFailure(message: string, development: bool): (r: Failure)
    ensures r.status == GcDataErrorStatus(message)
    ensures r.details.Some? <==> r.status == 500 && development
    ensures r.details.Some? ==> r.details.value == message
  {
    match GcDataErrorStatus(message)
    case 202 => Failure(202, "Connection not ready", None,
                        Some("Bank connection is not yet ready. Please complete the authorization process or try again in a few moments."))
    case 404 => Failure(404, "Connection not found", None, Some("Bank connection not found. Please reconnect your bank account."))
    case 403 => Failure(403, "Access expired", None, Some("Bank access has expired. Please reconnect your bank account."))
    case _ => Failure(500, "Data fetch failed", if development then Some(message) else None,
                      Some("Failed to retrieve bank data. Please try again later."))
  }

  /** An API call that failed with HTTP 404 is answered 404 "Connection not found", the
      status being read back out of the client's error message; only a body that itself
      says "Requisition not ready" turns it into the 202 reply. */
  lemma {:induction false} ApiNotFoundIsConnectionNotFound(statusText: string, text: string, development: bool)
    ensures GcDataFailure(ApiErrorMessage(404, statusText, text), development).status
      == if Contains(ApiErrorMessage(404, statusText, text), "Requisition not ready") then 202 else 404
  {
    ApiErrorNamesStatus(404, statusText, text);
    assert IntToString(404) == "404" by {
      assert IntToString(4) == "4";
      assert IntToString(40) == "40";
    }
  }

  /** The data GET. `requisitionIdParam` is "" when absent; `data` is the outcome of
      `getConnectedAccountData` for it, `today` the current day. Returns the reply and
      whether the client was called. */
  function GcDataGet(sessionEmail: Option<string>, requisitionIdParam: string, data: Result<ConnectedData, string>,
                     today: int, development: bool): (r: (GcDataReply, bool))
    ensures !SignedIn(sessionEmail) ==> r == (GcDataFailed(Unauthenticated()), false)
    ensures SignedIn(sessionEmail) && requisitionIdParam == "" ==>
      r == (GcDataFailed(Failure(400, "Missing requisition_id parameter", None, None)), false)
    ensures r.1 <==> SignedIn(sessionEmail) && requisitionIdParam != ""
    ensures r.1 && data.Err? ==> r.0 == GcDataFailed(GcDataFailure(data.error, development))
    ensures r.1 && data.Ok? && |data.value.accounts| == 0 ==> r.0.GcDataFailed? && r.0.failure.status == 404
    ensures r.0.GcDataOk? <==> r.1 && data.Ok? && |data.value.accounts| > 0
    ensures r.0.GcDataOk? ==>
      r.0.institution == data.value.institution
      && r.0.accountCount == |data.value.accounts| == |r.0.accounts|
      && r.0.totalTransactions == TotalTransactions(r.0.accounts)
      && forall k :: 0 <= k < |r.0.accounts| ==> r.0.accounts[k] == ViewAccount(data.value.accounts[k], data.value.institution, today)
  {
    if !SignedIn(sessionEmail) then (GcDataFailed(Unauthenticated()), false)
    else if requisitionIdParam == "" then (GcDataFailed(Failure(400, "Missing requisition_id parameter", None, None)), false)
    else
      match data
      case Err(e) => (GcDataFailed(GcDataFailure(e, development)), true)
      case Ok(d) =>
        if |d.accounts| == 0 then
          (GcDataFailed(Failure(404, "No accounts found", None,
                                Some("No bank accounts were found for this connection. Please try connecting again."))), true)
        else
          var views := seq(|d.accounts|, k requires 0 <= k < |d.accounts| => ViewAccount(d.accounts[k], d.institution, today));
          (GcDataOk(d.institution, views, |d.accounts|, TotalTransactions(views)), true)
  }

  /** The number of transactions the client fetched over all accounts. */
  function FetchedCount(accounts: seq<ConnectedAccount>): nat {
    if |accounts| == 0 then 0 else FetchedCount(accounts[..|accounts| - 1]) + |accounts[|accounts| - 1].transactions|
  }

  /** Views with as many transactions as their accounts have the same total. */
  lemma {:induction false} TotalOfSameSizedViews(accounts: seq<ConnectedAccount>, views: seq<AccountView>)
    requires |views| == |accounts|
    requires forall k :: 0 <= k < |views| ==> |views[k].transactions| == |accounts[k].transactions|
    ensures TotalTransactions(views) == FetchedCount(accounts)
    decreases |accounts|
  {
    if |accounts| > 0 {
      var n := |accounts| - 1;
      TotalOfSameSizedViews(accounts[..n], views[..n]);
    }
  }

  /** The summary's transaction total is the number of transactions the client fetched
      over all accounts. */
  lemma {:induction false} TotalCountsEveryFetchedTransaction(accounts: seq<ConnectedAccount>, institution: string, today: int)
    ensures var views := seq(|accounts|, k requires 0 <= k < |accounts| => ViewAccount(accounts[k], institution, today));
      TotalTransactions(views) == FetchedCount(accounts)
  {
    var views := seq(|accounts|, k requires 0 <= k < |accounts| => ViewAccount(accounts[k], institution, today));
    forall k | 0 <= k < |views| ensures |views[k].transactions| == |accounts[k].transactions| {
      ViewKeepsEveryTransaction(accounts[k], institution, today);
    }
    TotalOfSameSizedViews(accounts, views);
  }

  /** A requisition that is not linked yet is answered 202, whatever its status. */
  lemma NotReadyRequisitionIs202(status: string, development: bool)
    ensures GcDataFailure("Requisition not ready. Status: " + status, development).status == 202
  {
    NotReadyIsRecognisable(status);
  }

  // ---------------------------------------------------------------------------
  // Auth POST (app/api/gocardless/auth/route.ts:8-75)

  /** The `bankName` key of the JSON body: missing (defaults to 'revolut'), null, or a string. */
  datatype BankNameField = BankNameAbsent | BankNameNull | BankName(name: string)

  datatype GcAuthReply =
    | AuthStarted(authUrl: string, requisitionId: string, institutionName: string, message: string)
    | AuthFailed(failure: Failure)

  /** The status of a failed connection start, by the error message. */
  function GcAuthErrorStatus(message: string): (r: int)
    ensures r == 400 <==> Contains(message, "Institution") && Contains(message, "not found")
    ensures r == 503 <==>
      !(Contains(message, "Institution") && Contains(message, "not found")) && Contains(message, "Failed to get access token")
    ensures r in {400, 503, 500}
  {
    if Contains(message, "Institution") && Contains(message, "not found") then 400
    else if Contains(message, "Failed to get access token") then 503
    else 500
  }

  /** The reply to a failed connection start. */
  function GcAuthFailure(message: string, development: bool): (r: Failure)
    ensures r.status == GcAuthErrorStatus(message)
    ensures r.details.Some? <==> r.status == 500 && development
    ensures r.details.Some? ==> r.details.value == message
  {
    match GcAuthErrorStatus(message)
    case 400 =>
      Failure(400, "Bank not supported", None,
              Some("The selected bank is not available through our service. Please try a different bank or contact support."))
    case 503 =>
      Failure(503, "Service configuration error", None, Some("Our banking service is temporarily unavailable. Please try again later."))
    case _ =>
      Failure(500, "Connection failed", if development then Some(message) else None,
              Some("Failed to initiate bank connection. Please try again later."))
  }

  const NullBankNameError := "Cannot read properties of null (reading 'toLowerCase')"

  /** The connection-start POST. `body` is the parsed JSON body (a parse failure carries
      its message); the remaining parameters are what `startBankConnection` receives
      from the API. A null bank name makes the lower-casing throw, once the first
      institution listing has succeeded. */
  function GcAuthPost(sessionEmail: Option<string>, body: Result<BankNameField, string>, now: int, siteUrl: string,
                      development: bool, listed: Result<seq<Institution>, string>, revolutListed: Result<seq<Institution>, string>,
                      agreement: Result<Option<string>, string>, requisition: Result<Requisition, string>): (r: GcAuthReply)
    ensures !SignedIn(sessionEmail) ==> r == AuthFailed(Unauthenticated())
    ensures SignedIn(sessionEmail) && body.Err? ==> r == AuthFailed(GcAuthFailure(body.error, development))
    ensures SignedIn(sessionEmail) && body == Ok(BankNameNull) && listed.Err? ==> r == AuthFailed(GcAuthFailure(listed.error, development))
    ensures SignedIn(sessionEmail) && body == Ok(BankNameNull) && listed.Ok? ==> r == AuthFailed(GcAuthFailure(NullBankNameError, development))
    ensures SignedIn(sessionEmail) && body.Ok? && !body.value.BankNameNull? ==>
      var bank := if body.value.BankName? then body.value.name else "revolut";
      var out := StartBankConnection(bank, sessionEmail.value, now, siteUrl, listed, revolutListed, agreement, requisition);
      (out.result.Ok? ==> r == AuthStarted(out.result.value.link, out.result.value.requisitionId, out.result.value.institutionName,
                                           "Please complete the authorization with " + out.result.value.institutionName))
      && (out.result.Err? ==> r == AuthFailed(GcAuthFailure(out.result.error, development)))
  {
    if !SignedIn(sessionEmail) then AuthFailed(Unauthenticated())
    else
      match body
      case Err(e) => AuthFailed(GcAuthFailure(e, development))
      case Ok(BankNameNull) =>
        // the listing is awaited before the name is lower-cased
        if listed.Err? then AuthFailed(GcAuthFailure(listed.error, development))
        else AuthFailed(GcAuthFailure(NullBankNameError, development))
      case Ok(BankNameAbsent) =>
        StartReply(StartBankConnection("revolut", sessionEmail.value, now, siteUrl, listed, revolutListed, agreement, requisition), development)
      case Ok(BankName(bank)) =>
        StartReply(StartBankConnection(bank, sessionEmail.value, now, siteUrl, listed, revolutListed, agreement, requisition), development)
  }

  function StartReply(out: StartOutcome, development: bool): GcAuthReply {
    match out.result
    case Ok(link) => AuthStarted(link.link, link.requisitionId, link.institutionName,
                                 "Please complete the authorization with " + link.institutionName)
    case Err(e) => AuthFailed(GcAuthFailure(e, development))
  }

  /** A body without `bankName` connects to Revolut. */
  lemma MissingBankNameMeansRevolut(email: string, now: int, siteUrl: string, development: bool,
                                    listed: Result<seq<Institution>, string>, revolutListed: Result<seq<Institution>, string>,
                                    agreement: Result<Option<string>, string>, requisition: Result<Requisition, string>)
    ensures GcAuthPost(Some(email), Ok(BankNameAbsent), now, siteUrl, development, listed, revolutListed, agreement, requisition)
      == GcAuthPost(Some(email), Ok(BankName("revolut")), now, siteUrl, development, listed, revolutListed, agreement, requisition)
  {
  }

  /** A bank no institution matches is answered 400 "Bank not supported". */
  lemma {:induction false} UnknownBankIsNotSupported(email: string, bankName: string, now: int, siteUrl: string, development: bool,
                                                   listed: Result<seq<Institution>, string>, revolutListed: Result<seq<Institution>, string>,
                                                   agreement: Result<Option<string>, string>, requisition: Result<Requisition, string>)
    requires email != ""
    requires ChooseInstitution(bankName, listed, revolutListed) == Ok(None)
    ensures var r := GcAuthPost(Some(email), Ok(BankName(bankName)), now, siteUrl, development, listed, revolutListed, agreement, requisition);
      r.AuthFailed? && r.failure.status == 400 && r.failure.error == "Bank not supported"
  {
    var out := StartBankConnection(bankName, email, now, siteUrl, listed, revolutListed, agreement, requisition);
    assert out.result == Err(NotFoundMessage(bankName));
    NotFoundMessageIsRecognisable(bankName);
    assert GcAuthErrorStatus(NotFoundMessage(bankName)) == 400;
    assert StartReply(out, development) == AuthFailed(GcAuthFailure(NotFoundMessage(bankName), development));
  }
}

=== FILE: history.dfy ===
/** The bounded in-memory histories of the Salt Edge client (lib/saltedge.ts): the
    structured log buffer (last 100 entries), the response-time window of the
    performance metrics (last 50 durations), and the pending-mode test counter capped
    at its total. Clock readings are explicit `now` parameters. */
module History {
  import opened Wrappers
  import opened Text

  /** The last `cap` elements of `s` (all of them when there are fewer): `s.slice(-cap)`
      as applied once `s` outgrew `cap`. */
  function Latest<T>(s: seq<T>, cap: nat): (r: seq<T>)
    ensures |r| == if |s| > cap then cap else |s|
    ensures r == s[|s| - |r|..]
  {
    if |s| > cap then s[|s| - cap..] else s
  }

  /** Push `x`, then keep only the last `cap` elements if the buffer outgrew `cap`. */
  function AppendBounded<T>(h: seq<T>, x: T, cap: nat): (r: seq<T>)
    requires cap > 0
    ensures |r| == if |h| + 1 > cap then cap else |h| + 1
    ensures r == (h + [x])[|h| + 1 - |r|..]
    ensures |h| < cap ==> r == h + [x]
    ensures |r| <= cap && |r| > 0 && r[|r| - 1] == x
  {
    Latest(h + [x], cap)
  }

  /** Pushing the elements of `xs` one at a time. */
  function Replay<T>(h: seq<T>, xs: seq<T>, cap: nat): seq<T>
    requires cap > 0
    decreases |xs|
  {
    if |xs| == 0 then h else Replay(AppendBounded(h, xs[0], cap), xs[1..], cap)
  }

  lemma LatestOfLatest<T>(a: seq<T>, x: T, cap: nat)
    requires cap > 0
    ensures Latest(Latest(a, cap) + [x], cap) == Latest(a + [x], cap)
  {
    if |a| > cap {
      assert Latest(a, cap) + [x] == (a + [x])[|a| - cap..];
    }
  }

  /** However many entries are pushed, the buffer holds exactly the most recent `cap`
      of everything ever pushed, oldest first: nothing reordered, nothing recent lost. */
  lemma {:induction false} ReplayKeepsLatest<T>(h: seq<T>, xs: seq<T>, cap: nat)
    requires cap > 0 && |h| <= cap
    ensures Replay(h, xs, cap) == Latest(h + xs, cap)
    decreases |xs|
  {
    if |xs| == 0 {
      assert h + xs == h;
    } else {
      var h1 := AppendBounded(h, xs[0], cap);
      ReplayKeepsLatest(h1, xs[1..], cap);
      assert Latest(h, cap) == h;
      LatestOfLatest(h, xs[0], cap);
      assert h1 == Latest(h + [xs[0]], cap);
      LatestSuffix(h + [xs[0]], xs[1..], cap);
      assert h + [xs[0]] + xs[1..] == h + xs;
    }
  }

  lemma {:induction false} LatestSuffix<T>(a: seq<T>, b: seq<T>, cap: nat)
    requires cap > 0
    ensures Latest(Latest(a, cap) + b, cap) == Latest(a + b, cap)
    decreases |b|
  {
    if |a| > cap {
      var la := Latest(a, cap);
      assert la == a[|a| - cap..];
      if |la + b| > cap {
        assert (la + b)[|la + b| - cap..] == (a + b)[|a + b| - cap..];
      } else {
        assert |b| == 0;
        assert a + b == a;
        assert la + b == la;
      }
    }
  }

  // ---------------------------------------------------------------------------
  // Structured log buffer (lib/saltedge.ts:139-209)

  const MaxLogEntries: nat := 100

  datatype Level = Info | Warn | Error | Debug

  function LevelName(l: Level): string {
    match l
    case Info => "info"
    case Warn => "warn"
    case Error => "error"
    case Debug => "debug"
  }

  datatype LogStatus = Success | Failed | Pending

  /** What a caller hands to `logSaltEdgeAction`: everything but the timestamp, with an
      optional level. The free-form `details` payload is not modelled. */
  datatype LogRequest = LogRequest(
    level: Option<Level>,
    action: string,
    endpoint: Option<string>,
    httpMethod: Option<string>,
    duration: Option<int>,
    status: Option<LogStatus>,
    error: Option<string>)

  datatype LogEntry = LogEntry(
    timestamp: int,
    level: Level,
    action: string,
    endpoint: Option<string>,
    httpMethod: Option<string>,
    duration: Option<int>,
    status: Option<LogStatus>,
    error: Option<string>)

  /** `logSaltEdgeAction`: stamps the entry with `now`, defaults the level to info,
      appends it and trims the buffer to the last 100 entries. */
  function LogSaltEdgeAction(history: seq<LogEntry>, req: LogRequest, now: int): (r: seq<LogEntry>)
    ensures |r| == if |history| + 1 > MaxLogEntries then MaxLogEntries else |history| + 1
    ensures |history| < MaxLogEntries ==> r[..|history|] == history
    ensures r[|r| - 1] == LogEntry(now, req.level.GetOr(Info), req.action, req.endpoint, req.httpMethod,
                                   req.duration, req.status, req.error)
    ensures r[|r| - 1].level == if req.level.Some? then req.level.value else Info
    ensures r == (history + [r[|r| - 1]])[|history| + 1 - |r|..]
  {
    var entry := LogEntry(now, req.level.GetOr(Info), req.action, req.endpoint, req.httpMethod,
                          req.duration, req.status, req.error);
    AppendBounded(history, entry, MaxLogEntries)
  }

  /** Keeps the entries whose level is named `level`, in order. */
  function FilterLevel(h: seq<LogEntry>, level: string): (r: seq<LogEntry>)
    ensures |r| <= |h|
    ensures forall e :: e in r <==> e in h && LevelName(e.level) == level
  {
    if |h| == 0 then []
    else
      var rest := FilterLevel(h[1..], level);
      assert forall e :: e in h <==> e == h[0] || e in h[1..];
      if LevelName(h[0].level) == level then [h[0]] + rest else rest
  }

  /** Keeps the entries whose action contains `action`, in order. */
  function FilterAction(h: seq<LogEntry>, action: string): (r: seq<LogEntry>)
    ensures |r| <= |h|
    ensures forall e :: e in r <==> e in h && Contains(e.action, action)
  {
    if |h| == 0 then []
    else
      var rest := FilterAction(h[1..], action);
      assert forall e :: e in h <==> e == h[0] || e in h[1..];
      if Contains(h[0].action, action) then [h[0]] + rest else rest
  }

  /** `array.slice(-n)` for a non-zero integer `n`: the last `n` elements when `n > 0`,
      and everything after the first `-n` elements when `n < 0`. */
  function SliceFromEnd<T>(s: seq<T>, n: int): (r: seq<T>)
    requires n != 0
    ensures n > 0 ==> r == Latest(s, n)
    ensures n < 0 ==> r == if -n >= |s| then [] else s[-n..]
  {
    if n > 0 then Latest(s, n) else if -n >= |s| then [] else s[-n..]
  }

  /** Filtering a concatenation filters each part: the level filter keeps the order of
      the entries it keeps. */
  lemma {:induction false} FilterLevelAppend(a: seq<LogEntry>, b: seq<LogEntry>, level: string)
    ensures FilterLevel(a + b, level) == FilterLevel(a, level) + FilterLevel(b, level)
    decreases |a|
  {
    if |a| == 0 {
      assert a + b == b;
    } else {
      assert (a + b)[1..] == a[1..] + b;
      FilterLevelAppend(a[1..], b, level);
    }
  }

  lemma FilterLevelSingle(e: LogEntry, level: string)
    ensures FilterLevel([e], level) == if LevelName(e.level) == level then [e] else []
  {
    assert [e][1..] == [];
  }

  /** The action filter keeps the order of the entries it keeps. */
  lemma {:induction false} FilterActionAppend(a: seq<LogEntry>, b: seq<LogEntry>, action: string)
    ensures FilterAction(a + b, action) == FilterAction(a, action) + FilterAction(b, action)
    decreases |a|
  {
    if |a| == 0 {
      assert a + b == b;
    } else {
      assert (a + b)[1..] == a[1..] + b;
      FilterActionAppend(a[1..], b, action);
    }
  }

  lemma FilterActionSingle(e: LogEntry, action: string)
    ensures FilterAction([e], action) == if Contains(e.action, action) then [e] else []
  {
    assert [e][1..] == [];
  }

  /** `e` passes the level and action filters that are given; a falsy filter passes
      every entry. */
  predicate Matches(e: LogEntry, level: Option<string>, action: Option<string>) {
    (level.Some? && level.value != "" ==> LevelName(e.level) == level.value)
    && (action.Some? && action.value != "" ==> Contains(e.action, action.value))
  }

  /** The entries of `h` that pass both filters, in order, selected in one pass. */
  function Matching(h: seq<LogEntry>, level: Option<string>, action: Option<string>): (r: seq<LogEntry>)
    ensures forall e :: e in r <==> e in h && Matches(e, level, action)
  {
    if |h| == 0 then []
    else
      var rest := Matching(h[1..], level, action);
      assert forall e :: e in h <==> e == h[0] || e in h[1..];
      (if Matches(h[0], level, action) then [h[0]] else []) + rest
  }

  /** The level filter, then the action filter, each only when given. */
  function Filtered(h: seq<LogEntry>, level: Option<string>, action: Option<string>): seq<LogEntry> {
    var byLevel := if level.Some? && level.value != "" then FilterLevel(h, level.value) else h;
    if action.Some? && action.value != "" then FilterAction(byLevel, action.value) else byLevel
  }

  /** Filtering by level and then by action keeps exactly the matching entries, in
      their order in the history. */
  lemma {:induction false} FilteredIsMatching(h: seq<LogEntry>, level: Option<string>, action: Option<string>)
    ensures Filtered(h, level, action) == Matching(h, level, action)
    decreases |h|
  {
    if |h| > 0 {
      FilteredIsMatching(h[1..], level, action);
      assert h == [h[0]] + h[1..];
      FilterLevelAppend([h[0]], h[1..], level.GetOr(""));
      FilterLevelSingle(h[0], level.GetOr(""));
      var byLevel := if level.Some? && level.value != "" then FilterLevel(h, level.value) else h;
      var byLevel0 := if level.Some? && level.value != "" then FilterLevel([h[0]], level.value) else [h[0]];
      var byLevelRest := if level.Some? && level.value != "" then FilterLevel(h[1..], level.value) else h[1..];
      assert byLevel == byLevel0 + byLevelRest;
      FilterActionAppend(byLevel0, byLevelRest, action.GetOr(""));
      if |byLevel0| == 1 {
        FilterActionSingle(h[0], action.GetOr(""));
      }
    }
  }

  /** `getSaltEdgeLogs`: optional filters by level (exact name) and by action
      (substring), then the last `lastN` entries. Empty strings and a zero or missing
      `lastN` are falsy and disable their filter, as in the source. */
  function GetSaltEdgeLogs(history: seq<LogEntry>, level: Option<string>, action: Option<string>, lastN: Option<int>): (r: seq<LogEntry>)
    ensures |r| <= |history|
    ensures forall e :: e in r ==> e in history && Matches(e, level, action)
    ensures !(lastN.Some? && lastN.value != 0) ==> r == Matching(history, level, action)
    ensures lastN.Some? && lastN.value > 0 ==> r == Latest(Matching(history, level, action), lastN.value)
    ensures lastN.Some? && lastN.value < 0 ==>
      var all := Matching(history, level, action);
      r == if -lastN.value >= |all| then [] else all[-lastN.value..]
    ensures level.None? && action.None? && lastN.None? ==> r == history
  {
    FilteredIsMatching(history, level, action);
    var byAction := Filtered(history, level, action);
    if lastN.Some? && lastN.value != 0 then SliceFromEnd(byAction, lastN.value) else byAction
  }

  /** `clearSaltEdgeLogs`. */
  function ClearSaltEdgeLogs(): (r: seq<LogEntry>)
    ensures |r| == 0
  {
    []
  }

  // ---------------------------------------------------------------------------
  // Performance metrics (lib/saltedge.ts:211-255)

  const MaxResponseTimes: nat := 50

  /** Request counters and the window of recent response times (ms). The running
      average and success rate are floating-point views of these and are not kept. */
  datatype Metrics = Metrics(
    totalRequests: nat,
    successfulRequests: nat,
    failedRequests: nat,
    responseTimes: seq<int>)

  function InitialMetrics(): Metrics {
    Metrics(0, 0, 0, [])
  }

  /** The counters add up, and the window holds at most 50 durations, no more than
      requests were recorded. */
  predicate MetricsValid(m: Metrics) {
    && m.successfulRequests + m.failedRequests == m.totalRequests
    && |m.responseTimes| <= MaxResponseTimes
    && |m.responseTimes| <= m.totalRequests
  }

  /** `recordApiPerformance`: counts one more request, as a success or a failure, and
      pushes its duration into the 50-entry window. */
  function RecordApiPerformance(m: Metrics, duration: int, success: bool): (r: Metrics)
    ensures r.totalRequests == m.totalRequests + 1
    ensures r.successfulRequests == m.successfulRequests + (if success then 1 else 0)
    ensures r.failedRequests == m.failedRequests + (if success then 0 else 1)
    ensures r.responseTimes == Latest(m.responseTimes + [duration], MaxResponseTimes)
    ensures MetricsValid(m) ==> MetricsValid(r)
  {
    Metrics(m.totalRequests + 1,
            if success then m.successfulRequests + 1 else m.successfulRequests,
            if success then m.failedRequests else m.failedRequests + 1,
            AppendBounded(m.responseTimes, duration, MaxResponseTimes))
  }

  // ---------------------------------------------------------------------------
  // Pending-mode test counter (lib/saltedge.ts:6-50)

  const TotalTests: nat := 10

  datatype TestRecord = TestRecord(timestamp: int, action: string, provider: Option<string>, success: bool)

  datatype TestTracker = TestTracker(totalTests: nat, usedTests: nat, testHistory: seq<TestRecord>)

  /** What `getTestStatus` reports: the tracker plus the tests left. */
  datatype TestStatus = TestStatus(totalTests: nat, usedTests: nat, testHistory: seq<TestRecord>, remainingTests: int)

  /** The tracker at module load and after `resetTestCounter`. */
  function InitialTestTracker(): TestTracker {
    TestTracker(TotalTests, 0, [])
  }

  /** Never more tests used than available, one history record per used test. */
  predicate TrackerValid(t: TestTracker) {
    t.usedTests <= t.totalTests && |t.testHistory| == t.usedTests
  }

  function GetTestStatus(t: TestTracker): (r: TestStatus)
    ensures r.usedTests + r.remainingTests == r.totalTests == t.totalTests
    ensures TrackerValid(t) ==> 0 <= r.remainingTests <= r.totalTests
  {
    TestStatus(t.totalTests, t.usedTests, t.testHistory, t.totalTests - t.usedTests)
  }

  /** `recordTestUsage`: while tests remain, uses one and records it; once all are used,
      changes nothing. `success` defaults to true. Returns the new tracker and its status. */
  function RecordTestUsage(t: TestTracker, action: string, provider: Option<string>, success: Option<bool>, now: int): (r: (TestTracker, TestStatus))
    ensures t.usedTests < t.totalTests ==>
      r.0.usedTests == t.usedTests + 1 && r.0.totalTests == t.totalTests
      && r.0.testHistory == t.testHistory + [TestRecord(now, action, provider, success.GetOr(true))]
    ensures t.usedTests >= t.totalTests ==> r.0 == t
    ensures TrackerValid(t) ==> TrackerValid(r.0)
    ensures r.1.remainingTests == r.1.totalTests - r.1.usedTests && r.1.usedTests == r.0.usedTests
  {
    var t1 := if t.usedTests < t.totalTests then
                TestTracker(t.totalTests, t.usedTests + 1,
                            t.testHistory + [TestRecord(now, action, provider, success.GetOr(true))])
              else t;
    (t1, GetTestStatus(t1))
  }

  /** Recording a batch of test usages one after another (all at time `now`). */
  function RecordAll(t: TestTracker, actions: seq<string>, now: int): TestTracker
    decreases |actions|
  {
    if |actions| == 0 then t
    else RecordAll(RecordTestUsage(t, actions[0], None, None, now).0, actions[1..], now)
  }

  /** After any number of attempts the counter saturates at the total: it counts the
      attempts until the tests run out and never goes past them. */
  lemma {:induction false} RecordAllSaturates(t: TestTracker, actions: seq<string>, now: int)
    requires TrackerValid(t)
    ensures var t' := RecordAll(t, actions, now);
      && TrackerValid(t')
      && t'.totalTests == t.totalTests
      && t'.usedTests == if t.usedTests + |actions| <= t.totalTests then t.usedTests + |actions| else t.totalTests
    decreases |actions|
  {
    if |actions| > 0 {
      RecordAllSaturates(RecordTestUsage(t, actions[0], None, None, now).0, actions[1..], now);
    }
  }
}

=== FILE: rate_limit.dfy ===
/** The fixed-window rate limiter of the Salt Edge client (lib/saltedge.ts):
    at most 15 requests per 60-second window in pending mode (50 otherwise), and at
    least 100 ms between two requests. The module-level tracker is an explicit value;
    the clock reading `Date.now()` is the parameter `now` (milliseconds). */
module RateLimit {

  const WindowMs: int := 60000
  const MinSpacingMs: int := 100

  /** Requests admitted in the current window, the end of that window, and the
      time of the last admitted request. */
  datatype Tracker = Tracker(requests: nat, resetTime: int, lastRequest: int)

  /** The tracker as the module creates it when loaded at time `loadTime`. */
  function InitialTracker(loadTime: int): Tracker {
    Tracker(0, loadTime + WindowMs, 0)
  }

  /** The window cap: 15 when SALTEDGE_STATUS is 'pending', 50 otherwise. */
  function MaxRequests(pendingMode: bool): nat {
    if pendingMode then 15 else 50
  }

  datatype Decision = Allowed | Denied(waitTime: int)

  /** The number of requests that count against the window at time `now`: a window
      that has ended counts nothing. */
  function WindowCount(t: Tracker, now: int): nat {
    if now >= t.resetTime then 0 else t.requests
  }

  /** `checkRateLimit`: first restarts an ended window, then refuses when the window
      is full (waiting until the window ends), then refuses when the last request was
      under 100 ms ago (waiting out the rest of the 100 ms), else admits. Returns the
      decision and the tracker after the possible window restart. */
  function CheckRateLimit(t: Tracker, now: int, pendingMode: bool): (r: (Decision, Tracker))
    ensures r.1.requests == WindowCount(t, now) && r.1.lastRequest == t.lastRequest
    ensures now >= t.resetTime ==> r.1.resetTime == now + WindowMs
    ensures now < t.resetTime ==> r.1 == t
    ensures now < r.1.resetTime
    ensures r.0.Allowed? <==>
      WindowCount(t, now) < MaxRequests(pendingMode) && now - t.lastRequest >= MinSpacingMs
    ensures r.0.Denied? && WindowCount(t, now) >= MaxRequests(pendingMode) ==>
      r.0.waitTime == r.1.resetTime - now
    ensures r.0.Denied? && WindowCount(t, now) < MaxRequests(pendingMode) ==>
      r.0.waitTime == MinSpacingMs - (now - t.lastRequest)
    ensures r.0.Denied? ==> r.0.waitTime > 0
  {
    var t1 := if now >= t.resetTime then t.(requests := 0, resetTime := now + WindowMs) else t;
    if t1.requests >= MaxRequests(pendingMode) then
      (Denied(t1.resetTime - now), t1)
    else if now - t1.lastRequest < MinSpacingMs then
      (Denied(MinSpacingMs - (now - t1.lastRequest)), t1)
    else
      (Allowed, t1)
  }

  /** `recordApiRequest`: one more request in the window, made at `now`. */
  function RecordApiRequest(t: Tracker, now: int): (r: Tracker)
    ensures r.requests == t.requests + 1 && r.lastRequest == now && r.resetTime == t.resetTime
  {
    t.(requests := t.requests + 1, lastRequest := now)
  }

  /** The outcome of the rate gate at the head of `makeRequest`: either the request
      goes out at time `at` (and was recorded), or "Rate limit exceeded" is thrown. */
  datatype GateOutcome =
    | Proceed(tracker: Tracker, at: int, checks: nat)
    | Exceeded(tracker: Tracker)

  /** The gate of `makeRequest`: check; when refused, wait once for the advised time
      (`setTimeout` fires `delay` >= 0 ms late), check once more, and throw if still
      refused. Only an admitted request is recorded, at the time of its admitting check. */
  function MakeRequestGate(t: Tracker, now: int, delay: nat, pendingMode: bool): (r: GateOutcome)
    ensures r.Proceed? ==> r.checks in {1, 2}
    ensures r.Proceed? && r.checks == 1 ==>
      r.at == now && r.tracker.requests == WindowCount(t, now) + 1
    ensures r.Proceed? ==> r.tracker.lastRequest == r.at && r.tracker.requests <= MaxRequests(pendingMode)
    ensures r.Proceed? && r.checks == 2 ==> r.at > now
    ensures r.Exceeded? ==>
      r.tracker.lastRequest == t.lastRequest && r.tracker.requests <= t.requests
    ensures r.Exceeded? ==> !CheckRateLimit(t, now, pendingMode).0.Allowed?
  {
    var (first, t1) := CheckRateLimit(t, now, pendingMode);
    if first.Allowed? then
      Proceed(RecordApiRequest(t1, now), now, 1)
    else
      var later := now + first.waitTime + delay;
      var (second, t2) := CheckRateLimit(t1, later, pendingMode);
      if second.Allowed? then Proceed(RecordApiRequest(t2, later), later, 2)
      else Exceeded(t2)
  }

  /** A full window refuses every further request until it ends, and the refusal
      advises waiting exactly until the window ends. */
  lemma FullWindowRefuses(t: Tracker, now: int, pendingMode: bool)
    requires t.requests >= MaxRequests(pendingMode) && now < t.resetTime
    ensures CheckRateLimit(t, now, pendingMode).0 == Denied(t.resetTime - now)
  {
  }

  /** Once the window has ended, the counter restarts and a request spaced at least
      100 ms after the previous one is admitted. */
  lemma EndedWindowAdmits(t: Tracker, now: int, pendingMode: bool)
    requires now >= t.resetTime && now - t.lastRequest >= MinSpacingMs
    ensures CheckRateLimit(t, now, pendingMode) == (Allowed, Tracker(0, now + WindowMs, t.lastRequest))
  {
  }

  /** A refusal for spacing alone is always lifted by waiting the advised time: the
      re-check in `makeRequest` then admits. */
  lemma {:induction false} SpacingWaitAlwaysAdmits(t: Tracker, now: int, delay: nat, pendingMode: bool)
    requires WindowCount(t, now) < MaxRequests(pendingMode)
    ensures MakeRequestGate(t, now, delay, pendingMode).Proceed?
  {
    var (first, t1) := CheckRateLimit(t, now, pendingMode);
    if first.Denied? {
      var later := now + first.waitTime + delay;
      assert later - t1.lastRequest >= MinSpacingMs;
      assert WindowCount(t1, later) <= t1.requests;
    }
  }

  /** As written, the window-full refusal advises waiting only until the window ends,
      ignoring the 100 ms spacing: when the last request fell less than 100 ms before
      the window end, the caller that waited exactly as advised is refused again and
      `makeRequest` throws. Here the 50th request of the window went out 50 ms
      before its end and the next call comes 10 ms before the end. */
  lemma GateRejectsAfterAdvisedWait()
    ensures MakeRequestGate(Tracker(50, 100000, 99950), 99990, 0, false).Exceeded?
  {
    assert CheckRateLimit(Tracker(50, 100000, 99950), 99990, false).0 == Denied(10);
    var t2 := CheckRateLimit(Tracker(50, 100000, 99950), 100000, false);
    assert t2.0 == Denied(50);
  }

  /** The evidently intended check: a window-full refusal advises the longer of the
      time to the window end and the rest of the 100 ms spacing. */
  function CheckRateLimitFixed(t: Tracker, now: int, pendingMode: bool): (r: (Decision, Tracker))
    ensures r.1 == CheckRateLimit(t, now, pendingMode).1
    ensures r.0.Allowed? <==> CheckRateLimit(t, now, pendingMode).0.Allowed?
    ensures r.0.Denied? ==> r.0.waitTime >= CheckRateLimit(t, now, pendingMode).0.waitTime
  {
    var t1 := if now >= t.resetTime then t.(requests := 0, resetTime := now + WindowMs) else t;
    var spacingWait := MinSpacingMs - (now - t1.lastRequest);
    if t1.requests >= MaxRequests(pendingMode) then
      (Denied(if spacingWait > t1.resetTime - now then spacingWait else t1.resetTime - now), t1)
    else if spacingWait > 0 then
      (Denied(spacingWait), t1)
    else
      (Allowed, t1)
  }

  /** The gate of `makeRequest` over the corrected check. */
  function MakeRequestGateFixed(t: Tracker, now: int, delay: nat, pendingMode: bool): (r: GateOutcome)
    ensures r.Proceed? ==> r.tracker.lastRequest == r.at && r.at >= now
  {
    var (first, t1) := CheckRateLimitFixed(t, now, pendingMode);
    if first.Allowed? then
      Proceed(RecordApiRequest(t1, now), now, 1)
    else
      var later := now + first.waitTime + delay;
      var (second, t2) := CheckRateLimitFixed(t1, later, pendingMode);
      if second.Allowed? then Proceed(RecordApiRequest(t2, later), later, 2)
      else Exceeded(t2)
  }

  /** With the corrected advice, waiting as advised always gets the request admitted:
      the re-check never throws, whatever the tracker, clock and timer lateness. */
  lemma {:induction false} FixedGateAlwaysProceeds(t: Tracker, now: int, delay: nat, pendingMode: bool)
    ensures MakeRequestGateFixed(t, now, delay, pendingMode).Proceed?
  {
    var (first, t1) := CheckRateLimitFixed(t, now, pendingMode);
    if first.Denied? {
      var later := now + first.waitTime + delay;
      assert later - t1.lastRequest >= MinSpacingMs;
      if t1.requests >= MaxRequests(pendingMode) {
        assert later >= t1.resetTime;
        assert WindowCount(t1, later) == 0;
      } else {
        assert WindowCount(t1, later) <= t1.requests;
      }
      assert CheckRateLimitFixed(t1, later, pendingMode).0.Allowed?;
    }
  }
}

=== FILE: revolut_routes.dfy ===
/** The Revolut route handlers (app/api/revolut/callback/route.ts and
    app/api/revolut/data/route.ts): the OAuth callback that stores the first account and
    its latest transactions in a cookie, and the data GET/DELETE that read and clear it.
    The session lookup is a `Result` (its failure is the handlers' outer error path);
    JSON (de)serialisation of the cookie is the identity on the stored record. Amounts
    are whole cents. */
module RevolutRoutes {
  import opened Wrappers
  import opened Text
  import opened RouteTypes

  // ---------------------------------------------------------------------------
  // Shared records

  datatype RevolutBalance = RevolutBalance(amount: Option<int>)

  datatype RevolutAccount = RevolutAccount(accountId: string, nickname: Option<string>, currency: Option<string>,
                                           balances: seq<RevolutBalance>)

  /** A transaction as the API returns it; `amount` is `None` when the object has no
      `amount` field. */
  datatype RevolutTransaction = RevolutTransaction(
    transactionId: string,
    transactionInformation: Option<string>,
    merchantName: Option<string>,
    amount: Option<int>,
    creditDebitIndicator: string,
    bookingDateTime: string)

  datatype TokenGrant = TokenGrant(accessToken: string, refreshToken: string, expiresIn: int)

  /** The JSON kept in the `revolut_data` cookie. */
  datatype StoredData = StoredData(accessToken: string, refreshToken: string, expiresIn: int,
                                   account: RevolutAccount, transactions: seq<RevolutTransaction>)

  datatype CookieOp =
    | DeleteCookie(name: string)
    | SetCookie(name: string, value: StoredData, maxAge: int, httpOnly: bool, secure: bool)

  // ---------------------------------------------------------------------------
  // Callback GET (app/api/revolut/callback/route.ts:8-98)

  datatype RevolutCall = ExchangeCode(code: string) | GetAccounts(accessToken: string)
                       | GetTransactions(accessToken: string, accountId: string)

  /** The `error` query value on /dashboard, or the success redirect. */
  datatype CallbackResult =
    | AuthFailed | MissingParameters | InvalidState | NoAccounts | ApiFailed | InternalError
    | ConnectedRevolut

  datatype RevolutRedirect = RedirectLogin(baseUrl: string) | RedirectDashboard(baseUrl: string, result: CallbackResult)

  datatype CallbackOutcome = CallbackOutcome(redirect: RevolutRedirect, cookies: seq<CookieOp>, calls: seq<RevolutCall>)

  /** How many of the fetched transactions are kept in the cookie. */
  const StoredTransactions: nat := 10

  const CookieMaxAgeSeconds: int := 3600

  function BaseUrl(nextAuthUrl: string): string {
    if nextAuthUrl != "" then nextAuthUrl else "http://localhost:3000"
  }

  /** The guards checked before any API call, in order: provider error, missing code or
      state, then a state cookie that is absent or differs. */
  function CallbackGuard(errorParam: string, code: string, state: string, storedState: string): (r: Option<CallbackResult>)
    ensures r == Some(AuthFailed) <==> errorParam != ""
    ensures r == Some(MissingParameters) <==> errorParam == "" && (code == "" || state == "")
    ensures r == Some(InvalidState) <==> errorParam == "" && code != "" && state != "" && storedState != state
    ensures r.None? <==> errorParam == "" && code != "" && state != "" && storedState == state
  {
    if errorParam != "" then Some(AuthFailed)
    else if code == "" || state == "" then Some(MissingParameters)
    else if storedState != state then Some(InvalidState)
    else None
  }

  /** The API part of the callback: token exchange, accounts, then the transactions of
      the first account; any failure of the three is `api_failed`. */
  function Connect(base: string, code: string, token: Result<TokenGrant, string>, accounts: Result<seq<RevolutAccount>, string>,
                   transactions: Result<seq<RevolutTransaction>, string>, production: bool): (r: CallbackOutcome)
    ensures |r.calls| >= 1 && r.calls[0] == ExchangeCode(code)
    ensures r.redirect.RedirectDashboard? && r.redirect.baseUrl == base
    ensures r.redirect.result == ConnectedRevolut <==>
      token.Ok? && accounts.Ok? && |accounts.value| > 0 && transactions.Ok?
    ensures r.redirect.result == NoAccounts <==> token.Ok? && accounts.Ok? && |accounts.value| == 0
    ensures r.redirect.result in {ConnectedRevolut, NoAccounts, ApiFailed}
    ensures r.cookies != [] <==> r.redirect.result == ConnectedRevolut
    ensures r.redirect.result == ConnectedRevolut ==>
      var fetched := transactions.value;
      var kept := if |fetched| < StoredTransactions then fetched else fetched[..StoredTransactions];
      r.calls == [ExchangeCode(code), GetAccounts(token.value.accessToken),
                  GetTransactions(token.value.accessToken, accounts.value[0].accountId)]
      && r.cookies == [DeleteCookie("revolut_state"), DeleteCookie("revolut_nonce"),
                       SetCookie("revolut_data", StoredData(token.value.accessToken, token.value.refreshToken,
                                                            token.value.expiresIn, accounts.value[0], kept),
                                 CookieMaxAgeSeconds, true, production)]
  {
    match token
    case Err(_) => CallbackOutcome(RedirectDashboard(base, ApiFailed), [], [ExchangeCode(code)])
    case Ok(grant) =>
      var calls := [ExchangeCode(code), GetAccounts(grant.accessToken)];
      match accounts
      case Err(_) => CallbackOutcome(RedirectDashboard(base, ApiFailed), [], calls)
      case Ok(accs) =>
        if |accs| == 0 then CallbackOutcome(RedirectDashboard(base, NoAccounts), [], calls)
        else
          var primary := accs[0];
          var calls' := calls + [GetTransactions(grant.accessToken, primary.accountId)];
          match transactions
          case Err(_) => CallbackOutcome(RedirectDashboard(base, ApiFailed), [], calls')
          case Ok(txs) =>
            var kept := if |txs| < StoredTransactions then txs else txs[..StoredTransactions];
            var data := StoredData(grant.accessToken, grant.refreshToken, grant.expiresIn, primary, kept);
            CallbackOutcome(RedirectDashboard(base, ConnectedRevolut),
                            [DeleteCookie("revolut_state"), DeleteCookie("revolut_nonce"),
                             SetCookie("revolut_data", data, CookieMaxAgeSeconds, true, production)],
                            calls')
  }

  /** The callback GET. Query parameters and the `revolut_state` cookie are "" when
      absent; `token`, `accounts` and `transactions` are the outcomes of the three API
      calls; `production` is whether NODE_ENV is 'production'. */
  function RevolutCallbackGet(nextAuthUrl: string, session: Result<Option<string>, string>, code: string, state: string,
                              errorParam: string, storedState: string, token: Result<TokenGrant, string>,
                              accounts: Result<seq<RevolutAccount>, string>, transactions: Result<seq<RevolutTransaction>, string>,
                              production: bool): (r: CallbackOutcome)
    ensures session.Err? ==> r == CallbackOutcome(RedirectDashboard(BaseUrl(nextAuthUrl), InternalError), [], [])
    ensures session.Ok? && !SignedIn(session.value) ==> r == CallbackOutcome(RedirectLogin(BaseUrl(nextAuthUrl)), [], [])
    ensures session.Ok? && SignedIn(session.value) && CallbackGuard(errorParam, code, state, storedState).Some? ==>
      r == CallbackOutcome(RedirectDashboard(BaseUrl(nextAuthUrl), CallbackGuard(errorParam, code, state, storedState).value), [], [])
    ensures r.calls != [] <==> session.Ok? && SignedIn(session.value) && CallbackGuard(errorParam, code, state, storedState).None?
    ensures r.calls != [] ==> r == Connect(BaseUrl(nextAuthUrl), code, token, accounts, transactions, production)
  {
    var base := BaseUrl(nextAuthUrl);
    match session
    case Err(_) => CallbackOutcome(RedirectDashboard(base, InternalError), [], [])
    case Ok(email) =>
      if !SignedIn(email) then CallbackOutcome(RedirectLogin(base), [], [])
      else
        match CallbackGuard(errorParam, code, state, storedState)
        case Some(failure) => CallbackOutcome(RedirectDashboard(base, failure), [], [])
        case None => Connect(base, code, token, accounts, transactions, production)
  }

  /** Without a matching state cookie no code is ever exchanged, whatever else the
      request carries. */
  lemma {:induction false} StateMismatchExchangesNothing(nextAuthUrl: string, session: Result<Option<string>, string>,
                                                       code: string, state: string, errorParam: string, storedState: string,
                                                       token: Result<TokenGrant, string>, accounts: Result<seq<RevolutAccount>, string>,
                                                       transactions: Result<seq<RevolutTransaction>, string>, production: bool)
    requires storedState != state
    ensures RevolutCallbackGet(nextAuthUrl, session, code, state, errorParam, storedState, token, accounts, transactions, production).calls == []
    ensures RevolutCallbackGet(nextAuthUrl, session, code, state, errorParam, storedState, token, accounts, transactions, production).cookies == []
  {
    assert CallbackGuard(errorParam, code, state, storedState).Some?;
  }

  // ---------------------------------------------------------------------------
  // Data GET and DELETE (app/api/revolut/data/route.ts:4-107)

  /** The `revolut_data` cookie: absent (or empty), not JSON, the JSON `null`, or a
      parsed object whose `account` and `transactions` keys may be missing. */
  datatype DataCookie =
    | NoCookie
    | Malformed
    | ParsedNull
    | Parsed(account: Option<RevolutAccount>, transactions: Option<seq<RevolutTransaction>>)

  /** What the callback's cookie reads back as. */
  function Stored(d: StoredData): DataCookie {
    Parsed(Some(d.account), Some(d.transactions))
  }

  datatype DashboardTransaction = DashboardTransaction(id: string, description: string, amount: int, date: string, category: string)

  datatype RevolutReply =
    | NotConnected
    | ConnectedData(accountName: string, balance: int, currency: string, transactions: seq<DashboardTransaction>)
    | DataFailed(failure: Failure)

  function OrEmpty(s: Option<string>): string {
    if s.Some? then s.value else ""
  }

  /** `mapTransactionCategory`: the first rule that matches, on the lower-cased
      merchant name and transaction information. */
  function MapTransactionCategory(t: RevolutTransaction): (r: string)
    requires t.amount.Some?
    ensures var m := ToLower(OrEmpty(t.merchantName));
      var info := ToLower(OrEmpty(t.transactionInformation));
      var ent := Contains(m, "spotify") || Contains(m, "netflix") || Contains(m, "youtube");
      var groc := Contains(m, "supermarket") || Contains(m, "grocery") || Contains(info, "food");
      var din := Contains(m, "restaurant") || Contains(m, "cafe") || Contains(info, "dining");
      var trans := Contains(m, "gas") || Contains(m, "fuel") || Contains(info, "transport");
      var income := t.creditDebitIndicator == "Credit" && t.amount.value > 100000;
      (r == "Entertainment" <==> ent)
      && (r == "Groceries" <==> !ent && groc)
      && (r == "Dining" <==> !ent && !groc && din)
      && (r == "Transport" <==> !ent && !groc && !din && trans)
      && (r == "Income" <==> !ent && !groc && !din && !trans && income)
      && (r == "Other" <==> !ent && !groc && !din && !trans && !income)
  {
    var m := ToLower(OrEmpty(t.merchantName));
    var info := ToLower(OrEmpty(t.transactionInformation));
    if Contains(m, "spotify") || Contains(m, "netflix") || Contains(m, "youtube") then "Entertainment"
    else if Contains(m, "supermarket") || Contains(m, "grocery") || Contains(info, "food") then "Groceries"
    else if Contains(m, "restaurant") || Contains(m, "cafe") || Contains(info, "dining") then "Dining"
    else if Contains(m, "gas") || Contains(m, "fuel") || Contains(info, "transport") then "Transport"
    else if t.creditDebitIndicator == "Credit" && t.amount.value > 100000 then "Income"
    else "Other"
  }

  /** The category does not depend on the case of the merchant name or the information. */
  lemma CategoryIgnoresCase(t: RevolutTransaction)
    requires t.amount.Some?
    ensures MapTransactionCategory(t.(merchantName := Some(ToLower(OrEmpty(t.merchantName))),
                                      transactionInformation := Some(ToLower(OrEmpty(t.transactionInformation)))))
      == MapTransactionCategory(t)
  {
    ToLowerIdempotent(OrEmpty(t.merchantName));
    ToLowerIdempotent(OrEmpty(t.transactionInformation));
  }

  /** The signed amount shown: debits negated, everything else as given. */
  function SignedAmount(t: RevolutTransaction): (r: int)
    requires t.amount.Some?
    ensures r == t.amount.value || r == -t.amount.value
    ensures t.amount.value > 0 ==> (r < 0 <==> t.creditDebitIndicator == "Debit")
  {
    t.amount.value * (if t.creditDebitIndicator == "Debit" then -1 else 1)
  }

  function DashboardView(t: RevolutTransaction): (r: DashboardTransaction)
    requires t.amount.Some?
    ensures r.id == t.transactionId && r.date == t.bookingDateTime
    ensures r.amount == SignedAmount(t) && r.category == MapTransactionCategory(t)
    ensures r.description == if OrEmpty(t.transactionInformation) != "" then t.transactionInformation.value
                             else if OrEmpty(t.merchantName) != "" then t.merchantName.value
                             else "Transaction"
  {
    DashboardTransaction(t.transactionId,
                         if OrEmpty(t.transactionInformation) != "" then t.transactionInformation.value
                         else if OrEmpty(t.merchantName) != "" then t.merchantName.value
                         else "Transaction",
                         SignedAmount(t), t.bookingDateTime, MapTransactionCategory(t))
  }

  predicate AllHaveAmounts(txs: seq<RevolutTransaction>) {
    forall k :: 0 <= k < |txs| ==> txs[k].amount.Some?
  }

  function AccountBalance(a: Option<RevolutAccount>): int {
    if a.Some? && |a.value.balances| > 0 && a.value.balances[0].amount.Some? then a.value.balances[0].amount.value else 0
  }

  const InvalidDataFormat := Failure(500, "Invalid data format", None, None)
  const InternalServerError := Failure(500, "Internal server error", None, None)

  /** The data GET: signed-out users get 401, no cookie means not connected, and a
      cookie that cannot be read (not JSON, `null`, or a transaction without an amount)
      is 500 "Invalid data format". Otherwise the stored account with its defaults
      ('Revolut Personal', a zero balance, 'EUR') and its transactions for display. */
  function RevolutDataGet(session: Result<Option<string>, string>, cookie: DataCookie): (r: RevolutReply)
    ensures session.Err? ==> r == DataFailed(InternalServerError)
    ensures session.Ok? && !SignedIn(session.value) ==> r == DataFailed(Unauthenticated())
    ensures session.Ok? && SignedIn(session.value) ==>
      (r == NotConnected <==> cookie == NoCookie)
      && (r == DataFailed(InvalidDataFormat) <==>
            cookie in {Malformed, ParsedNull}
            || (cookie.Parsed? && cookie.transactions.Some? && !AllHaveAmounts(cookie.transactions.value)))
    ensures r.ConnectedData? ==>
      cookie.Parsed?
      && var a := cookie.account;
         var txs := if cookie.transactions.Some? then cookie.transactions.value else [];
         r.accountName == (if a.Some? && OrEmpty(a.value.nickname) != "" then a.value.nickname.value else "Revolut Personal")
         && r.currency == (if a.Some? && OrEmpty(a.value.currency) != "" then a.value.currency.value else "EUR")
         && r.balance == AccountBalance(a)
         && |r.transactions| == |txs|
         && forall k :: 0 <= k < |txs| ==> txs[k].amount.Some? && r.transactions[k] == DashboardView(txs[k])
  {
    match session
    case Err(_) => DataFailed(InternalServerError)
    case Ok(email) =>
      if !SignedIn(email) then DataFailed(Unauthenticated())
      else
        match cookie
        case NoCookie => NotConnected
        case Malformed => DataFailed(InvalidDataFormat)
        case ParsedNull => DataFailed(InvalidDataFormat)
        case Parsed(a, maybeTxs) =>
          var txs := if maybeTxs.Some? then maybeTxs.value else [];
          if !AllHaveAmounts(txs) then DataFailed(InvalidDataFormat)
          else
            ConnectedData(if a.Some? && OrEmpty(a.value.nickname) != "" then a.value.nickname.value else "Revolut Personal",
                          AccountBalance(a),
                          if a.Some? && OrEmpty(a.value.currency) != "" then a.value.currency.value else "EUR",
                          seq(|txs|, k requires 0 <= k < |txs| && AllHaveAmounts(txs) => DashboardView(txs[k])))
  }

  /** What the callback stores, the data GET shows: the connected account and, for
      each of at most ten fetched transactions, its dashboard view. */
  lemma {:induction false} CallbackThenDataShowsStoredTransactions(base: string, code: string, grant: TokenGrant,
                                                                 accs: seq<RevolutAccount>, txs: seq<RevolutTransaction>,
                                                                 production: bool, email: string)
    requires |accs| > 0 && email != ""
    requires AllHaveAmounts(txs)
    ensures var out := Connect(base, code, Ok(grant), Ok(accs), Ok(txs), production);
      var r := RevolutDataGet(Ok(Some(email)), Stored(out.cookies[2].value));
      r.ConnectedData?
      && |r.transactions| == (if |txs| < StoredTransactions then |txs| else StoredTransactions)
      && forall k :: 0 <= k < |r.transactions| ==> r.transactions[k] == DashboardView(txs[k])
  {
    var out := Connect(base, code, Ok(grant), Ok(accs), Ok(txs), production);
    var kept := out.cookies[2].value.transactions;
    assert kept == if |txs| < StoredTransactions then txs else txs[..StoredTransactions];
    assert AllHaveAmounts(kept);
  }

  datatype DeleteReply = Disconnected(cookies: seq<CookieOp>) | DeleteFailed(failure: Failure)

  /** The DELETE: a signed-in user always gets `success: true` with the data cookie
      deleted. */
  function RevolutDataDelete(session: Result<Option<string>, string>): (r: DeleteReply)
    ensures r.Disconnected? <==> session.Ok? && SignedIn(session.value)
    ensures r.Disconnected? ==> r.cookies == [DeleteCookie("revolut_data")]
    ensures session.Ok? && !SignedIn(session.value) ==> r == DeleteFailed(Unauthenticated())
    ensures session.Err? ==> r == DeleteFailed(InternalServerError)
  {
    match session
    case Err(_) => DeleteFailed(InternalServerError)
    case Ok(email) =>
      if SignedIn(email) then Disconnected([DeleteCookie("revolut_data")]) else DeleteFailed(Unauthenticated())
  }
}

=== FILE: route_types.dfy ===
/** The shapes shared by the HTTP route handlers (app/api/**/route.ts): the error
    replies they build and the way they read the session. */
module RouteTypes {
  import opened Wrappers

  /** An error reply: the HTTP status, the `error` text, and the optional `details`
      and `message` fields. */
  datatype Failure = Failure(status: int, error: string, details: Option<string>, message: Option<string>)

  /** The signed-in user's email as the handlers test it (`!session?.user?.email`):
      a missing session, user or email, and an empty email, all mean signed out. */
  predicate SignedIn(sessionEmail: Option<string>) {
    sessionEmail.Some? && sessionEmail.value != ""
  }

  function Unauthenticated(): (r: Failure)
    ensures r.status == 401
  {
    Failure(401, "User not authenticated", None, None)
  }
}

=== FILE: saltedge_client.dfy ===
/** The decision logic of the Salt Edge client (lib/saltedge.ts:654-1131): the
    duplicate-customer retry of `createCustomer`, the per-account fan-out of
    `getConnectionTransactions`, the display formatting of transactions and accounts,
    and the configuration built by `createSaltEdgeClient`. Every remote call is an
    explicit `Result` outcome; the customer cache is threaded through as a value. */
module SaltEdgeClient {
  import opened Wrappers
  import opened Text
  import opened SaltEdgeTypes
  import opened CustomerCache
  import opened SaltEdgeErrors
  import opened Sorting

  // ---------------------------------------------------------------------------
  // createCustomer (lines 801-872)

  /** The result of `createCustomer`, the cache after it, and the identifiers for which
      a POST /customers request was issued, in order. */
  datatype CreateOutcome = CreateOutcome(result: Result<Customer, string>, cache: Cache, requested: seq<string>)

  /** The identifier used for the one retry after a duplicate: the original identifier,
      an underscore, and the millisecond timestamp. */
  function UniqueIdentifier(identifier: string, stamp: int): (r: string)
    ensures StartsWith(r, identifier + "_") && |r| > |identifier| + 1
  {
    identifier + "_" + IntToString(stamp)
  }

  /** The message of the error rethrown for a non-duplicate failure. */
  function CreateFailureMessage(info: ApiError): string {
    "Salt Edge Error [" + CodeName(info.code) + "]: " + info.userMessage
  }

  /** The message of the error thrown when the retry after a duplicate fails. */
  function RetryFailureMessage(retryError: RawError): string {
    "Impossible de créer le customer après conflit de doublon: "
      + (if retryError.message != "" then retryError.message else "Unknown error")
  }

  /** The part of `createCustomer` after a cache miss, on the cache left by the read:
      one create request whose success is cached under the identifier; a failure
      classified DUPLICATE_CUSTOMER triggers exactly one retry under a fresh identifier,
      whose success is cached under the ORIGINAL identifier at `stamp`; any other
      failure, or a failed retry, is an error and leaves the cache alone. */
  function CreateAfterMiss(c: Cache, identifier: string, now: int, stamp: int,
                           first: Result<Customer, RawError>, retry: Result<Customer, RawError>): (r: CreateOutcome)
    ensures 1 <= |r.requested| <= 2 && r.requested[0] == identifier
    ensures |r.requested| == 2 <==> first.Err? && ParseSaltEdgeError(first.error).code == DuplicateCustomer
    ensures |r.requested| == 2 ==> r.requested[1] == UniqueIdentifier(identifier, stamp)
    ensures r.result.Ok? <==> first.Ok? || (|r.requested| == 2 && retry.Ok?)
    ensures first.Ok? ==> r.result == Ok(first.value) && r.cache == SetCachedCustomer(c, identifier, first.value, now, Some(24))
    ensures |r.requested| == 2 && retry.Ok? ==>
      r.result == Ok(retry.value) && r.cache == SetCachedCustomer(c, identifier, retry.value, stamp, Some(24))
    ensures r.result.Err? ==> r.cache == c
    ensures r.result.Err? && |r.requested| == 1 ==> r.result.error == CreateFailureMessage(ParseSaltEdgeError(first.error))
    ensures r.result.Err? && |r.requested| == 2 ==> r.result.error == RetryFailureMessage(retry.error)
  {
    match first
    case Ok(customer) =>
      CreateOutcome(Ok(customer), SetCachedCustomer(c, identifier, customer, now, Some(24)), [identifier])
    case Err(e) =>
      var info := ParseSaltEdgeError(e);
      if info.code == DuplicateCustomer then
        var unique := UniqueIdentifier(identifier, stamp);
        match retry
        case Ok(customer) =>
          CreateOutcome(Ok(customer), SetCachedCustomer(c, identifier, customer, stamp, Some(24)), [identifier, unique])
        case Err(re) =>
          CreateOutcome(Err(RetryFailureMessage(re)), c, [identifier, unique])
      else
        CreateOutcome(Err(CreateFailureMessage(info)), c, [identifier])
  }

  /** `createCustomer(identifier)`: a live cache entry answers without any request;
      otherwise the remote create runs as in `CreateAfterMiss`. `first` and `retry` are
      the outcomes the remote create would give; `now` is the clock at the cache read
      and first caching, `stamp` the clock when a duplicate is handled. A success is
      always left in the cache under the requested identifier, and no other cache
      entry is ever added or changed. */
  function CreateCustomer(cache: Cache, identifier: string, now: int, stamp: int,
                          first: Result<Customer, RawError>, retry: Result<Customer, RawError>): (r: CreateOutcome)
    ensures GetCachedCustomer(cache, identifier, now).0.Some? ==>
      r == CreateOutcome(Ok(cache[identifier].customer), cache, [])
    ensures GetCachedCustomer(cache, identifier, now).0.None? ==>
      r == CreateAfterMiss(GetCachedCustomer(cache, identifier, now).1, identifier, now, stamp, first, retry)
    ensures r.result.Ok? ==> identifier in r.cache && r.cache[identifier].customer == r.result.value
    ensures forall k :: k in r.cache && k != identifier ==> k in cache && r.cache[k] == cache[k]
  {
    var (hit, cache1) := GetCachedCustomer(cache, identifier, now);
    if hit.Some? then CreateOutcome(Ok(hit.value), cache1, [])
    else CreateAfterMiss(cache1, identifier, now, stamp, first, retry)
  }

  /** Once `createCustomer` has succeeded, every call for the same identifier within
      the next 24 hours returns the same customer and issues no request, whatever the
      remote would now answer. */
  lemma {:induction false} CreateCustomerIsCachedForADay(
    cache: Cache, identifier: string, now: int, stamp: int,
    first: Result<Customer, RawError>, retry: Result<Customer, RawError>,
    later: int, stamp2: int, first2: Result<Customer, RawError>, retry2: Result<Customer, RawError>)
    requires GetCachedCustomer(cache, identifier, now).0.None?
    requires CreateCustomer(cache, identifier, now, stamp, first, retry).result.Ok?
    requires now <= stamp <= later <= now + 24 * MsPerHour
    ensures var r1 := CreateCustomer(cache, identifier, now, stamp, first, retry);
      var r2 := CreateCustomer(r1.cache, identifier, later, stamp2, first2, retry2);
      r2.requested == [] && r2.result == r1.result
  {
    var r1 := CreateCustomer(cache, identifier, now, stamp, first, retry);
    var e := r1.cache[identifier];
    assert e.ttl == 24 * MsPerHour;
    assert now <= e.created <= stamp;
    assert Live(e, later);
  }

  // ---------------------------------------------------------------------------
  // getConnectionTransactions (lines 965-986)

  /** The transactions of the successful per-account fetches, concatenated in account order. */
  function Collected(fetches: seq<Result<seq<Transaction>, RawError>>): seq<Transaction>
  {
    if |fetches| == 0 then []
    else
      var last := fetches[|fetches| - 1];
      Collected(fetches[..|fetches| - 1]) + (if last.Ok? then last.value else [])
  }

  /** The sort key of line 983. */
  function MadeOn(t: Transaction): int {
    t.madeOn
  }

  /** Most recent first: `made_on` never increases along the sequence. */
  predicate SortedByDateDesc(s: seq<Transaction>) {
    SortedDesc(s, MadeOn)
  }

  /** `getConnectionTransactions`: lists the connection's accounts (a failure there is
      the call's failure), fetches each account's transactions, skips accounts whose
      fetch fails, and returns everything fetched, most recent first. `fetches[i]` is
      the outcome of the fetch for the i-th account. */
  method GetConnectionTransactions(accounts: Result<seq<Account>, RawError>,
                                   fetches: seq<Result<seq<Transaction>, RawError>>)
    returns (r: Result<seq<Transaction>, RawError>)
    requires accounts.Ok? ==> |fetches| == |accounts.value|
    ensures accounts.Err? ==> r == Err(accounts.error)
    ensures accounts.Ok? ==> r.Ok? && multiset(r.value) == multiset(Collected(fetches))
    ensures accounts.Ok? ==> SortedByDateDesc(r.value)
    ensures accounts.Ok? ==> r == Ok(SortDesc(Collected(fetches), MadeOn))
  {
    if accounts.Err? {
      return Err(accounts.error);
    }
    var all: seq<Transaction> := [];
    var i := 0;
    while i < |accounts.value|
      invariant 0 <= i <= |fetches|
      invariant all == Collected(fetches[..i])
      decreases |accounts.value| - i
    {
      assert fetches[..i + 1][..i] == fetches[..i];
      if fetches[i].Ok? {
        all := all + fetches[i].value;
      }
      i := i + 1;
    }
    assert fetches[..i] == fetches;
    return Ok(SortDesc(all, MadeOn));
  }

  /** A failing account contributes nothing and hides nothing: the collected
      transactions are exactly those of the accounts whose fetch succeeded. */
  lemma {:induction false} CollectedCountsOnlySuccesses(fetches: seq<Result<seq<Transaction>, RawError>>, t: Transaction)
    ensures t in Collected(fetches) <==> exists i :: 0 <= i < |fetches| && fetches[i].Ok? && t in fetches[i].value
    decreases |fetches|
  {
    if |fetches| > 0 {
      var init := fetches[..|fetches| - 1];
      CollectedCountsOnlySuccesses(init, t);
      assert forall i :: 0 <= i < |init| ==> init[i] == fetches[i];
      if t in Collected(init) {
        var i :| 0 <= i < |init| && init[i].Ok? && t in init[i].value;
        assert fetches[i].Ok? && t in fetches[i].value;
      }
    }
  }

  // ---------------------------------------------------------------------------
  // Display formatting (lines 1042-1084)

  datatype Direction = Credit | Debit

  datatype DisplayTransaction = DisplayTransaction(
    id: string,
    date: int,
    description: string,
    amount: int,
    currency: string,
    direction: Direction,
    category: string,
    balance: Option<int>)

  /** `formatTransactionForDisplay`: the absolute amount with a direction, credit for
      amounts >= 0; together they give back the signed amount. */
  function FormatTransactionForDisplay(t: Transaction): (r: DisplayTransaction)
    ensures r.amount >= 0
    ensures r.direction == Credit <==> t.amount >= 0
    ensures (if r.direction == Credit then r.amount else -r.amount) == t.amount
    ensures r.id == t.id && r.date == t.madeOn && r.balance == t.balanceSnapshot
  {
    DisplayTransaction(t.id, t.madeOn, t.description, if t.amount < 0 then -t.amount else t.amount,
                       t.currencyCode, if t.amount >= 0 then Credit else Debit, t.category, t.balanceSnapshot)
  }

  datatype DisplayAccount = DisplayAccount(
    id: string,
    name: string,
    balance: int,
    currency: string,
    accountType: string,
    iban: Option<string>,
    accountNumber: Option<string>)

  /** `formatAccountForDisplay`: the nature becomes the display type. */
  function FormatAccountForDisplay(a: Account): DisplayAccount {
    DisplayAccount(a.id, a.name, a.balance, a.currencyCode, a.nature, a.extra.iban, a.extra.accountNumber)
  }

  // ---------------------------------------------------------------------------
  // createSaltEdgeClient (lines 1087-1131)

  const DefaultBaseUrl := "https://www.saltedge.com/api/v6"

  predicate IsDigit(c: char) {
    '0' <= c <= '9'
  }

  /** The regular expression /\/api\/v\d+/i matches at the start of `s`. */
  predicate VersionAtStart(s: string) {
    |s| >= 7 && ToLower(s[..6]) == "/api/v" && IsDigit(s[6])
  }

  /** The regular expression /\/api\/v\d+/i matches somewhere in `s`. */
  predicate HasApiVersion(s: string)
    decreases |s|
  {
    VersionAtStart(s) || (|s| > 0 && HasApiVersion(s[1..]))
  }

  /** The version segment this client writes is recognised by the version test. */
  lemma V6AtStart(rest: string)
    ensures VersionAtStart("/api/v6" + rest)
  {
    var s := "/api/v6" + rest;
    assert s[..6] == "/api/v";
    assert ToLower("/api/v") == "/api/v";
  }

  lemma {:induction false} HasApiVersionInfix(a: string, b: string)
    requires VersionAtStart(b)
    ensures HasApiVersion(a + b)
    decreases |a|
  {
    if |a| == 0 {
      assert a + b == b;
    } else {
      assert (a + b)[1..] == a[1..] + b;
      HasApiVersionInfix(a[1..], b);
    }
  }

  /** The base URL the client is built with: `SALTEDGE_BASE_URL` (default the v6 URL),
      with the first "/api/v5" upgraded to "/api/v6", and "/api/v6" appended (after
      dropping trailing slashes) when no API version appears in it. An empty `raw`
      is an unset variable. */
  function NormaliseBaseUrl(raw: string): (r: string)
    ensures HasApiVersion(r)
    ensures !Contains(raw, "/api/v5") && HasApiVersion(raw) ==> r == raw
  {
    var base := if raw != "" then raw else DefaultBaseUrl;
    var corrected := ReplaceFirst(base, "/api/v5", "/api/v6");
    if HasApiVersion(corrected) then corrected
    else
      var trimmed := TrimTrailing(corrected, '/');
      V6AtStart("");
      assert "/api/v6" + "" == "/api/v6";
      HasApiVersionInfix(trimmed, "/api/v6");
      trimmed + "/api/v6"
  }

  /** A string without the character '5' does not contain "/api/v5". */
  lemma {:induction false} NoFiveNoV5(s: string)
    requires forall j :: 0 <= j < |s| ==> s[j] != '5'
    ensures !Contains(s, "/api/v5")
    decreases |s|
  {
    if 7 <= |s| {
      assert s[..7][6] != "/api/v5"[6];
    }
    if |s| > 0 {
      NoFiveNoV5(s[1..]);
    }
  }

  /** The default base URL already names API v6 and not v5, so it is used as is. */
  lemma DefaultBaseUrlIsV6()
    ensures HasApiVersion(DefaultBaseUrl) && !Contains(DefaultBaseUrl, "/api/v5")
  {
    var host := "https://www.saltedge.com";
    assert DefaultBaseUrl == host + "/api/v6";
    V6AtStart("");
    assert "/api/v6" + "" == "/api/v6";
    HasApiVersionInfix(host, "/api/v6");
    DefaultHasNoFive();
    NoFiveNoV5(DefaultBaseUrl);
  }

  lemma DefaultHasNoFive()
    ensures forall j :: 0 <= j < |DefaultBaseUrl| ==> DefaultBaseUrl[j] != '5'
  {
  }

  /** A URL that names no API version once v5 is corrected gets "/api/v6" appended,
      after its trailing slashes are dropped. */
  lemma UnversionedBaseUrlGetsV6(raw: string)
    ensures var corrected := ReplaceFirst(if raw != "" then raw else DefaultBaseUrl, "/api/v5", "/api/v6");
      !HasApiVersion(corrected) ==> NormaliseBaseUrl(raw) == TrimTrailing(corrected, '/') + "/api/v6"
  {
  }

  /** With `SALTEDGE_BASE_URL` unset the client uses the default v6 URL as is. */
  lemma UnsetBaseUrlIsDefault()
    ensures NormaliseBaseUrl("") == DefaultBaseUrl
  {
    DefaultBaseUrlIsV6();
  }

  /** Normalising is idempotent on every URL it produces that no longer mentions v5. */
  lemma NormaliseIsStable(raw: string)
    requires !Contains(NormaliseBaseUrl(raw), "/api/v5")
    ensures NormaliseBaseUrl(NormaliseBaseUrl(raw)) == NormaliseBaseUrl(raw)
  {
  }

  /** A stale v5 base URL is upgraded in place, never extended. */
  lemma {:induction false} V5UrlIsUpgraded(prefix: string, suffix: string)
    requires !Contains(prefix, "/api/v5")
    ensures NormaliseBaseUrl(prefix + "/api/v5" + suffix) == prefix + "/api/v6" + suffix
  {
    var raw := prefix + "/api/v5" + suffix;
    FirstOccurrenceAfterClearPrefix(prefix, suffix);
    assert |raw| > 0;
    var k := |prefix|;
    assert raw[..k] == prefix;
    assert raw[k + 7..] == suffix;
    var r := prefix + "/api/v6" + suffix;
    assert ReplaceFirst(raw, "/api/v5", "/api/v6") == r;
    V6AtStart(suffix);
    HasApiVersionInfix(prefix, "/api/v6" + suffix);
    assert prefix + ("/api/v6" + suffix) == r;
  }

  /** "/api/v5" cannot overlap a copy of itself, so when `prefix` does not contain it,
      its first occurrence in `prefix + "/api/v5" + suffix` starts right after `prefix`. */
  lemma {:induction false} FirstOccurrenceAfterClearPrefix(prefix: string, suffix: string)
    requires !Contains(prefix, "/api/v5")
    ensures IndexOf(prefix + "/api/v5" + suffix, "/api/v5") == Some(|prefix|)
    decreases |prefix|
  {
    var p := "/api/v5";
    var s := prefix + p + suffix;
    if |prefix| == 0 {
      assert s == p + suffix;
      assert s[..|p|] == p;
    } else {
      assert s[1..] == prefix[1..] + p + suffix;
      var k := |prefix|;
      if k >= 7 {
        assert s[..7] == prefix[..7];
      } else if k == 4 {
        assert s[5] == p[1] != p[5];
      } else {
        assert s[k] == p[0] != p[k];
      }
      assert !StartsWith(s, p);
      FirstOccurrenceAfterClearPrefix(prefix[1..], suffix);
    }
  }

  /** The environment variables the client reads; "" is unset. */
  datatype ClientEnv = ClientEnv(baseUrl: string, appId: string, secret: string, publicKey: string, privateKey: string)

  /** The keys of the partial configuration passed by a caller; a present key wins. */
  datatype ConfigOverrides = ConfigOverrides(
    appId: Option<string>, secret: Option<string>, baseUrl: Option<string>,
    publicKey: Option<string>, privateKey: Option<string>)

  datatype ClientConfig = ClientConfig(appId: string, secret: string, baseUrl: string, publicKey: string, privateKey: string)

  /** Requests are signed only when a private key is configured; without one the
      client runs in pending mode. */
  predicate PendingMode(c: ClientConfig) {
    c.privateKey == ""
  }

  /** `createSaltEdgeClient`: the normalised environment configuration overridden by
      the caller's keys; refused unless both an app id and a secret are set. */
  function CreateSaltEdgeClient(env: ClientEnv, overrides: ConfigOverrides): (r: Result<ClientConfig, string>)
    ensures r.Ok? <==> overrides.appId.GetOr(env.appId) != "" && overrides.secret.GetOr(env.secret) != ""
    ensures r.Err? ==> r.error == "SALTEDGE_APP_ID and SALTEDGE_SECRET environment variables are required"
    ensures r.Ok? && overrides.baseUrl.None? ==> HasApiVersion(r.value.baseUrl)
    ensures r.Ok? ==> r.value.appId == overrides.appId.GetOr(env.appId)
  {
    var config := ClientConfig(
      overrides.appId.GetOr(env.appId),
      overrides.secret.GetOr(env.secret),
      overrides.baseUrl.GetOr(NormaliseBaseUrl(env.baseUrl)),
      overrides.publicKey.GetOr(env.publicKey),
      overrides.privateKey.GetOr(env.privateKey));
    if config.appId == "" || config.secret == "" then
      Err("SALTEDGE_APP_ID and SALTEDGE_SECRET environment variables are required")
    else Ok(config)
  }
}

=== FILE: saltedge_errors.dfy ===
/** `parseSaltEdgeError` (lib/saltedge.ts:379-652): the translation of whatever a failed
    Salt Edge call threw into one application error with a stable code, the raw
    message, a user-facing (French) message and a retryable flag. The thrown value's
    duck-typed shape is the record `RawError`; a missing or falsy string field is "". */
module SaltEdgeErrors {
  import opened Wrappers
  import opened Text

  datatype ErrorCode =
    | DuplicateCustomer | CustomerNotFound | ConnectionNotFound | ProviderNotFound
    | ProviderDisabled | InvalidCredentials | ConnectionFailed | SessionExpired
    | RateLimit | Maintenance | UnknownSaltEdgeError | NetworkError
    | BadRequest | Unauthorized | Forbidden | NotFound | ServerError | HttpError
    | UnknownError

  /** The code string the source puts in `code`. */
  function CodeName(c: ErrorCode): string {
    match c
    case DuplicateCustomer => "DUPLICATE_CUSTOMER"
    case CustomerNotFound => "CUSTOMER_NOT_FOUND"
    case ConnectionNotFound => "CONNECTION_NOT_FOUND"
    case ProviderNotFound => "PROVIDER_NOT_FOUND"
    case ProviderDisabled => "PROVIDER_DISABLED"
    case InvalidCredentials => "INVALID_CREDENTIALS"
    case ConnectionFailed => "CONNECTION_FAILED"
    case SessionExpired => "SESSION_EXPIRED"
    case RateLimit => "RATE_LIMIT"
    case Maintenance => "MAINTENANCE"
    case UnknownSaltEdgeError => "UNKNOWN_SALT_EDGE_ERROR"
    case NetworkError => "NETWORK_ERROR"
    case BadRequest => "BAD_REQUEST"
    case Unauthorized => "UNAUTHORIZED"
    case Forbidden => "FORBIDDEN"
    case NotFound => "NOT_FOUND"
    case ServerError => "SERVER_ERROR"
    case HttpError => "HTTP_ERROR"
    case UnknownError => "UNKNOWN_ERROR"
  }

  /** A Salt Edge error object: `{class, message}` (v6) or `{error_class, error_message}` (v5). */
  datatype ClassAndMessage = ClassAndMessage(errorClass: string, message: string)

  /** The JSON body of a failed response: its v6 `error` object and its v5 `error_message`. */
  datatype ErrorBody = ErrorBody(error: Option<ClassAndMessage>, errorMessage: string)

  /** `error.response`: its (v5) `data`, when truthy, and its HTTP status. */
  datatype HttpResponse = HttpResponse(data: Option<ClassAndMessage>, status: int)

  /** The fields of a thrown value that `parseSaltEdgeError` inspects. */
  datatype RawError = RawError(
    saltEdgeError: Option<ErrorBody>,
    code: string,
    error: Option<ClassAndMessage>,
    response: Option<HttpResponse>,
    message: string)

  datatype ApiError = ApiError(code: ErrorCode, message: string, userMessage: string, retryable: bool)

  const DuplicateUserMessage := "Profil utilisateur déjà existant (géré automatiquement)"
  const CustomerNotFoundUserMessage := "Profil utilisateur introuvable. Veuillez recréer votre connexion."
  const ProviderNotFoundUserMessage := "Banque non supportée. Veuillez choisir une autre banque."
  const UnexpectedServiceUserMessage := "Erreur inattendue du service bancaire. Contactez le support."

  /** Which part of the thrown value decides the classification: the first present of
      the payload preserved by `makeRequest`, a network error code, a top-level v6
      error object, a v5 response body, a bare HTTP status; else nothing. */
  datatype Source = Preserved | Network | TopLevel | LegacyBody | Status | Generic

  function SourceOf(e: RawError): Source {
    if e.saltEdgeError.Some? && e.saltEdgeError.value.error.Some? then Preserved
    else if e.code == "ENOTFOUND" || e.code == "ECONNREFUSED" then Network
    else if e.error.Some? then TopLevel
    else if e.response.Some? && e.response.value.data.Some? then LegacyBody
    else if e.response.Some? then Status
    else Generic
  }

  /** The table for an error object preserved by `makeRequest` (lines 391-449): five
      classes, with ApiKeyNotFound read as non-retryable invalid credentials. */
  function ClassifyPreserved(cm: ClassAndMessage): (r: ApiError)
    ensures r.code in {DuplicateCustomer, CustomerNotFound, ProviderNotFound, RateLimit, InvalidCredentials, UnknownSaltEdgeError}
    ensures r.retryable <==> r.code == RateLimit
  {
    match cm.errorClass
    case "DuplicatedCustomer" => ApiError(DuplicateCustomer, cm.message, DuplicateUserMessage, false)
    case "CustomerNotFound" => ApiError(CustomerNotFound, cm.message, CustomerNotFoundUserMessage, false)
    case "ProviderNotFound" => ApiError(ProviderNotFound, cm.message, ProviderNotFoundUserMessage, false)
    case "RateLimitExceeded" =>
      ApiError(RateLimit, cm.message, "Trop de tentatives. Veuillez patienter quelques minutes.", true)
    case "ApiKeyNotFound" =>
      ApiError(InvalidCredentials, cm.message, "Identifiants API invalides. Vérifiez votre configuration.", false)
    case _ =>
      ApiError(UnknownSaltEdgeError, if cm.message != "" then cm.message else "Unknown Salt Edge error",
               UnexpectedServiceUserMessage, false)
  }

  /** The table for a top-level v6 error object (lines 462-555): ten classes. */
  function ClassifyTopLevel(cm: ClassAndMessage): (r: ApiError)
    ensures r.code !in {NetworkError, BadRequest, Unauthorized, Forbidden, NotFound, ServerError, HttpError, UnknownError}
    ensures r.retryable <==> r.code in {ProviderDisabled, InvalidCredentials, ConnectionFailed, SessionExpired, RateLimit, Maintenance}
  {
    match cm.errorClass
    case "DuplicatedCustomer" => ApiError(DuplicateCustomer, cm.message, DuplicateUserMessage, false)
    case "CustomerNotFound" => ApiError(CustomerNotFound, cm.message, CustomerNotFoundUserMessage, false)
    case "ConnectionNotFound" =>
      ApiError(ConnectionNotFound, cm.message, "Connexion bancaire introuvable. Veuillez vous reconnecter.", false)
    case "ProviderNotFound" => ApiError(ProviderNotFound, cm.message, ProviderNotFoundUserMessage, false)
    case "ProviderDisabled" =>
      ApiError(ProviderDisabled, cm.message, "Cette banque est temporairement indisponible. Essayez une autre banque.", true)
    case "InvalidCredentials" =>
      ApiError(InvalidCredentials, cm.message, "Identifiants bancaires incorrects. Vérifiez vos informations.", true)
    case "ConnectionFailed" =>
      ApiError(ConnectionFailed, cm.message, "Échec de la connexion bancaire. Vérifiez vos identifiants.", true)
    case "SessionExpired" =>
      ApiError(SessionExpired, cm.message, "Session expirée. Veuillez recommencer la connexion.", true)
    case "RateLimitExceeded" =>
      ApiError(RateLimit, cm.message, "Trop de tentatives. Veuillez patienter quelques minutes.", true)
    case "MaintenanceMode" =>
      ApiError(Maintenance, cm.message, "Service en maintenance. Veuillez réessayer plus tard.", true)
    case _ =>
      ApiError(UnknownSaltEdgeError, if cm.message != "" then cm.message else "Unknown Salt Edge error",
               UnexpectedServiceUserMessage, false)
  }

  /** The table for a legacy v5 body (lines 558-579): only duplicates are recognised. */
  function ClassifyLegacy(cm: ClassAndMessage): (r: ApiError)
    ensures r.code == DuplicateCustomer <==> cm.errorClass == "DuplicatedCustomer"
    ensures r.code != DuplicateCustomer ==> r.code == UnknownSaltEdgeError
    ensures !r.retryable
  {
    if cm.errorClass == "DuplicatedCustomer" then ApiError(DuplicateCustomer, cm.message, DuplicateUserMessage, false)
    else ApiError(UnknownSaltEdgeError, if cm.message != "" then cm.message else "Unknown Salt Edge error (v5)",
                  UnexpectedServiceUserMessage, false)
  }

  /** The table for a bare HTTP status (lines 582-642). */
  function ClassifyStatus(status: int): (r: ApiError)
    ensures r.retryable <==> status !in {400, 401, 403, 404}
    ensures r.code == RateLimit <==> status == 429
    ensures r.code == HttpError <==> status !in {400, 401, 403, 404, 429, 500}
  {
    match status
    case 400 => ApiError(BadRequest, "Invalid request parameters", "Paramètres de requête invalides. Veuillez réessayer.", false)
    case 401 => ApiError(Unauthorized, "Authentication failed", "Authentification échouée. Vérifiez la configuration.", false)
    case 403 => ApiError(Forbidden, "Access denied", "Accès refusé. Vérifiez vos permissions.", false)
    case 404 => ApiError(NotFound, "Resource not found", "Ressource introuvable.", false)
    case 429 => ApiError(RateLimit, "Rate limit exceeded", "Trop de requêtes. Veuillez patienter.", true)
    case 500 => ApiError(ServerError, "Internal server error", "Erreur serveur temporaire. Veuillez réessayer.", true)
    case _ => ApiError(HttpError, "HTTP " + IntToString(status) + " error", "Erreur de communication. Veuillez réessayer.", true)
  }

  /** `parseSaltEdgeError`: the first present source decides, through its own table. */
  function ParseSaltEdgeError(e: RawError): (r: ApiError)
    ensures r.code == NetworkError <==> SourceOf(e) == Network
    ensures r.code == UnknownError <==> SourceOf(e) == Generic
    ensures r.code in {BadRequest, Unauthorized, Forbidden, NotFound, ServerError, HttpError} ==> SourceOf(e) == Status
    ensures SourceOf(e) == Network ==> r.retryable
    ensures SourceOf(e) == Generic ==> !r.retryable && r.message == (if e.message != "" then e.message else "Unknown error")
    ensures SourceOf(e) == Status ==> (r.retryable <==> e.response.value.status !in {400, 401, 403, 404})
    ensures r.code == DuplicateCustomer ==> !r.retryable
    ensures SourceOf(e) == Preserved ==> (r.retryable <==> r.code == RateLimit) && r.code != ConnectionNotFound
    ensures SourceOf(e) == TopLevel ==> (r.code == ConnectionNotFound <==> e.error.value.errorClass == "ConnectionNotFound")
    ensures SourceOf(e) == TopLevel ==>
      (r.retryable <==> r.code in {ProviderDisabled, InvalidCredentials, ConnectionFailed, SessionExpired, RateLimit, Maintenance})
    ensures SourceOf(e) == LegacyBody ==>
      r.code in {DuplicateCustomer, UnknownSaltEdgeError} && !r.retryable
      && (r.code == DuplicateCustomer <==> e.response.value.data.value.errorClass == "DuplicatedCustomer")
  {
    match SourceOf(e)
    case Preserved => ClassifyPreserved(e.saltEdgeError.value.error.value)
    case Network =>
      ApiError(NetworkError, "Connection to Salt Edge API failed",
               "Impossible de se connecter au service bancaire. Veuillez réessayer.", true)
    case TopLevel => ClassifyTopLevel(e.error.value)
    case LegacyBody => ClassifyLegacy(e.response.value.data.value)
    case Status => ClassifyStatus(e.response.value.status)
    case Generic =>
      ApiError(UnknownError, if e.message != "" then e.message else "Unknown error",
               "Erreur inattendue. Veuillez réessayer ou contactez le support.", false)
  }

  /** The error `makeRequest` throws for a non-2xx response (lines 739-754): its message
      is the v6 error message, else the v5 `error_message`, else a status line; the
      parsed body (or null) is preserved, and nothing else is set. */
  function RequestFailure(body: Option<ErrorBody>, status: int, statusText: string): (r: RawError)
    ensures r.saltEdgeError == body && r.code == "" && r.error.None? && r.response.None?
    ensures body.Some? && body.value.error.Some? && body.value.error.value.message != "" ==>
      r.message == body.value.error.value.message
    ensures body.Some? && (body.value.error.None? || body.value.error.value.message == "") ==>
      r.message == (if body.value.errorMessage != "" then body.value.errorMessage
                    else "Salt Edge API error: " + IntToString(status) + " " + statusText)
    ensures body.None? ==> r.message == "Salt Edge API error: " + IntToString(status) + " " + statusText
    ensures r.message != ""
  {
    var fromV6 := if body.Some? && body.value.error.Some? then body.value.error.value.message else "";
    var fromV5 := if body.Some? then body.value.errorMessage else "";
    var msg := if fromV6 != "" then fromV6
               else if fromV5 != "" then fromV5
               else "Salt Edge API error: " + IntToString(status) + " " + statusText;
    RawError(body, "", None, None, msg)
  }

  /** An earlier source always wins: once `makeRequest` preserved a v6 error object,
      nothing else in the thrown value matters. */
  lemma PreservedPayloadWins(e: RawError, e': RawError)
    requires e.saltEdgeError.Some? && e.saltEdgeError.value.error.Some?
    requires e'.saltEdgeError == e.saltEdgeError
    ensures ParseSaltEdgeError(e) == ParseSaltEdgeError(e')
  {
  }

  /** A top-level v6 error object outranks the v5 response body: once it is present (and
      nothing earlier is), the response, whatever it holds, does not matter. */
  lemma TopLevelBeatsLegacyBody(e: RawError, resp: Option<HttpResponse>)
    requires SourceOf(e) == TopLevel
    ensures ParseSaltEdgeError(e) == ParseSaltEdgeError(e.(response := resp))
    ensures ParseSaltEdgeError(e) == ClassifyTopLevel(e.error.value)
  {
  }

  /** Every failed response carrying a v6 error object is classified by the preserved
      table, whatever its status: a ConnectionNotFound class from a request therefore
      comes out as UNKNOWN_SALT_EDGE_ERROR, not CONNECTION_NOT_FOUND. */
  lemma RequestFailuresUsePreservedTable(cm: ClassAndMessage, v5: string, status: int, statusText: string)
    ensures ParseSaltEdgeError(RequestFailure(Some(ErrorBody(Some(cm), v5)), status, statusText)) == ClassifyPreserved(cm)
    ensures cm.errorClass == "ConnectionNotFound" ==>
      ParseSaltEdgeError(RequestFailure(Some(ErrorBody(Some(cm), v5)), status, statusText)).code == UnknownSaltEdgeError
  {
  }

  /** A failed response without a parseable body is an UNKNOWN_ERROR carrying the
      status line, never retryable. */
  lemma UnparsedFailureIsUnknown(status: int, statusText: string)
    ensures var r := ParseSaltEdgeError(RequestFailure(None, status, statusText));
      r.code == UnknownError && !r.retryable
      && r.message == "Salt Edge API error: " + IntToString(status) + " " + statusText
  {
  }

  /** `retryable` is not a function of the code: the same INVALID_CREDENTIALS code is
      non-retryable from an ApiKeyNotFound class and retryable from InvalidCredentials. */
  lemma RetryableIsNotAFunctionOfCode(m: string)
    ensures ClassifyPreserved(ClassAndMessage("ApiKeyNotFound", m)).code == InvalidCredentials
    ensures ClassifyTopLevel(ClassAndMessage("InvalidCredentials", m)).code == InvalidCredentials
    ensures !ClassifyPreserved(ClassAndMessage("ApiKeyNotFound", m)).retryable
    ensures ClassifyTopLevel(ClassAndMessage("InvalidCredentials", m)).retryable
  {
  }

  /** On the classes both tables know, the preserved and top-level tables agree. */
  lemma PreservedAgreesWithTopLevel(cm: ClassAndMessage)
    requires cm.errorClass in {"DuplicatedCustomer", "CustomerNotFound", "ProviderNotFound", "RateLimitExceeded"}
    ensures ClassifyPreserved(cm) == ClassifyTopLevel(cm)
  {
  }
}

=== FILE: saltedge_routes.dfy ===
/** The Salt Edge route handlers (app/api/saltedge/**/route.ts) as functions from the
    request's fields, the session and the outcomes of the client calls to the reply.
    Each handler also reports the client calls it made, in order, so that "before any
    client call" can be stated. */
module SaltEdgeRoutes {
  import opened Wrappers
  import opened Text
  import opened SaltEdgeTypes
  import opened CustomerCache
  import opened History
  import opened SaltEdgeClient
  import opened RouteTypes

  /** The module-level state of the Salt Edge client that the routes read and reset. */
  datatype ClientState = ClientState(tracker: TestTracker, logs: seq<LogEntry>, cache: Cache, metrics: Metrics)

  datatype ClientCall =
    | GetConnection(connectionId: string)
    | GetAccounts(connectionId: string)
    | GetConnectionTransactions(connectionId: string)
    | RefreshConnection(connectionId: string)
    | ReconnectConnection(connectionId: string)
    | CreateCustomerCall(identifier: string)
    | CreateConnectionSession(customerId: string)

  // ---------------------------------------------------------------------------
  // Callback GET (app/api/saltedge/callback/route.ts:4-71)

  datatype CallbackStatus = StatusSuccess | StatusPending | StatusWarning | StatusError | StatusInfo

  function StatusName(s: CallbackStatus): string {
    match s
    case StatusSuccess => "success"
    case StatusPending => "pending"
    case StatusWarning => "warning"
    case StatusError => "error"
    case StatusInfo => "info"
  }

  /** A redirect to /dashboard carrying `status`, `message` and, on success, the
      connection id as query parameters. */
  datatype DashboardRedirect = DashboardRedirect(status: CallbackStatus, message: string, connectionId: Option<string>)

  /** `Unhandled` is a handler that itself throws; the framework then answers 500. */
  datatype CallbackReply = Redirected(redirect: DashboardRedirect) | Unhandled

  const DefaultErrorMessage := "Une erreur est survenue lors de la connexion bancaire."

  /** The callback GET. Query parameters are "" when absent. `baseUrlValid` says
      whether the dashboard URL can be built from the configured site URL: when it
      cannot, building it throws in the handler and again in its error path, so the
      handler throws. `lookup` is the outcome of the connection check. */
  function CallbackGet(baseUrlValid: bool, connectionId: string, stage: string, errorMessage: string,
                       lookup: Result<Connection, string>): (r: CallbackReply)
    ensures r.Unhandled? <==> !baseUrlValid
    ensures baseUrlValid && stage == "success" && connectionId != "" ==>
      (r.redirect.status == StatusSuccess <==> lookup.Ok? && lookup.value.status == "active")
      && (r.redirect.status == StatusPending <==> lookup.Ok? && lookup.value.status != "active")
      && (r.redirect.status == StatusWarning <==> lookup.Err?)
    ensures r.Redirected? && r.redirect.connectionId.Some? ==>
      r.redirect.status == StatusSuccess && r.redirect.connectionId.value == connectionId
    ensures r.Redirected? && r.redirect.status == StatusSuccess ==> r.redirect.connectionId == Some(connectionId)
    ensures baseUrlValid && !(stage == "success" && connectionId != "") && (stage == "error" || errorMessage != "") ==>
      r.redirect.status == StatusError
      && r.redirect.message == (if errorMessage != "" then errorMessage else DefaultErrorMessage)
    ensures baseUrlValid && !(stage == "success" && connectionId != "") && stage != "error" && errorMessage == "" ==>
      r.redirect.status == (if stage == "fetching" then StatusPending else StatusInfo)
  {
    if !baseUrlValid then Unhandled
    else if stage == "success" && connectionId != "" then
      match lookup
      case Ok(c) =>
        if c.status == "active" then
          Redirected(DashboardRedirect(StatusSuccess, "Votre compte bancaire a été connecté avec succès !", Some(connectionId)))
        else
          Redirected(DashboardRedirect(StatusPending, "Connexion en cours de traitement...", None))
      case Err(_) =>
        Redirected(DashboardRedirect(StatusWarning, "Connexion créée mais vérification impossible.", None))
    else if stage == "error" || errorMessage != "" then
      Redirected(DashboardRedirect(StatusError, if errorMessage != "" then errorMessage else DefaultErrorMessage, None))
    else if stage == "fetching" then
      Redirected(DashboardRedirect(StatusPending, "Récupération des données bancaires en cours...", None))
    else
      Redirected(DashboardRedirect(StatusInfo, "Connexion bancaire annulée ou incomplète.", None))
  }

  /** A success stage with a connection id is decided by the live lookup alone: an
      error message sent alongside changes nothing. */
  lemma SuccessStageIgnoresErrorMessage(connectionId: string, m1: string, m2: string, lookup: Result<Connection, string>)
    requires connectionId != ""
    ensures CallbackGet(true, connectionId, "success", m1, lookup) == CallbackGet(true, connectionId, "success", m2, lookup)
  {
  }

  /** The connection lookup never turns a success stage into an error redirect. */
  lemma SuccessStageNeverErrors(connectionId: string, m: string, lookup: Result<Connection, string>)
    requires connectionId != ""
    ensures CallbackGet(true, connectionId, "success", m, lookup).redirect.status != StatusError
  {
  }

  // ---------------------------------------------------------------------------
  // Webhook POST (app/api/saltedge/callback/route.ts:74-113)

  /** The parsed JSON body: the literal `null`, or any other value (whose `data`, if
      any, is only logged). */
  datatype WebhookBody = JsonNull | JsonValue(stage: Option<string>)

  datatype WebhookReply = WebhookReply(status: int, received: bool, error: Option<string>)

  /** The webhook POST: no signature check and no side effect; every parsed body other
      than `null` is acknowledged with 200. A body that does not parse, or a `null` one
      (destructuring it throws), gets 500. */
  function WebhookPost(body: Result<WebhookBody, string>): (r: WebhookReply)
    ensures r.status == 200 <==> body.Ok? && body.value.JsonValue?
    ensures r.status == 200 ==> r.received && r.error.None?
    ensures r.status != 200 ==> r.status == 500 && r.error == Some("Webhook processing failed")
  {
    if body.Ok? && body.value.JsonValue? then WebhookReply(200, true, None)
    else WebhookReply(500, false, Some("Webhook processing failed"))
  }

  /** The stage announced by the aggregator has no influence on the acknowledgement. */
  lemma WebhookIgnoresStage(s1: Option<string>, s2: Option<string>)
    ensures WebhookPost(Ok(JsonValue(s1))) == WebhookPost(Ok(JsonValue(s2)))
  {
  }

  // ---------------------------------------------------------------------------
  // Data GET (app/api/saltedge/data/route.ts:6-136)

  const MaxDisplayedTransactions: nat := 100

  /** A section of the data reply: not requested, fetched, or failed (with the
      `*_error` text). */
  datatype Section<T> = NotRequested | Fetched(value: T) | SectionFailed(error: string)

  datatype TransactionsSummary = TransactionsSummary(totalCount: nat, displayedCount: nat, from: Option<int>, to: Option<int>)

  datatype DataReply =
    | DataOk(connection: Connection,
             accounts: Section<seq<DisplayAccount>>,
             transactions: Section<seq<DisplayTransaction>>,
             summary: Option<TransactionsSummary>)
    | DataFailed(failure: Failure)

  /** The sections a `type` query parameter asks for; "" (absent) means all. */
  predicate WantsAccounts(dataType: string) {
    dataType == "" || dataType == "accounts" || dataType == "all"
  }

  predicate WantsTransactions(dataType: string) {
    dataType == "" || dataType == "transactions" || dataType == "all"
  }

  /** The summary of a transaction list (most recent first): its length, how many are
      shown, and the dates of its last and first elements. */
  function Summarise(txs: seq<Transaction>): (r: TransactionsSummary)
    ensures r.totalCount == |txs|
    ensures r.displayedCount == if |txs| < MaxDisplayedTransactions then |txs| else MaxDisplayedTransactions
    ensures r.from.None? <==> |txs| == 0
    ensures r.to.None? <==> |txs| == 0
    ensures |txs| > 0 ==> r.from == Some(txs[|txs| - 1].madeOn) && r.to == Some(txs[0].madeOn)
  {
    var shown := if |txs| < MaxDisplayedTransactions then |txs| else MaxDisplayedTransactions;
    TransactionsSummary(|txs|, shown,
                        if |txs| > 0 then Some(txs[|txs| - 1].madeOn) else None,
                        if |txs| > 0 then Some(txs[0].madeOn) else None)
  }

  /** The first `n` elements (all when fewer), `slice(0, n)`. */
  function Take<T>(s: seq<T>, n: nat): (r: seq<T>)
    ensures |r| == if |s| < n then |s| else n
    ensures r == s[..|r|]
  {
    if |s| < n then s else s[..n]
  }

  /** The status of a failed connection lookup, by the error message. */
  function DataGetErrorStatus(message: string): (r: int)
    ensures r == 404 <==> Contains(message, "ConnectionNotFound")
    ensures r == 401 <==> !Contains(message, "ConnectionNotFound") && Contains(message, "Expired")
    ensures r in {401, 404, 500}
  {
    if Contains(message, "ConnectionNotFound") then 404
    else if Contains(message, "Expired") then 401
    else 500
  }

  /** The data GET. `connectionId` and `dataType` are the query parameters ("" when
      absent); `connection`, `accounts` and `transactions` are the outcomes of the client
      calls (errors carry their message, "" when none). Returns the reply and the
      client calls made. */
  function DataGet(sessionEmail: Option<string>, connectionId: string, dataType: string,
                   connection: Result<Connection, string>, accounts: Result<seq<Account>, string>,
                   transactions: Result<seq<Transaction>, string>): (r: (DataReply, seq<ClientCall>))
    ensures !SignedIn(sessionEmail) ==> r.0 == DataFailed(Unauthenticated()) && r.1 == []
    ensures SignedIn(sessionEmail) && connectionId == "" ==> r.0.DataFailed? && r.0.failure.status == 400 && r.1 == []
    ensures SignedIn(sessionEmail) && connectionId != "" ==> |r.1| > 0 && r.1[0] == GetConnection(connectionId)
    ensures SignedIn(sessionEmail) && connectionId != "" && connection.Err? ==>
      r.0 == DataFailed(Failure(DataGetErrorStatus(connection.error), DataGetError(connection.error),
                                if DataGetErrorStatus(connection.error) == 500 then Some(connection.error) else None,
                                if DataGetErrorStatus(connection.error) == 401 then Some(ExpiredMessage) else None))
      && r.1 == [GetConnection(connectionId)]
    ensures SignedIn(sessionEmail) && connectionId != "" && connection.Ok? && connection.value.status != "active" ==>
      r.0.DataFailed? && r.0.failure.status == 400 && r.0.failure.details == Some(connection.value.status)
      && r.1 == [GetConnection(connectionId)]
    ensures SignedIn(sessionEmail) && connectionId != "" && connection.Ok? && connection.value.status == "active" ==>
      r.0.DataOk?
    ensures r.0.DataOk? ==>
      SignedIn(sessionEmail) && connectionId != "" && connection.Ok? && connection.value.status == "active"
      && r.0.connection == connection.value
      && (GetAccounts(connectionId) in r.1 <==> WantsAccounts(dataType))
      && (GetConnectionTransactions(connectionId) in r.1 <==> WantsTransactions(dataType))
      && (r.0.accounts.NotRequested? <==> !WantsAccounts(dataType))
      && (r.0.transactions.NotRequested? <==> !WantsTransactions(dataType))
      && (r.0.accounts.SectionFailed? <==> WantsAccounts(dataType) && accounts.Err?)
      && (r.0.transactions.SectionFailed? <==> WantsTransactions(dataType) && transactions.Err?)
      && (r.0.summary.Some? <==> WantsTransactions(dataType) && transactions.Ok?)
    ensures r.0.DataOk? && r.0.accounts.Fetched? ==> |r.0.accounts.value| == |accounts.value|
    ensures r.0.DataOk? && r.0.transactions.Fetched? ==>
      r.0.summary == Some(Summarise(transactions.value))
      && |r.0.transactions.value| == r.0.summary.value.displayedCount
      && forall i :: 0 <= i < |r.0.transactions.value| ==>
        r.0.transactions.value[i] == FormatTransactionForDisplay(transactions.value[i])
  {
    if !SignedIn(sessionEmail) then (DataFailed(Unauthenticated()), [])
    else if connectionId == "" then (DataFailed(Failure(400, "Connection ID is required", None, None)), [])
    else
      match connection
      case Err(e) =>
        var status := DataGetErrorStatus(e);
        (DataFailed(Failure(status, DataGetError(e), if status == 500 then Some(e) else None,
                            if status == 401 then Some(ExpiredMessage) else None)),
         [GetConnection(connectionId)])
      case Ok(c) =>
        if c.status != "active" then
          (DataFailed(Failure(400, "Connection is not active", Some(c.status),
                              Some("La connexion bancaire n'est pas active. Veuillez la reconnecter."))),
           [GetConnection(connectionId)])
        else
          var accountCalls := if WantsAccounts(dataType) then [GetAccounts(connectionId)] else [];
          var txCalls := if WantsTransactions(dataType) then [GetConnectionTransactions(connectionId)] else [];
          var accountSection :=
            if !WantsAccounts(dataType) then NotRequested
            else if accounts.Err? then SectionFailed("Impossible de récupérer les comptes")
            else Fetched(seq(|accounts.value|, i requires 0 <= i < |accounts.value| => FormatAccountForDisplay(accounts.value[i])));
          var txSection :=
            if !WantsTransactions(dataType) then NotRequested
            else if transactions.Err? then SectionFailed("Impossible de récupérer les transactions")
            else
              var shown := Take(transactions.value, MaxDisplayedTransactions);
              Fetched(seq(|shown|, i requires 0 <= i < |shown| => FormatTransactionForDisplay(shown[i])));
          var summary := if WantsTransactions(dataType) && transactions.Ok? then Some(Summarise(transactions.value)) else None;
          (DataOk(c, accountSection, txSection, summary), [GetConnection(connectionId)] + accountCalls + txCalls)
  }

  const ExpiredMessage := "La connexion a expiré. Veuillez vous reconnecter à votre banque."

  function DataGetError(message: string): string {
    if Contains(message, "ConnectionNotFound") then "Connection not found or access denied"
    else if Contains(message, "Expired") then "Connection expired"
    else "Salt Edge API error"
  }

  /** An unknown `type` still succeeds, with neither section fetched. */
  lemma UnknownTypeFetchesNothing(email: string, connectionId: string, dataType: string, c: Connection,
                                  accounts: Result<seq<Account>, string>, transactions: Result<seq<Transaction>, string>)
    requires email != "" && connectionId != "" && c.status == "active"
    requires dataType !in {"", "accounts", "transactions", "all"}
    ensures var r := DataGet(Some(email), connectionId, dataType, Ok(c), accounts, transactions);
      r.1 == [GetConnection(connectionId)] && r.0 == DataOk(c, NotRequested, NotRequested, None)
  {
  }

  // ---------------------------------------------------------------------------
  // Data POST (app/api/saltedge/data/route.ts:138-247)

  /** The parsed body: `connection_id` ("" when absent or falsy) and `type` (`None` when
      undefined, which defaults it to 'refresh'). */
  datatype RefreshBody = RefreshBody(connectionId: string, refreshType: Option<string>)

  datatype RefreshReply = RefreshOk(connectUrl: string, expiresAt: string, refreshType: string) | RefreshFailed(failure: Failure)

  /** The status of a failed refresh or reconnect, by the error message. */
  function RefreshErrorStatus(message: string): (r: int)
    ensures r == 404 <==> Contains(message, "ConnectionNotFound")
    ensures r == 400 <==> !Contains(message, "ConnectionNotFound") && Contains(message, "CannotBeRefreshed")
    ensures r in {400, 404, 500}
  {
    if Contains(message, "ConnectionNotFound") then 404
    else if Contains(message, "CannotBeRefreshed") then 400
    else 500
  }

  /** The data POST: dispatches on `type` (default 'refresh') to a refresh or a
      reconnect of the connection; any other type is refused without a client call. */
  function DataPost(sessionEmail: Option<string>, body: Result<RefreshBody, string>,
                    refresh: Result<WidgetSession, string>, reconnect: Result<WidgetSession, string>): (r: (RefreshReply, seq<ClientCall>))
    ensures !SignedIn(sessionEmail) ==> r.0 == RefreshFailed(Unauthenticated()) && r.1 == []
    ensures SignedIn(sessionEmail) && body.Err? ==> r.0.RefreshFailed? && r.0.failure.status == 500 && r.1 == []
    ensures SignedIn(sessionEmail) && body.Ok? && body.value.connectionId == "" ==> r.0.RefreshFailed? && r.0.failure.status == 400 && r.1 == []
    ensures |r.1| <= 1
    ensures SignedIn(sessionEmail) && body.Ok? && body.value.connectionId != "" ==>
      var t := body.value.refreshType.GetOr("refresh");
      && (r.1 == [RefreshConnection(body.value.connectionId)] <==> t == "refresh")
      && (r.1 == [ReconnectConnection(body.value.connectionId)] <==> t == "reconnect")
      && (t != "refresh" && t != "reconnect" ==> r.0.RefreshFailed? && r.0.failure.status == 400 && r.1 == [])
    ensures r.0.RefreshOk? ==>
      && (r.1 == [RefreshConnection(body.value.connectionId)] ==> refresh.Ok? && r.0.connectUrl == refresh.value.connectUrl)
      && (r.1 == [ReconnectConnection(body.value.connectionId)] ==> reconnect.Ok? && r.0.connectUrl == reconnect.value.connectUrl)
    ensures r.0.RefreshFailed? && |r.1| == 1 && r.1[0].RefreshConnection? ==>
      refresh.Err? && r.0.failure.status == RefreshErrorStatus(refresh.error)
    ensures r.0.RefreshFailed? && |r.1| == 1 && r.1[0].ReconnectConnection? ==>
      reconnect.Err? && r.0.failure.status == RefreshErrorStatus(reconnect.error)
  {
    if !SignedIn(sessionEmail) then (RefreshFailed(Unauthenticated()), [])
    else if body.Err? then (RefreshFailed(Failure(500, "Internal server error", Some(body.error), None)), [])
    else
      var b := body.value;
      if b.connectionId == "" then (RefreshFailed(Failure(400, "Connection ID is required", None, None)), [])
      else
        var t := b.refreshType.GetOr("refresh");
        if t != "refresh" && t != "reconnect" then
          (RefreshFailed(Failure(400, "Invalid refresh type. Use \"refresh\" or \"reconnect\"", None, None)), [])
        else
          var outcome := if t == "refresh" then refresh else reconnect;
          var call := if t == "refresh" then RefreshConnection(b.connectionId) else ReconnectConnection(b.connectionId);
          match outcome
          case Ok(w) => (RefreshOk(w.connectUrl, w.expiresAt, t), [call])
          case Err(e) => (RefreshFailed(RefreshFailure(e)), [call])
  }

  function RefreshFailure(e: string): (r: Failure)
    ensures r.status == RefreshErrorStatus(e)
  {
    var status := RefreshErrorStatus(e);
    if status == 404 then Failure(404, "Connection not found", None, None)
    else if status == 400 then
      Failure(400, "Connection cannot be refreshed", None, Some("Cette connexion ne peut pas être actualisée pour le moment."))
    else Failure(500, "Refresh failed", Some(e), None)
  }

  // ---------------------------------------------------------------------------
  // Auth POST (app/api/saltedge/auth/route.ts:6-122)

  /** The widget-session request the handler builds. */
  datatype SessionRequest = SessionRequest(customerId: string, consent: seq<string>, returnTo: string,
                                           locale: string, providerCode: Option<string>)

  datatype AuthReply =
    | AuthOk(connectUrl: string, expiresAt: string, customerId: string, testStatus: TestStatus)
    | AuthFailed(failure: Failure)

  datatype AuthOutcome = AuthOutcome(reply: AuthReply, tracker: TestTracker, calls: seq<ClientCall>, session: Option<SessionRequest>)

  predicate Truthy(s: Option<string>) {
    s.Some? && s.value != ""
  }

  /** The customer identifier of a user. */
  function CustomerIdentifier(email: string): (r: string)
    ensures StartsWith(r, "finsight_") && |r| == |email| + 9 && r[9..] == email
  {
    "finsight_" + email
  }

  /** The widget-session request for a customer. */
  function SessionFor(customerId: string, siteUrl: string, providerCode: Option<string>): (r: SessionRequest)
    ensures r.consent == ["accounts", "transactions", "holder_info"]
    ensures r.providerCode.Some? <==> Truthy(providerCode)
    ensures r.providerCode.Some? ==> r.providerCode == providerCode
    ensures r.customerId == customerId && r.returnTo == siteUrl + "/api/saltedge/callback"
  {
    SessionRequest(customerId, ["accounts", "transactions", "holder_info"], siteUrl + "/api/saltedge/callback", "fr",
                   if Truthy(providerCode) then providerCode else None)
  }

  /** The reply to a failed client call, and the test usage it records. */
  function AuthClientFailure(t: TestTracker, message: string, providerCode: Option<string>, calls: seq<ClientCall>,
                             session: Option<SessionRequest>, now: int): (r: AuthOutcome)
    ensures r.tracker == RecordTestUsage(t, "connection_failed", providerCode, Some(false), now).0
    ensures r.reply.AuthFailed? && r.reply.failure.details == Some(message)
    ensures r.reply.failure.status == (if Contains(message, "Customer") then 400 else 500)
  {
    var t' := RecordTestUsage(t, "connection_failed", providerCode, Some(false), now).0;
    var failure := if Contains(message, "Customer") then Failure(400, "Erreur lors de la création du profil utilisateur", Some(message), None)
                   else Failure(500, "Erreur de configuration Salt Edge", Some(message), None);
    AuthOutcome(AuthFailed(failure), t', calls, session)
  }

  /** The customer the auth POST obtains: the first creation's, or after a duplicate
      the second creation's under the stamped identifier. */
  function ObtainedCustomer(first: Result<Customer, string>, second: Result<Customer, string>): (r: Result<Customer, string>)
    ensures r.Ok? <==> first.Ok? || (Contains(first.error, "DuplicatedCustomer") && second.Ok?)
    ensures first.Err? && !Contains(first.error, "DuplicatedCustomer") ==> r == first
  {
    match first
    case Ok(_) => first
    case Err(m) => if Contains(m, "DuplicatedCustomer") then second else first
  }

  /** The auth POST. `body` is the parsed `provider_code` (or the parse error);
      `first` and `second` are the outcomes of creating the customer under the user's
      identifier and, after a duplicate, under the stamped one; `widget` is the
      outcome of creating the widget session. */
  function AuthPost(t: TestTracker, sessionEmail: Option<string>, body: Result<Option<string>, string>, siteUrl: string,
                    stamp: int, now: int, first: Result<Customer, string>, second: Result<Customer, string>,
                    widget: Result<WidgetSession, string>): (r: AuthOutcome)
    ensures !SignedIn(sessionEmail) ==> r.reply == AuthFailed(Unauthenticated()) && r.calls == [] && r.tracker == t
    ensures SignedIn(sessionEmail) && body.Err? ==> r.reply.AuthFailed? && r.reply.failure.status == 500 && r.calls == [] && r.tracker == t
    ensures SignedIn(sessionEmail) && body.Ok? ==>
      |r.calls| >= 1 && r.calls[0] == CreateCustomerCall(CustomerIdentifier(sessionEmail.value))
    ensures (exists k :: 0 <= k < |r.calls| && r.calls[k] == CreateCustomerCall(CustomerIdentifier(sessionEmail.value) + "_" + IntToString(stamp))) ==>
      first.Err? && Contains(first.error, "DuplicatedCustomer")
    ensures r.session.Some? ==>
      body.Ok? && r.session.value.consent == ["accounts", "transactions", "holder_info"]
      && (r.session.value.providerCode.Some? <==> Truthy(body.value))
    ensures r.reply.AuthOk? ==>
      widget.Ok? && r.reply.connectUrl == widget.value.connectUrl
      && r.tracker == RecordTestUsage(t, "connection_attempt", body.value, Some(true), now).0
      && r.reply.testStatus == RecordTestUsage(t, "connection_attempt", body.value, Some(true), now).1
    ensures r.reply.AuthFailed? && r.reply.failure.status != 401 && body.Ok? ==>
      r.tracker == RecordTestUsage(t, "connection_failed", body.value, Some(false), now).0
    ensures SignedIn(sessionEmail) && body.Ok? && ObtainedCustomer(first, second).Err? ==>
      var m := ObtainedCustomer(first, second).error;
      r.reply == AuthClientFailure(t, m, body.value, [], None, now).reply
      && r.tracker == AuthClientFailure(t, m, body.value, [], None, now).tracker && r.session.None?
    ensures SignedIn(sessionEmail) && body.Ok? && ObtainedCustomer(first, second).Ok? && widget.Err? ==>
      r.reply == AuthClientFailure(t, widget.error, body.value, [], None, now).reply
      && r.tracker == AuthClientFailure(t, widget.error, body.value, [], None, now).tracker
    ensures SignedIn(sessionEmail) && body.Ok? && ObtainedCustomer(first, second).Ok? && widget.Ok? ==>
      r.reply.AuthOk? && r.reply.customerId == ObtainedCustomer(first, second).value.id
      && r.reply.expiresAt == widget.value.expiresAt
      && r.session == Some(SessionFor(ObtainedCustomer(first, second).value.id, siteUrl, body.value))
  {
    if !SignedIn(sessionEmail) then AuthOutcome(AuthFailed(Unauthenticated()), t, [], None)
    else if body.Err? then AuthOutcome(AuthFailed(Failure(500, "Erreur interne du serveur", Some(body.error), None)), t, [], None)
    else
      var providerCode := body.value;
      var identifier := CustomerIdentifier(sessionEmail.value);
      var unique := identifier + "_" + IntToString(stamp);
      var (customer, calls) :=
        match first
        case Ok(c) => (Ok(c), [CreateCustomerCall(identifier)])
        case Err(m) =>
          if Contains(m, "DuplicatedCustomer") then (second, [CreateCustomerCall(identifier), CreateCustomerCall(unique)])
          else (Err(m), [CreateCustomerCall(identifier)]);
      assert unique != identifier;
      match customer
      case Err(m) => AuthClientFailure(t, m, providerCode, calls, None, now)
      case Ok(c) =>
        var session := SessionFor(c.id, siteUrl, providerCode);
        var calls' := calls + [CreateConnectionSession(c.id)];
        match widget
        case Err(m) => AuthClientFailure(t, m, providerCode, calls', Some(session), now)
        case Ok(w) =>
          var (t', status) := RecordTestUsage(t, "connection_attempt", providerCode, Some(true), now);
          AuthOutcome(AuthOk(w.connectUrl, w.expiresAt, c.id, status), t', calls', Some(session))
  }

  /** Every authenticated attempt with a parsed body uses one test when tests remain,
      whether it succeeds or fails. */
  lemma AuthAttemptUsesOneTest(t: TestTracker, email: string, providerCode: Option<string>, siteUrl: string,
                               stamp: int, now: int, first: Result<Customer, string>, second: Result<Customer, string>,
                               widget: Result<WidgetSession, string>)
    requires email != "" && t.usedTests < t.totalTests
    ensures AuthPost(t, Some(email), Ok(providerCode), siteUrl, stamp, now, first, second, widget).tracker.usedTests == t.usedTests + 1
  {
  }

  // ---------------------------------------------------------------------------
  // Test status (app/api/saltedge/test-status/route.ts)

  datatype Priority = High | Medium | Critical

  /** The five recommendations, in their fixed output order. */
  datatype Recommendation = FakeBanks | PopularBank | EdgeCases | FewTestsLeft | TestsExhausted

  /** The `{priority, message, action}` object of each recommendation. */
  function Describe(rec: Recommendation): (Priority, string, string) {
    match rec
    case FakeBanks => (High,
      "Commencez par tester avec les \"fake banks\" pour valider le flow technique",
      "Utilisez les providers fake_oauth_client_xf ou fake_client_xf")
    case PopularBank => (Medium,
      "Testez avec une banque française populaire pour valider l'intégration réelle",
      "Essayez Crédit Agricole (credit_agricole_particuliers_fr) ou BNP Paribas")
    case EdgeCases => (Medium,
      "Testez la gestion d'erreurs et les cas limites",
      "Essayez avec des identifiants incorrects ou annulez le processus")
    case FewTestsLeft => (High,
      "Attention : Il vous reste peu de tests. Utilisez-les judicieusement.",
      "Préparez vos identifiants à l'avance et documentez chaque test")
    case TestsExhausted => (Critical,
      "Vous avez épuisé vos tests. Prêt pour demander le passage en mode \"test\".",
      "Contactez Salt Edge pour upgrader votre compte vers le mode test")
  }

  /** The fixed position of each recommendation in the output. */
  function Rank(rec: Recommendation): nat {
    match rec
    case FakeBanks => 0
    case PopularBank => 1
    case EdgeCases => 2
    case FewTestsLeft => 3
    case TestsExhausted => 4
  }

  /** Usage below 30 %, as `used / total * 100 < 30` (false when the total is 0, as the
      floating-point NaN/Infinity comparison is). */
  predicate LowUsage(s: TestStatus) {
    s.usedTests * 100 < 30 * s.totalTests
  }

  predicate MidUsage(s: TestStatus) {
    30 * s.totalTests <= s.usedTests * 100 < 70 * s.totalTests
  }

  /** `generateTestRecommendations`: each recommendation appears exactly when its
      condition holds, in the fixed order. */
  function GenerateTestRecommendations(s: TestStatus): (r: seq<Recommendation>)
    ensures FakeBanks in r <==> s.usedTests == 0
    ensures PopularBank in r <==> LowUsage(s)
    ensures EdgeCases in r <==> MidUsage(s)
    ensures FewTestsLeft in r <==> s.remainingTests <= 3
    ensures TestsExhausted in r <==> s.usedTests >= s.totalTests
    ensures forall i, j :: 0 <= i < j < |r| ==> Rank(r[i]) < Rank(r[j])
  {
    (if s.usedTests == 0 then [FakeBanks] else [])
    + (if LowUsage(s) then [PopularBank] else [])
    + (if MidUsage(s) then [EdgeCases] else [])
    + (if s.remainingTests <= 3 then [FewTestsLeft] else [])
    + (if s.usedTests >= s.totalTests then [TestsExhausted] else [])
  }

  /** The two medium recommendations never appear together. */
  lemma MediumRecommendationsExclusive(s: TestStatus)
    ensures !(PopularBank in GenerateTestRecommendations(s) && EdgeCases in GenerateTestRecommendations(s))
  {
  }

  /** A fresh counter recommends the fake banks first, then a popular bank. */
  lemma FreshCounterRecommendations()
    ensures GenerateTestRecommendations(GetTestStatus(InitialTestTracker())) == [FakeBanks, PopularBank]
  {
  }

  datatype StatusReply = StatusReply(
    testStatus: TestStatus,
    mode: string,
    baseUrl: string,
    recommendations: seq<Recommendation>,
    performance: Option<Metrics>,
    logs: Option<seq<LogEntry>>)

  /** How the `logs_count` parameter arrives: absent, present but not a number
      (`parseInt` gives NaN), or a number. */
  datatype CountParam = CountAbsent | CountNaN | CountValue(n: int)

  /** The `lastN` the handler passes: 20 when absent; NaN is falsy and disables the
      limit, as does 0. */
  function LogsLimit(p: CountParam): (r: Option<int>)
    ensures p.CountAbsent? ==> r == Some(20)
    ensures p.CountNaN? ==> r.None?
    ensures p.CountValue? ==> r == Some(p.n)
  {
    match p
    case CountAbsent => Some(20)
    case CountNaN => None
    case CountValue(n) => Some(n)
  }

  /** The test-status GET. Query parameters are "" when absent; `statusEnv` and
      `baseUrlEnv` are the configured values ("" when unset). */
  function TestStatusGet(st: ClientState, sessionEmail: Option<string>, metrics: string, logs: string,
                         logsLevel: string, logsCount: CountParam, statusEnv: string, baseUrlEnv: string): (r: Result<StatusReply, Failure>)
    ensures !SignedIn(sessionEmail) <==> r == Err(Unauthenticated())
    ensures r.Ok? ==>
      r.value.testStatus == GetTestStatus(st.tracker)
      && r.value.recommendations == GenerateTestRecommendations(GetTestStatus(st.tracker))
      && (r.value.performance.Some? <==> metrics == "true")
      && (r.value.logs.Some? <==> logs == "true")
      && r.value.mode == (if statusEnv != "" then statusEnv else "pending")
      && r.value.baseUrl == (if baseUrlEnv != "" then baseUrlEnv else DefaultBaseUrl)
    ensures r.Ok? && r.value.logs.Some? ==>
      r.value.logs.value == GetSaltEdgeLogs(st.logs, if logsLevel != "" then Some(logsLevel) else None, None, LogsLimit(logsCount))
  {
    if !SignedIn(sessionEmail) then Err(Unauthenticated())
    else
      var status := GetTestStatus(st.tracker);
      Ok(StatusReply(status,
                     if statusEnv != "" then statusEnv else "pending",
                     if baseUrlEnv != "" then baseUrlEnv else DefaultBaseUrl,
                     GenerateTestRecommendations(status),
                     if metrics == "true" then Some(st.metrics) else None,
                     if logs == "true" then
                       Some(GetSaltEdgeLogs(st.logs, if logsLevel != "" then Some(logsLevel) else None, None, LogsLimit(logsCount)))
                     else None))
  }

  /** Without a `logs_count`, at most the 20 most recent log entries are returned. */
  lemma DefaultLogsCountIsTwenty(st: ClientState, email: string, logsLevel: string, statusEnv: string, baseUrlEnv: string)
    requires email != ""
    ensures var r := TestStatusGet(st, Some(email), "", "true", logsLevel, CountAbsent, statusEnv, baseUrlEnv);
      r.Ok? && r.value.logs.Some? && |r.value.logs.value| <= 20
  {
  }

  datatype AdminReply = AdminOk(message: string, data: Option<TestStatus>) | AdminFailed(failure: Failure)

  function ResetCounter(st: ClientState): ClientState {
    st.(tracker := InitialTestTracker())
  }

  function ClearLogs(st: ClientState): ClientState {
    st.(logs := ClearSaltEdgeLogs())
  }

  function ClearCache(st: ClientState): ClientState {
    st.(cache := ClearCustomerCache())
  }

  /** The test-status POST: `action` (the parsed body's field, or the parse error)
      selects what to reset; an unknown action changes nothing and gets 400. */
  function TestStatusPost(st: ClientState, sessionEmail: Option<string>, action: Result<string, string>): (r: (AdminReply, ClientState))
    ensures !SignedIn(sessionEmail) ==> r == (AdminFailed(Unauthenticated()), st)
    ensures r.0.AdminFailed? ==> r.1 == st
    ensures r.1.metrics == st.metrics
    ensures SignedIn(sessionEmail) && action.Ok? ==>
      && (action.value == "reset" ==> r.1 == st.(tracker := InitialTestTracker()) && r.0.AdminOk? && r.0.data == Some(GetTestStatus(InitialTestTracker())))
      && (action.value == "clear_logs" ==> r.1 == st.(logs := []) && r.0.AdminOk? && r.0.data.None?)
      && (action.value == "clear_cache" ==> r.1 == st.(cache := map[]) && r.0.AdminOk? && r.0.data.None?)
      && (action.value == "reset_all" ==> r.1 == ClientState(InitialTestTracker(), [], map[], st.metrics) && r.0.AdminOk? && r.0.data == Some(GetTestStatus(InitialTestTracker())))
      && (action.value !in {"reset", "clear_logs", "clear_cache", "reset_all"} ==> r.0.AdminFailed? && r.0.failure.status == 400)
    ensures SignedIn(sessionEmail) && action.Err? ==> r.0.AdminFailed? && r.0.failure.status == 500
  {
    if !SignedIn(sessionEmail) then (AdminFailed(Unauthenticated()), st)
    else if action.Err? then
      (AdminFailed(Failure(500, "Erreur lors de la gestion du statut des tests", Some(action.error), None)), st)
    else
      match action.value
      case "reset" =>
        var st' := ResetCounter(st);
        (AdminOk("Compteur de tests réinitialisé", Some(GetTestStatus(st'.tracker))), st')
      case "clear_logs" => (AdminOk("Logs Salt Edge effacés", None), ClearLogs(st))
      case "clear_cache" => (AdminOk("Cache des customers effacé", None), ClearCache(st))
      case "reset_all" =>
        var st' := ClearCache(ClearLogs(ResetCounter(st)));
        (AdminOk("Réinitialisation complète effectuée", Some(GetTestStatus(st'.tracker))), st')
      case _ =>
        (AdminFailed(Failure(400, "Action non supportée. Utilisez \"reset\", \"clear_logs\", \"clear_cache\" ou \"reset_all\".", None, None)), st)
  }

  /** 'reset_all' leaves the state that 'reset', 'clear_logs' and 'clear_cache' leave
      one after the other, in any order. */
  lemma ResetAllIsTheThreeResets(st: ClientState, email: string)
    requires email != ""
    ensures var s1 := TestStatusPost(st, Some(email), Ok("reset")).1;
      var s2 := TestStatusPost(s1, Some(email), Ok("clear_logs")).1;
      var s3 := TestStatusPost(s2, Some(email), Ok("clear_cache")).1;
      TestStatusPost(st, Some(email), Ok("reset_all")).1 == s3
    ensures var s1 := TestStatusPost(st, Some(email), Ok("clear_cache")).1;
      var s2 := TestStatusPost(s1, Some(email), Ok("clear_logs")).1;
      var s3 := TestStatusPost(s2, Some(email), Ok("reset")).1;
      TestStatusPost(st, Some(email), Ok("reset_all")).1 == s3
  {
  }
}

=== FILE: saltedge_store.dfy ===
/** The local persistence of Salt Edge data (lib/saltedge-db.ts) over an explicit store:
    users keyed by their unique email, the per-user Salt Edge records in creation
    order, and accounts and transactions in maps keyed by the aggregator's ids.
    Database writes follow the ORM's rule that a field given as `undefined` in an
    update is left as it is. */
module SaltEdgeStore {
  import opened Wrappers
  import opened Text
  import opened SaltEdgeTypes

  /** A user; the email is its unique key and stands for the generated user id. */
  datatype User = User(email: string, name: Option<string>)

  /** The Salt Edge record of one user. */
  datatype SaltEdgeInfo = SaltEdgeInfo(
    userEmail: string,
    customerId: string,
    connectionId: Option<string>,
    providerName: Option<string>,
    status: string,
    lastSyncAt: Option<int>)

  datatype StoredAccount = StoredAccount(
    id: string,
    userId: string,
    connectionId: string,
    name: string,
    nature: string,
    balance: int,
    currency: string,
    iban: Option<string>,
    accountNumber: Option<string>,
    sortCode: Option<string>,
    swiftCode: Option<string>,
    updatedAt: int)

  datatype StoredTransaction = StoredTransaction(
    id: string,
    accountId: string,
    description: string,
    amount: int,
    currency: string,
    madeOn: int,
    category: string,
    mode: string,
    status: string,
    duplicated: bool,
    balance: Option<int>,
    postingDate: Option<int>,
    merchantId: Option<string>,
    updatedAt: int)

  datatype Store = Store(
    users: map<string, User>,
    infos: seq<SaltEdgeInfo>,
    accounts: map<string, StoredAccount>,
    transactions: map<string, StoredTransaction>)

  /** The value an update leaves in an optional column: a given value replaces the old
      one, an `undefined` one keeps it. */
  function Keep<T>(prior: Option<T>, given: Option<T>): (r: Option<T>)
    ensures given.Some? ==> r == given
    ensures given.None? ==> r == prior
  {
    if given.Some? then given else prior
  }

  // ---------------------------------------------------------------------------
  // Users and Salt Edge records (lines 8-67)

  /** `getOrCreateUser`: the user with this email, created when absent; an update
      sets the name only when one is given. */
  function GetOrCreateUser(users: map<string, User>, email: string, name: Option<string>): (r: (User, map<string, User>))
    ensures r.1.Keys == users.Keys + {email} && r.1[email] == r.0 && r.0.email == email
    ensures email in users ==> r.0.name == Keep(users[email].name, name)
    ensures email !in users ==> r.0.name == name
    ensures forall e :: e in users && e != email ==> r.1[e] == users[e]
  {
    var u := if email in users then User(email, Keep(users[email].name, name)) else User(email, name);
    (u, users[email := u])
  }

  /** The first record satisfying `P`, in creation order. */
  function FirstIndex(infos: seq<SaltEdgeInfo>, P: SaltEdgeInfo -> bool): (r: Option<nat>)
    ensures r.Some? ==> r.value < |infos| && P(infos[r.value])
    ensures r.Some? ==> forall j :: 0 <= j < r.value ==> !P(infos[j])
    ensures r.None? ==> forall j :: 0 <= j < |infos| ==> !P(infos[j])
    decreases |infos|
  {
    if |infos| == 0 then None
    else if P(infos[0]) then Some(0)
    else
      match FirstIndex(infos[1..], P)
      case None => None
      case Some(k) => Some(k + 1)
  }

  /** `getSaltEdgeInfoByEmail`: the first record whose user has this email. */
  function InfoByEmail(infos: seq<SaltEdgeInfo>, email: string): Option<nat> {
    FirstIndex(infos, (i: SaltEdgeInfo) => i.userEmail == email)
  }

  /** `getSaltEdgeInfoByCustomerId`: the record of this remote customer. */
  function InfoByCustomerId(infos: seq<SaltEdgeInfo>, customerId: string): Option<nat> {
    FirstIndex(infos, (i: SaltEdgeInfo) => i.customerId == customerId)
  }

  /** The remote-customer identifier a new record gets: the email and the creation time. */
  function NewCustomerId(email: string, now: int): string {
    "finsight_" + email + "_" + IntToString(now)
  }

  /** `getOrCreateSaltEdgeInfo`: the existing record for the email, untouched; otherwise
      exactly one new 'pending' record (and the user, when missing) is created. */
  function GetOrCreateSaltEdgeInfo(s: Store, email: string, now: int): (r: (SaltEdgeInfo, Store))
    ensures r.0.userEmail == email
    ensures InfoByEmail(s.infos, email).Some? ==> r.1 == s && r.0 == s.infos[InfoByEmail(s.infos, email).value]
    ensures InfoByEmail(s.infos, email).None? ==>
      r.1.infos == s.infos + [r.0] && r.0.status == "pending" && r.0.customerId == NewCustomerId(email, now)
      && r.0.connectionId.None? && r.0.lastSyncAt.None?
      && email in r.1.users && r.1.users.Keys == s.users.Keys + {email}
    ensures r.1.accounts == s.accounts && r.1.transactions == s.transactions
  {
    match InfoByEmail(s.infos, email)
    case Some(i) =>
      assert s.infos[i].userEmail == email;
      (s.infos[i], s)
    case None =>
      var (_, users) := GetOrCreateUser(s.users, email, None);
      var info := SaltEdgeInfo(email, NewCustomerId(email, now), None, None, "pending", None);
      (info, s.(users := users, infos := s.infos + [info]))
  }

  /** Asking again, at any later time, finds the record the first call returned and
      changes nothing. */
  lemma {:induction false} GetOrCreateSaltEdgeInfoIsIdempotent(s: Store, email: string, now: int, later: int)
    ensures var first := GetOrCreateSaltEdgeInfo(s, email, now);
      GetOrCreateSaltEdgeInfo(first.1, email, later) == first
  {
    var (info, s1) := GetOrCreateSaltEdgeInfo(s, email, now);
    if InfoByEmail(s.infos, email).None? {
      var k := |s.infos|;
      assert s1.infos[k] == info;
      assert forall j :: 0 <= j < k ==> s1.infos[j] == s.infos[j];
      assert InfoByEmail(s1.infos, email) == Some(k);
    }
  }

  // ---------------------------------------------------------------------------
  // Accounts (lines 73-105)

  /** `upsertAccount`: creates the account under its remote id, owned by `userId` and
      linked to `connectionId`; when it already exists only the descriptive columns
      and `updatedAt` change, never the owner or the link. No other account changes. */
  function UpsertAccount(m: map<string, StoredAccount>, userId: string, connectionId: string,
                         a: Account, now: int): (r: map<string, StoredAccount>)
    ensures r.Keys == m.Keys + {a.id}
    ensures forall k :: k in m && k != a.id ==> r[k] == m[k]
    ensures r[a.id].id == a.id && r[a.id].updatedAt == now
    ensures r[a.id].name == a.name && r[a.id].nature == a.nature && r[a.id].balance == a.balance
      && r[a.id].currency == a.currencyCode
    ensures a.id in m ==>
      r[a.id].userId == m[a.id].userId && r[a.id].connectionId == m[a.id].connectionId
      && r[a.id].iban == Keep(m[a.id].iban, a.extra.iban)
      && r[a.id].accountNumber == Keep(m[a.id].accountNumber, a.extra.accountNumber)
      && r[a.id].sortCode == Keep(m[a.id].sortCode, a.extra.sortCode)
      && r[a.id].swiftCode == Keep(m[a.id].swiftCode, a.extra.swiftCode)
    ensures a.id !in m ==>
      r[a.id].userId == userId && r[a.id].connectionId == connectionId
      && r[a.id].iban == a.extra.iban && r[a.id].accountNumber == a.extra.accountNumber
      && r[a.id].sortCode == a.extra.sortCode && r[a.id].swiftCode == a.extra.swiftCode
  {
    if a.id in m then
      var prev := m[a.id];
      m[a.id := prev.(id := a.id, name := a.name, nature := a.nature, balance := a.balance, currency := a.currencyCode,
                     iban := Keep(prev.iban, a.extra.iban), accountNumber := Keep(prev.accountNumber, a.extra.accountNumber),
                     sortCode := Keep(prev.sortCode, a.extra.sortCode), swiftCode := Keep(prev.swiftCode, a.extra.swiftCode),
                     updatedAt := now)]
    else
      m[a.id := StoredAccount(a.id, userId, connectionId, a.name, a.nature, a.balance, a.currencyCode,
                              a.extra.iban, a.extra.accountNumber, a.extra.sortCode, a.extra.swiftCode, now)]
  }

  /** Upserting an account again, even with another owner or connection, is the same as
      upserting it once at the later time: the first write fixes owner and link. */
  lemma UpsertAccountIsIdempotent(m: map<string, StoredAccount>, userId: string, connectionId: string,
                                  userId2: string, connectionId2: string, a: Account, now: int, later: int)
    ensures UpsertAccount(UpsertAccount(m, userId, connectionId, a, now), userId2, connectionId2, a, later)
      == UpsertAccount(m, userId, connectionId, a, later)
  {
  }

  // ---------------------------------------------------------------------------
  // Transactions (lines 118-155)

  /** `upsertTransaction`: keyed by the remote id; an update rewrites every column but the
      id and the owning account. `posting_date` is written as given (null when absent);
      the balance snapshot and merchant id are only written when present. */
  function UpsertTransaction(m: map<string, StoredTransaction>, t: Transaction, now: int): (r: map<string, StoredTransaction>)
    ensures r.Keys == m.Keys + {t.id}
    ensures forall k :: k in m && k != t.id ==> r[k] == m[k]
    ensures r[t.id].id == t.id && r[t.id].updatedAt == now
    ensures r[t.id].amount == t.amount && r[t.id].madeOn == t.madeOn && r[t.id].description == t.description
      && r[t.id].currency == t.currencyCode && r[t.id].category == t.category && r[t.id].mode == t.mode
      && r[t.id].status == t.status && r[t.id].duplicated == t.duplicated && r[t.id].postingDate == t.postingDate
    ensures t.id in m ==>
      r[t.id].accountId == m[t.id].accountId
      && r[t.id].balance == Keep(m[t.id].balance, t.balanceSnapshot)
      && r[t.id].merchantId == Keep(m[t.id].merchantId, t.merchantId)
    ensures t.id !in m ==>
      r[t.id].accountId == t.accountId && r[t.id].balance == t.balanceSnapshot
      && r[t.id].merchantId == t.merchantId
  {
    if t.id in m then
      var prev := m[t.id];
      m[t.id := prev.(id := t.id, description := t.description, amount := t.amount, currency := t.currencyCode,
                     madeOn := t.madeOn, category := t.category, mode := t.mode, status := t.status,
                     duplicated := t.duplicated, balance := Keep(prev.balance, t.balanceSnapshot),
                     postingDate := t.postingDate, merchantId := Keep(prev.merchantId, t.merchantId),
                     updatedAt := now)]
    else
      m[t.id := StoredTransaction(t.id, t.accountId, t.description, t.amount, t.currencyCode, t.madeOn,
                                  t.category, t.mode, t.status, t.duplicated, t.balanceSnapshot,
                                  t.postingDate, t.merchantId, now)]
  }

  /** Applying the same transaction twice leaves one record, equal to the first write
      apart from `updatedAt`. */
  lemma UpsertTransactionTwice(m: map<string, StoredTransaction>, t: Transaction, now: int, later: int)
    ensures var once := UpsertTransaction(m, t, now);
      UpsertTransaction(once, t, later) == once[t.id := once[t.id].(updatedAt := later)]
  {
  }

  // ---------------------------------------------------------------------------
  // syncSaltEdgeData (lines 189-259)

  /** What one sync run meets, with every error already rendered as its message text:
      the connection lookup, the accounts and transactions fetches, the accounts and
      transactions whose upsert the database refuses (by remote id), and the outcome
      of the final status update. */
  datatype SyncInputs = SyncInputs(
    connection: Result<Connection, string>,
    accounts: Result<seq<Account>, string>,
    accountFaults: map<string, string>,
    transactions: Result<seq<Transaction>, string>,
    transactionFaults: map<string, string>,
    statusFault: Option<string>)

  datatype SyncOutcome = SyncOutcome(accounts: seq<StoredAccount>, transactions: seq<StoredTransaction>, errors: seq<string>)

  /** The accounts map after upserting, in order, every account whose upsert succeeds. */
  function ApplyAccounts(m: map<string, StoredAccount>, userId: string, connectionId: string,
                         accs: seq<Account>, faults: map<string, string>, now: int): map<string, StoredAccount>
  {
    if |accs| == 0 then m
    else
      var init := ApplyAccounts(m, userId, connectionId, accs[..|accs| - 1], faults, now);
      var a := accs[|accs| - 1];
      if a.id in faults then init else UpsertAccount(init, userId, connectionId, a, now)
  }

  /** The records returned by the successful account upserts, in input order. */
  function UpsertedAccounts(m: map<string, StoredAccount>, userId: string, connectionId: string,
                            accs: seq<Account>, faults: map<string, string>, now: int): seq<StoredAccount>
  {
    if |accs| == 0 then []
    else
      var init := accs[..|accs| - 1];
      var a := accs[|accs| - 1];
      UpsertedAccounts(m, userId, connectionId, init, faults, now)
        + if a.id in faults then [] else [ApplyAccounts(m, userId, connectionId, accs, faults, now)[a.id]]
  }

  /** The error line of each account whose upsert fails, in input order. */
  function AccountErrors(accs: seq<Account>, faults: map<string, string>): seq<string> {
    if |accs| == 0 then []
    else
      var a := accs[|accs| - 1];
      AccountErrors(accs[..|accs| - 1], faults)
        + if a.id in faults then ["Account " + a.name + ": " + faults[a.id]] else []
  }

  function ApplyTransactions(m: map<string, StoredTransaction>, txs: seq<Transaction>,
                             faults: map<string, string>, now: int): map<string, StoredTransaction>
  {
    if |txs| == 0 then m
    else
      var init := ApplyTransactions(m, txs[..|txs| - 1], faults, now);
      var t := txs[|txs| - 1];
      if t.id in faults then init else UpsertTransaction(init, t, now)
  }

  function UpsertedTransactions(m: map<string, StoredTransaction>, txs: seq<Transaction>,
                                faults: map<string, string>, now: int): seq<StoredTransaction>
  {
    if |txs| == 0 then []
    else
      var t := txs[|txs| - 1];
      UpsertedTransactions(m, txs[..|txs| - 1], faults, now)
        + if t.id in faults then [] else [ApplyTransactions(m, txs, faults, now)[t.id]]
  }

  function TransactionErrors(txs: seq<Transaction>, faults: map<string, string>): seq<string> {
    if |txs| == 0 then []
    else
      var t := txs[|txs| - 1];
      TransactionErrors(txs[..|txs| - 1], faults)
        + if t.id in faults then ["Transaction " + t.id + ": " + faults[t.id]] else []
  }

  /** The accounts phase: one upsert per fetched account; a refused upsert is reported
      and the loop goes on. */
  method SyncAccounts(m: map<string, StoredAccount>, userId: string, connectionId: string,
                      accs: seq<Account>, faults: map<string, string>, now: int)
    returns (stored: seq<StoredAccount>, errors: seq<string>, updated: map<string, StoredAccount>)
    ensures stored == UpsertedAccounts(m, userId, connectionId, accs, faults, now)
    ensures errors == AccountErrors(accs, faults)
    ensures updated == ApplyAccounts(m, userId, connectionId, accs, faults, now)
    ensures |stored| + |errors| == |accs|
    ensures |stored| == |SucceededAccounts(accs, faults)|
      && forall i :: 0 <= i < |stored| ==> StoredAccountOf(stored[i], SucceededAccounts(accs, faults)[i], now)
    ensures forall j :: 0 <= j < |accs| && accs[j].id !in faults ==> accs[j].id in updated
  {
    stored, errors, updated := [], [], m;
    for i := 0 to |accs|
      invariant stored == UpsertedAccounts(m, userId, connectionId, accs[..i], faults, now)
      invariant errors == AccountErrors(accs[..i], faults)
      invariant updated == ApplyAccounts(m, userId, connectionId, accs[..i], faults, now)
    {
      assert accs[..i + 1][..i] == accs[..i];
      var a := accs[i];
      if a.id in faults {
        errors := errors + ["Account " + a.name + ": " + faults[a.id]];
      } else {
        updated := UpsertAccount(updated, userId, connectionId, a, now);
        stored := stored + [updated[a.id]];
      }
    }
    assert accs[..|accs|] == accs;
    EveryAccountStoredOrReported(m, userId, connectionId, accs, faults, now);
    UpsertedAccountsFollowInput(m, userId, connectionId, accs, faults, now);
    ApplyAccountsStoresSuccesses(m, userId, connectionId, accs, faults, now);
  }

  /** The transactions phase, like the accounts phase. */
  method SyncTransactions(m: map<string, StoredTransaction>, txs: seq<Transaction>, faults: map<string, string>, now: int)
    returns (stored: seq<StoredTransaction>, errors: seq<string>, updated: map<string, StoredTransaction>)
    ensures stored == UpsertedTransactions(m, txs, faults, now)
    ensures errors == TransactionErrors(txs, faults)
    ensures updated == ApplyTransactions(m, txs, faults, now)
    ensures |stored| + |errors| == |txs|
    ensures |stored| == |SucceededTransactions(txs, faults)|
      && forall i :: 0 <= i < |stored| ==> StoredTransactionOf(stored[i], SucceededTransactions(txs, faults)[i], now)
    ensures forall j :: 0 <= j < |txs| && txs[j].id !in faults ==> txs[j].id in updated
  {
    stored, errors, updated := [], [], m;
    for i := 0 to |txs|
      invariant stored == UpsertedTransactions(m, txs[..i], faults, now)
      invariant errors == TransactionErrors(txs[..i], faults)
      invariant updated == ApplyTransactions(m, txs[..i], faults, now)
    {
      assert txs[..i + 1][..i] == txs[..i];
      var t := txs[i];
      if t.id in faults {
        errors := errors + ["Transaction " + t.id + ": " + faults[t.id]];
      } else {
        updated := UpsertTransaction(updated, t, now);
        stored := stored + [updated[t.id]];
      }
    }
    assert txs[..|txs|] == txs;
    EveryTransactionStoredOrReported(m, txs, faults, now);
    UpsertedTransactionsFollowInput(m, txs, faults, now);
    ApplyTransactionsStoresSuccesses(m, txs, faults, now);
  }

  /** The accounts phase of a sync: a failed fetch is one "Accounts: " error. */
  method AccountsPhase(m: map<string, StoredAccount>, userId: string, connectionId: string,
                       fetched: Result<seq<Account>, string>, faults: map<string, string>, now: int)
    returns (stored: seq<StoredAccount>, errors: seq<string>, updated: map<string, StoredAccount>)
    ensures fetched.Err? ==> stored == [] && errors == ["Accounts: " + fetched.error] && updated == m
    ensures fetched.Ok? ==>
      stored == UpsertedAccounts(m, userId, connectionId, fetched.value, faults, now)
      && errors == AccountErrors(fetched.value, faults)
      && updated == ApplyAccounts(m, userId, connectionId, fetched.value, faults, now)
  {
    if fetched.Err? {
      return [], ["Accounts: " + fetched.error], m;
    }
    stored, errors, updated := SyncAccounts(m, userId, connectionId, fetched.value, faults, now);
  }

  /** The transactions phase of a sync: a failed fetch is one "Transactions: " error. */
  method TransactionsPhase(m: map<string, StoredTransaction>, fetched: Result<seq<Transaction>, string>,
                           faults: map<string, string>, now: int)
    returns (stored: seq<StoredTransaction>, errors: seq<string>, updated: map<string, StoredTransaction>)
    ensures fetched.Err? ==> stored == [] && errors == ["Transactions: " + fetched.error] && updated == m
    ensures fetched.Ok? ==>
      stored == UpsertedTransactions(m, fetched.value, faults, now)
      && errors == TransactionErrors(fetched.value, faults)
      && updated == ApplyTransactions(m, fetched.value, faults, now)
  {
    if fetched.Err? {
      return [], ["Transactions: " + fetched.error], m;
    }
    stored, errors, updated := SyncTransactions(m, fetched.value, faults, now);
  }

  /** The error list of a sync that found its user: the accounts phase, the transactions
      phase, then the status update. */
  function PhaseErrors(inp: SyncInputs): seq<string> {
    (match inp.accounts
     case Err(e) => ["Accounts: " + e]
     case Ok(accs) => AccountErrors(accs, inp.accountFaults))
    + (match inp.transactions
       case Err(e) => ["Transactions: " + e]
       case Ok(txs) => TransactionErrors(txs, inp.transactionFaults))
    + (if inp.statusFault.Some? then ["Sync: " + inp.statusFault.value] else [])
  }

  /** `syncSaltEdgeData(connectionId)`: never fails. Without the connection or its user
      nothing is written and one "Sync: " error is returned. Otherwise both phases run
      whatever the other's outcome, the returned lists are exactly the successful
      upserts in input order, and the user's record is then marked active and synced
      now unless that update fails. */
  method SyncSaltEdgeData(s: Store, connectionId: string, now: int, inp: SyncInputs)
    returns (out: SyncOutcome, after: Store)
    ensures inp.connection.Err? ==> out == SyncOutcome([], [], ["Sync: " + inp.connection.error]) && after == s
    ensures inp.connection.Ok? && InfoByCustomerId(s.infos, inp.connection.value.customerId).None? ==>
      out == SyncOutcome([], [], ["Sync: Error: No user found for customer_id: " + inp.connection.value.customerId])
      && after == s
    ensures inp.connection.Ok? && InfoByCustomerId(s.infos, inp.connection.value.customerId).Some? ==>
      out.errors == PhaseErrors(inp)
    ensures inp.connection.Ok? && InfoByCustomerId(s.infos, inp.connection.value.customerId).Some? ==>
      inp.accounts.Err? ==> out.accounts == [] && after.accounts == s.accounts
    ensures inp.connection.Ok? && InfoByCustomerId(s.infos, inp.connection.value.customerId).Some? ==>
      inp.accounts.Ok? ==>
      (var userId := s.infos[InfoByCustomerId(s.infos, inp.connection.value.customerId).value].userEmail;
       out.accounts == UpsertedAccounts(s.accounts, userId, connectionId, inp.accounts.value, inp.accountFaults, now)
       && after.accounts == ApplyAccounts(s.accounts, userId, connectionId, inp.accounts.value, inp.accountFaults, now))
    ensures inp.connection.Ok? && InfoByCustomerId(s.infos, inp.connection.value.customerId).Some? ==>
      inp.transactions.Err? ==> out.transactions == [] && after.transactions == s.transactions
    ensures inp.connection.Ok? && InfoByCustomerId(s.infos, inp.connection.value.customerId).Some? ==>
      inp.transactions.Ok? ==>
      out.transactions == UpsertedTransactions(s.transactions, inp.transactions.value, inp.transactionFaults, now)
      && after.transactions == ApplyTransactions(s.transactions, inp.transactions.value, inp.transactionFaults, now)
    ensures inp.connection.Ok? && InfoByCustomerId(s.infos, inp.connection.value.customerId).Some? ==>
      inp.statusFault.Some? ==> after.infos == s.infos
    ensures inp.connection.Ok? && InfoByCustomerId(s.infos, inp.connection.value.customerId).Some? ==>
      inp.statusFault.None? ==>
      (var i := InfoByCustomerId(s.infos, inp.connection.value.customerId).value;
       after.infos == s.infos[i := s.infos[i].(status := "active", lastSyncAt := Some(now))])
    ensures after.users == s.users && |after.infos| == |s.infos|
  {
    if inp.connection.Err? {
      return SyncOutcome([], [], ["Sync: " + inp.connection.error]), s;
    }
    var customerId := inp.connection.value.customerId;
    var found := InfoByCustomerId(s.infos, customerId);
    if found.None? {
      return SyncOutcome([], [], ["Sync: Error: No user found for customer_id: " + customerId]), s;
    }
    var i := found.value;
    var accounts, accountErrors, am := AccountsPhase(s.accounts, s.infos[i].userEmail, connectionId,
                                                     inp.accounts, inp.accountFaults, now);
    var transactions, transactionErrors, tm := TransactionsPhase(s.transactions, inp.transactions,
                                                                 inp.transactionFaults, now);
    var statusErrors := if inp.statusFault.Some? then ["Sync: " + inp.statusFault.value] else [];
    var infos := if inp.statusFault.Some? then s.infos
                 else s.infos[i := s.infos[i].(status := "active", lastSyncAt := Some(now))];
    out := SyncOutcome(accounts, transactions, accountErrors + transactionErrors + statusErrors);
    after := Store(s.users, infos, am, tm);
  }

  /** Every fetched account is accounted for exactly once: either its upserted record
      is returned or its error line is. */
  lemma {:induction false} EveryAccountStoredOrReported(m: map<string, StoredAccount>, userId: string, connectionId: string,
                                                         accs: seq<Account>, faults: map<string, string>, now: int)
    ensures |UpsertedAccounts(m, userId, connectionId, accs, faults, now)| + |AccountErrors(accs, faults)| == |accs|
  {
    if |accs| > 0 {
      EveryAccountStoredOrReported(m, userId, connectionId, accs[..|accs| - 1], faults, now);
    }
  }

  /** `rec` is the stored version of a fetched account whose upsert succeeded. */
  predicate FromSuccess(rec: StoredAccount, accs: seq<Account>, faults: map<string, string>) {
    rec.id !in faults && exists j :: 0 <= j < |accs| && accs[j].id == rec.id && accs[j].name == rec.name
  }

  /** The returned account records are the stored versions of accounts whose upsert
      succeeded. */
  lemma {:induction false} UpsertedAccountsAreTheSuccesses(m: map<string, StoredAccount>, userId: string, connectionId: string,
                                                           accs: seq<Account>, faults: map<string, string>, now: int)
    ensures forall rec :: rec in UpsertedAccounts(m, userId, connectionId, accs, faults, now) ==> FromSuccess(rec, accs, faults)
  {
    if |accs| > 0 {
      var init := accs[..|accs| - 1];
      var a := accs[|accs| - 1];
      UpsertedAccountsAreTheSuccesses(m, userId, connectionId, init, faults, now);
      var r0 := UpsertedAccounts(m, userId, connectionId, init, faults, now);
      var r := UpsertedAccounts(m, userId, connectionId, accs, faults, now);
      forall rec | rec in r ensures FromSuccess(rec, accs, faults) {
        if rec in r0 {
          assert FromSuccess(rec, init, faults);
          var j :| 0 <= j < |init| && init[j].id == rec.id && init[j].name == rec.name;
          assert accs[j] == init[j];
        } else {
          assert accs[|accs| - 1].id == rec.id;
        }
      }
    }
  }

  /** After the accounts phase every account whose upsert succeeded is stored under its id. */
  lemma {:induction false} ApplyAccountsStoresSuccesses(m: map<string, StoredAccount>, userId: string, connectionId: string,
                                                        accs: seq<Account>, faults: map<string, string>, now: int)
    ensures forall j :: 0 <= j < |accs| && accs[j].id !in faults ==>
      accs[j].id in ApplyAccounts(m, userId, connectionId, accs, faults, now)
  {
    if |accs| > 0 {
      var init := accs[..|accs| - 1];
      ApplyAccountsStoresSuccesses(m, userId, connectionId, init, faults, now);
      assert forall j :: 0 <= j < |init| ==> init[j] == accs[j];
    }
  }

  /** An account the phase did not fetch is exactly as before. */
  lemma {:induction false} ApplyAccountsLeavesOthers(m: map<string, StoredAccount>, userId: string, connectionId: string,
                                                     accs: seq<Account>, faults: map<string, string>, now: int, k: string)
    requires k in m && forall j :: 0 <= j < |accs| ==> accs[j].id != k
    ensures k in ApplyAccounts(m, userId, connectionId, accs, faults, now)
    ensures ApplyAccounts(m, userId, connectionId, accs, faults, now)[k] == m[k]
  {
    if |accs| > 0 {
      var init := accs[..|accs| - 1];
      assert forall j :: 0 <= j < |init| ==> init[j] == accs[j];
      ApplyAccountsLeavesOthers(m, userId, connectionId, init, faults, now, k);
    }
  }

  // ---------------------------------------------------------------------------
  // The successful upserts, counted from the front of the input

  /** The fetched accounts whose upsert succeeds, in input order. */
  function SucceededAccounts(accs: seq<Account>, faults: map<string, string>): seq<Account>
    decreases |accs|
  {
    if |accs| == 0 then []
    else (if accs[0].id in faults then [] else [accs[0]]) + SucceededAccounts(accs[1..], faults)
  }

  lemma {:induction false} SucceededAccountsSnoc(accs: seq<Account>, a: Account, faults: map<string, string>)
    ensures SucceededAccounts(accs + [a], faults) == SucceededAccounts(accs, faults) + (if a.id in faults then [] else [a])
    decreases |accs|
  {
    if |accs| == 0 {
      assert (accs + [a])[1..] == [];
    } else {
      assert (accs + [a])[1..] == accs[1..] + [a];
      SucceededAccountsSnoc(accs[1..], a, faults);
    }
  }

  /** `rec` holds the columns every write of `a` sets. */
  predicate StoredAccountOf(rec: StoredAccount, a: Account, now: int) {
    rec.id == a.id && rec.name == a.name && rec.nature == a.nature && rec.balance == a.balance
    && rec.currency == a.currencyCode && rec.updatedAt == now
  }

  /** The returned account records are, one for one and in input order, the records
      written for the accounts whose upsert succeeded: none is missing or extra. */
  lemma {:induction false} UpsertedAccountsFollowInput(m: map<string, StoredAccount>, userId: string, connectionId: string,
                                                       accs: seq<Account>, faults: map<string, string>, now: int)
    ensures var u := UpsertedAccounts(m, userId, connectionId, accs, faults, now);
      var ok := SucceededAccounts(accs, faults);
      |u| == |ok| && forall i :: 0 <= i < |u| ==> StoredAccountOf(u[i], ok[i], now)
  {
    if |accs| > 0 {
      var init := accs[..|accs| - 1];
      var a := accs[|accs| - 1];
      assert accs == init + [a];
      UpsertedAccountsFollowInput(m, userId, connectionId, init, faults, now);
      SucceededAccountsSnoc(init, a, faults);
    }
  }

  /** The fetched transactions whose upsert succeeds, in input order. */
  function SucceededTransactions(txs: seq<Transaction>, faults: map<string, string>): seq<Transaction>
    decreases |txs|
  {
    if |txs| == 0 then []
    else (if txs[0].id in faults then [] else [txs[0]]) + SucceededTransactions(txs[1..], faults)
  }

  lemma {:induction false} SucceededTransactionsSnoc(txs: seq<Transaction>, t: Transaction, faults: map<string, string>)
    ensures SucceededTransactions(txs + [t], faults) == SucceededTransactions(txs, faults) + (if t.id in faults then [] else [t])
    decreases |txs|
  {
    if |txs| == 0 {
      assert (txs + [t])[1..] == [];
    } else {
      assert (txs + [t])[1..] == txs[1..] + [t];
      SucceededTransactionsSnoc(txs[1..], t, faults);
    }
  }

  /** `rec` holds the columns every write of `t` sets. */
  predicate StoredTransactionOf(rec: StoredTransaction, t: Transaction, now: int) {
    rec.id == t.id && rec.amount == t.amount && rec.madeOn == t.madeOn && rec.description == t.description
    && rec.currency == t.currencyCode && rec.category == t.category && rec.mode == t.mode
    && rec.status == t.status && rec.duplicated == t.duplicated && rec.postingDate == t.postingDate
    && rec.updatedAt == now
  }

  /** The returned transaction records are, one for one and in input order, the records
      written for the transactions whose upsert succeeded: none is missing or extra. */
  lemma {:induction false} UpsertedTransactionsFollowInput(m: map<string, StoredTransaction>, txs: seq<Transaction>,
                                                           faults: map<string, string>, now: int)
    ensures var u := UpsertedTransactions(m, txs, faults, now);
      var ok := SucceededTransactions(txs, faults);
      |u| == |ok| && forall i :: 0 <= i < |u| ==> StoredTransactionOf(u[i], ok[i], now)
  {
    if |txs| > 0 {
      var init := txs[..|txs| - 1];
      var t := txs[|txs| - 1];
      assert txs == init + [t];
      UpsertedTransactionsFollowInput(m, init, faults, now);
      SucceededTransactionsSnoc(init, t, faults);
    }
  }

  /** Every fetched transaction is accounted for exactly once: either its upserted
      record is returned or its error line is. */
  lemma {:induction false} EveryTransactionStoredOrReported(m: map<string, StoredTransaction>, txs: seq<Transaction>,
                                                            faults: map<string, string>, now: int)
    ensures |UpsertedTransactions(m, txs, faults, now)| + |TransactionErrors(txs, faults)| == |txs|
  {
    if |txs| > 0 {
      EveryTransactionStoredOrReported(m, txs[..|txs| - 1], faults, now);
    }
  }

  /** After the transactions phase every transaction whose upsert succeeded is stored
      under its id. */
  lemma {:induction false} ApplyTransactionsStoresSuccesses(m: map<string, StoredTransaction>, txs: seq<Transaction>,
                                                            faults: map<string, string>, now: int)
    ensures forall j :: 0 <= j < |txs| && txs[j].id !in faults ==> txs[j].id in ApplyTransactions(m, txs, faults, now)
  {
    if |txs| > 0 {
      var init := txs[..|txs| - 1];
      ApplyTransactionsStoresSuccesses(m, init, faults, now);
      assert forall j :: 0 <= j < |init| ==> init[j] == txs[j];
    }
  }

  /** A transaction the phase did not fetch is exactly as before. */
  lemma {:induction false} ApplyTransactionsLeavesOthers(m: map<string, StoredTransaction>, txs: seq<Transaction>,
                                                         faults: map<string, string>, now: int, k: string)
    requires k in m && forall j :: 0 <= j < |txs| ==> txs[j].id != k
    ensures k in ApplyTransactions(m, txs, faults, now)
    ensures ApplyTransactions(m, txs, faults, now)[k] == m[k]
  {
    if |txs| > 0 {
      var init := txs[..|txs| - 1];
      assert forall j :: 0 <= j < |init| ==> init[j] == txs[j];
      ApplyTransactionsLeavesOthers(m, init, faults, now, k);
    }
  }
}

=== FILE: saltedge_types.dfy ===
/** The Salt Edge records the client exchanges with the aggregator (lib/saltedge.ts),
    reduced to the fields the modelled logic reads. Money amounts are integers in
    minor units; dates (`made_on`, `posting_date`) are day numbers, so that "more
    recent" is "greater". */
module SaltEdgeTypes {
  import opened Wrappers

  /** A remote customer: the aggregator-side identity of one user. */
  datatype Customer = Customer(id: string, identifier: string, secret: string)

  /** A bank connection; `status` is kept verbatim ('active', 'inactive', 'disabled', or
      anything else the aggregator sends). */
  datatype Connection = Connection(
    id: string,
    customerId: string,
    providerName: string,
    status: string,
    lastSuccessAt: string,
    createdAt: string)

  /** The optional `extra` fields of an account. */
  datatype AccountExtra = AccountExtra(
    iban: Option<string>,
    swiftCode: Option<string>,
    accountNumber: Option<string>,
    sortCode: Option<string>)

  datatype Account = Account(
    id: string,
    name: string,
    nature: string,
    balance: int,
    currencyCode: string,
    connectionId: string,
    extra: AccountExtra)

  /** A transaction; the sign of `amount` tells credit (>= 0) from debit. */
  datatype Transaction = Transaction(
    id: string,
    duplicated: bool,
    mode: string,
    status: string,
    madeOn: int,
    amount: int,
    currencyCode: string,
    description: string,
    category: string,
    accountId: string,
    balanceSnapshot: Option<int>,
    postingDate: Option<int>,
    merchantId: Option<string>)

  /** A hosted consent session: the URL to send the user to and its expiry. */
  datatype WidgetSession = WidgetSession(connectUrl: string, expiresAt: string)
}

=== FILE: service_worker.dfy ===
/** The service worker (public/sw.js): the request classifiers, the order in which the
    fetch listener tries them, the clean-up of old cache names, the install-time
    precache, and the four caching strategies over an explicit cache storage. The
    network is a parameter: the response it gives, or `None` when `fetch` throws. */
module ServiceWorker {
  import opened Wrappers
  import opened Text

  // ---------------------------------------------------------------------------
  // Cache names and lists (lines 4-25)

  const CacheName := "finsight-v1"
  const DynamicCache := "finsight-dynamic-v1"
  const StaticCache := "finsight-static-v1"

  const StaticAssets: seq<string> :=
    ["/", "/dashboard", "/login", "/manifest.json", "/offline.html", "/_next/static/css/", "/_next/static/js/"]

  const ApiCachePatterns: seq<string> := ["/api/auth/", "/api/saltedge/", "/api/revolut/", "/api/gocardless/"]

  const StaticExtensions: seq<string> := ["js", "css", "png", "jpg", "jpeg", "gif", "ico", "svg", "woff", "woff2"]

  // ---------------------------------------------------------------------------
  // Requests and classifiers (lines 182-197)

  /** A request: its full URL, the URL's path, its method, its mode, and its Accept
      header (`None` when the header is absent, so that `headers.get` gives null). */
  datatype Request = Request(url: string, pathname: string, httpMethod: string, mode: string, accept: Option<string>)

  /** `isStaticAsset`: a path under `/_next/` or `/static/`, or one ending in a listed
      extension. */
  predicate IsStaticAsset(path: string) {
    Contains(path, "/_next/") || Contains(path, "/static/")
    || exists k :: 0 <= k < |StaticExtensions| && EndsWith(path, "." + StaticExtensions[k])
  }

  /** `isApiRequest`: a path starting with `/api/` or containing a listed API pattern. */
  predicate IsApiRequest(path: string) {
    StartsWith(path, "/api/") || exists k :: 0 <= k < |ApiCachePatterns| && Contains(path, ApiCachePatterns[k])
  }

  /** Every API pattern lies under `/api/`, so an API path always mentions it. */
  lemma {:induction false} ApiRequestMentionsApi(path: string)
    requires IsApiRequest(path)
    ensures Contains(path, "/api/")
  {
    if StartsWith(path, "/api/") {
      assert path == "" + "/api/" + path[5..];
      ContainsInfix("", "/api/", path[5..]);
    } else {
      var k :| 0 <= k < |ApiCachePatterns| && Contains(path, ApiCachePatterns[k]);
      ContainsIffOccurs(path, ApiCachePatterns[k]);
      var i :| OccursAt(path, ApiCachePatterns[k], i);
      assert path[i..i + 5] == ApiCachePatterns[k][..5] == "/api/";
      assert OccursAt(path, "/api/", i);
      ContainsIffOccurs(path, "/api/");
    }
  }

  /** `isNavigationRequest` as written: a navigation, or a GET whose Accept header
      includes text/html. When a GET that is not a navigation has no Accept header,
      `headers.get('accept')` is null and calling `includes` on it throws. */
  function IsNavigationAsWritten(req: Request): (r: Result<bool, string>)
    ensures r.Err? <==> req.mode != "navigate" && req.httpMethod == "GET" && req.accept.None?
    ensures r.Ok? ==> (r.value <==> req.mode == "navigate" || (req.httpMethod == "GET" && Contains(req.accept.value, "text/html")))
  {
    if req.mode == "navigate" then Ok(true)
    else if req.httpMethod != "GET" then Ok(false)
    else if req.accept.None? then Err("TypeError: Cannot read properties of null (reading 'includes')")
    else Ok(Contains(req.accept.value, "text/html"))
  }

  /** `isNavigationRequest` as intended: a missing Accept header does not ask for HTML. */
  predicate IsNavigation(req: Request) {
    req.mode == "navigate" || (req.httpMethod == "GET" && req.accept.Some? && Contains(req.accept.value, "text/html"))
  }

  /** The intended classifier agrees with the written one wherever the latter does not throw. */
  lemma NavigationAgreesWhenDefined(req: Request)
    ensures IsNavigationAsWritten(req).Ok? ==> IsNavigationAsWritten(req).value == IsNavigation(req)
    ensures IsNavigationAsWritten(req).Err? ==> !IsNavigation(req)
  {
  }

  // ---------------------------------------------------------------------------
  // Fetch routing (lines 66-83)

  datatype Strategy = CacheFirst | NetworkFirstApi | NavigationFallback | StaleWhileRevalidate

  /** What the fetch listener does with a request: leave it to the browser (`Ignored`),
      answer it with a strategy, or throw before answering. */
  datatype Routing = Ignored | Handled(strategy: Strategy) | ListenerThrew(error: string)

  /** The listener as written: non-http URLs are ignored, then static, API, navigation
      and dynamic are tried in that order. */
  function RouteAsWritten(req: Request): (r: Routing)
    ensures r == Ignored <==> !StartsWith(req.url, "http")
    ensures r.ListenerThrew? <==>
      StartsWith(req.url, "http") && !IsStaticAsset(req.pathname) && !IsApiRequest(req.pathname)
      && IsNavigationAsWritten(req).Err?
  {
    if !StartsWith(req.url, "http") then Ignored
    else if IsStaticAsset(req.pathname) then Handled(CacheFirst)
    else if IsApiRequest(req.pathname) then Handled(NetworkFirstApi)
    else
      match IsNavigationAsWritten(req)
      case Err(e) => ListenerThrew(e)
      case Ok(nav) => Handled(if nav then NavigationFallback else StaleWhileRevalidate)
  }

  /** Nothing longer than a string occurs in it. */
  lemma {:induction false} NothingLongerOccurs(s: string, p: string)
    requires |s| < |p|
    ensures !Contains(s, p)
  {
    ContainsIffOccurs(s, p);
  }

  /** A GET that is neither a static asset nor an API call, not a navigation and
      without an Accept header, makes the listener as written throw instead of being
      served stale-while-revalidate. */
  lemma {:induction false} MissingAcceptMakesListenerThrow()
    ensures RouteAsWritten(Request("https://finsight.app/", "/", "GET", "cors", None)).ListenerThrew?
    ensures Route(Request("https://finsight.app/", "/", "GET", "cors", None)) == Handled(StaleWhileRevalidate)
  {
    NothingLongerOccurs("/", "/_next/");
    NothingLongerOccurs("/", "/static/");
    forall k | 0 <= k < |ApiCachePatterns| ensures !Contains("/", ApiCachePatterns[k]) {
      NothingLongerOccurs("/", ApiCachePatterns[k]);
    }
    assert !IsStaticAsset("/");
    assert !IsApiRequest("/");
  }

  /** The listener with the intended navigation test; it never throws. */
  function Route(req: Request): (r: Routing)
    ensures !r.ListenerThrew?
    ensures r == Ignored <==> !StartsWith(req.url, "http")
    ensures r == Handled(CacheFirst) <==> StartsWith(req.url, "http") && IsStaticAsset(req.pathname)
    ensures r == Handled(NetworkFirstApi) <==> StartsWith(req.url, "http") && !IsStaticAsset(req.pathname) && IsApiRequest(req.pathname)
    ensures r == Handled(NavigationFallback) <==>
      StartsWith(req.url, "http") && !IsStaticAsset(req.pathname) && !IsApiRequest(req.pathname) && IsNavigation(req)
    ensures r == Handled(StaleWhileRevalidate) <==>
      StartsWith(req.url, "http") && !IsStaticAsset(req.pathname) && !IsApiRequest(req.pathname) && !IsNavigation(req)
  {
    if !StartsWith(req.url, "http") then Ignored
    else if IsStaticAsset(req.pathname) then Handled(CacheFirst)
    else if IsApiRequest(req.pathname) then Handled(NetworkFirstApi)
    else if IsNavigation(req) then Handled(NavigationFallback)
    else Handled(StaleWhileRevalidate)
  }

  /** Wherever the written listener does not throw, the corrected one routes alike. */
  lemma RouteAgreesWhenDefined(req: Request)
    ensures !RouteAsWritten(req).ListenerThrew? ==> RouteAsWritten(req) == Route(req)
  {
  }

  /** Static takes precedence over API: a script under /api/ is served cache-first. */
  lemma ApiScriptIsStatic(url: string)
    requires StartsWith(url, "http")
    ensures Route(Request(url, "/api/x.js", "GET", "cors", None)) == Handled(CacheFirst)
  {
    assert EndsWith("/api/x.js", "." + StaticExtensions[0]);
  }

  // ---------------------------------------------------------------------------
  // Cache clean-up (lines 218-233)

  predicate IsCurrentCache(name: string) {
    name == CacheName || name == DynamicCache || name == StaticCache
  }

  /** `cleanupOldCaches`: the names to delete, in their listed order. */
  function OldCaches(names: seq<string>): (r: seq<string>)
    ensures forall x :: x in r <==> x in names && !IsCurrentCache(x)
    ensures |r| <= |names|
  {
    if |names| == 0 then []
    else OldCaches(names[..|names| - 1]) + if IsCurrentCache(names[|names| - 1]) then [] else [names[|names| - 1]]
  }

  /** The caches left once the old ones are deleted. */
  function Remaining(names: seq<string>): (r: seq<string>)
    ensures forall x :: x in r <==> x in names && IsCurrentCache(x)
  {
    if |names| == 0 then []
    else Remaining(names[..|names| - 1]) + if IsCurrentCache(names[|names| - 1]) then [names[|names| - 1]] else []
  }

  /** Clean-up partitions the cache names: every name is kept or deleted, never both. */
  lemma {:induction false} CleanupPartitionsNames(names: seq<string>)
    ensures |OldCaches(names)| + |Remaining(names)| == |names|
    decreases |names|
  {
    if |names| > 0 {
      CleanupPartitionsNames(names[..|names| - 1]);
    }
  }

  /** A second clean-up deletes nothing and keeps everything. */
  lemma {:induction false} CleanupIsIdempotent(names: seq<string>)
    ensures OldCaches(Remaining(names)) == []
    ensures Remaining(Remaining(names)) == Remaining(names)
  {
    CurrentNamesAreKept(Remaining(names));
  }

  /** A list of current cache names is kept whole. */
  lemma {:induction false} CurrentNamesAreKept(names: seq<string>)
    requires forall k :: 0 <= k < |names| ==> IsCurrentCache(names[k])
    ensures Remaining(names) == names && OldCaches(names) == []
    decreases |names|
  {
    if |names| > 0 {
      var n := |names| - 1;
      CurrentNamesAreKept(names[..n]);
      assert names[..n] + [names[n]] == names;
    }
  }

  // ---------------------------------------------------------------------------
  // Cache storage and the install precache (lines 28-46)

  datatype Response = Response(status: int, body: string)

  /** `response.ok`. */
  predicate IsOk(r: Response) {
    200 <= r.status <= 299
  }

  /** The two caches the worker writes, by request URL. */
  datatype CacheStorage = CacheStorage(staticEntries: map<string, Response>, dynamicEntries: map<string, Response>)

  /** `caches.match`: GET requests only, the static cache (opened at install) before the
      dynamic one. */
  function MatchAll(cs: CacheStorage, req: Request): (r: Option<Response>)
    ensures r.Some? ==> req.httpMethod == "GET" && (req.url in cs.staticEntries || req.url in cs.dynamicEntries)
    ensures req.httpMethod == "GET" && req.url in cs.staticEntries ==> r == Some(cs.staticEntries[req.url])
    ensures req.httpMethod == "GET" && req.url !in cs.staticEntries && req.url in cs.dynamicEntries ==>
      r == Some(cs.dynamicEntries[req.url])
  {
    if req.httpMethod != "GET" then None
    else if req.url in cs.staticEntries then Some(cs.staticEntries[req.url])
    else if req.url in cs.dynamicEntries then Some(cs.dynamicEntries[req.url])
    else None
  }

  /** `cache.put`: only GET requests can be stored (a put of any other method is
      rejected, and the strategies do not wait for it). */
  function Put(entries: map<string, Response>, req: Request, resp: Response): (r: map<string, Response>)
    ensures req.httpMethod == "GET" ==> r == entries[req.url := resp]
    ensures req.httpMethod != "GET" ==> r == entries
  {
    if req.httpMethod == "GET" then entries[req.url := resp] else entries
  }

  /** The URL a site-relative path resolves to against the worker's origin (the
      scheme and host, without a trailing slash), as `cache.addAll` and `caches.match`
      resolve it. */
  function Resolve(origin: string, path: string): string {
    origin + path
  }

  lemma ResolveIsInjective(origin: string, p: string, q: string)
    ensures Resolve(origin, p) == Resolve(origin, q) ==> p == q
  {
    if Resolve(origin, p) == Resolve(origin, q) {
      assert p == Resolve(origin, p)[|origin|..];
    }
  }

  /** The static assets resolve to distinct URLs. */
  lemma PrecacheKeysDistinct(origin: string)
    ensures forall j, k :: 0 <= j < |StaticAssets| && 0 <= k < |StaticAssets| && j != k ==>
      Resolve(origin, StaticAssets[j]) != Resolve(origin, StaticAssets[k])
  {
    forall j, k | 0 <= j < |StaticAssets| && 0 <= k < |StaticAssets| && j != k
      ensures Resolve(origin, StaticAssets[j]) != Resolve(origin, StaticAssets[k])
    {
      ResolveIsInjective(origin, StaticAssets[j], StaticAssets[k]);
    }
  }

  /** The install step's `cache.addAll`: every static asset, resolved against the
      worker's origin, is stored with its fetched response when all their fetches
      succeed, and nothing at all is stored otherwise (the install then fails). */
  function Install(cs: CacheStorage, origin: string, fetched: seq<Option<Response>>): (r: (bool, CacheStorage))
    requires |fetched| == |StaticAssets|
    ensures r.0 <==> forall k :: 0 <= k < |fetched| ==> fetched[k].Some? && IsOk(fetched[k].value)
    ensures !r.0 ==> r.1 == cs
    ensures r.0 ==>
      r.1.dynamicEntries == cs.dynamicEntries
      && (forall k :: 0 <= k < |StaticAssets| ==>
            Resolve(origin, StaticAssets[k]) in r.1.staticEntries
            && r.1.staticEntries[Resolve(origin, StaticAssets[k])] == fetched[k].value)
      && (forall u :: u in r.1.staticEntries && (forall k :: 0 <= k < |StaticAssets| ==> u != Resolve(origin, StaticAssets[k])) ==>
            u in cs.staticEntries && r.1.staticEntries[u] == cs.staticEntries[u])
  {
    if forall k :: 0 <= k < |fetched| ==> fetched[k].Some? && IsOk(fetched[k].value) then
      PrecacheKeysDistinct(origin);
      var precached := map k | 0 <= k < |StaticAssets| :: Resolve(origin, StaticAssets[k]) := fetched[k].value;
      (true, cs.(staticEntries := cs.staticEntries + precached))
    else (false, cs)
  }

  // ---------------------------------------------------------------------------
  // The four strategies (lines 85-180)

  /** A strategy's effect: the response it answers with (`None` when it resolves to
      undefined, which fails the request), the caches afterwards, and whether it used
      the network. */
  datatype Served = Served(response: Option<Response>, caches: CacheStorage, usedNetwork: bool)

  const AssetOffline := Response(503, "Asset not available offline")
  const ApiOffline := Response(503, "{\"error\":\"Service unavailable offline\",\"cached\":false}")

  /** `handleStaticAsset`, cache first: a cached response is returned without touching
      the network; otherwise the network's response is returned, and kept in the static
      cache when ok; a failed fetch is answered 503. */
  function HandleStaticAsset(cs: CacheStorage, req: Request, network: Option<Response>): (r: Served)
    ensures MatchAll(cs, req).Some? ==> r == Served(MatchAll(cs, req), cs, false)
    ensures MatchAll(cs, req).None? ==> r.usedNetwork && r.caches.dynamicEntries == cs.dynamicEntries
    ensures MatchAll(cs, req).None? && network.None? ==> r.response == Some(AssetOffline) && r.caches == cs
    ensures MatchAll(cs, req).None? && network.Some? ==>
      r.response == network
      && r.caches.staticEntries == (if IsOk(network.value) then Put(cs.staticEntries, req, network.value) else cs.staticEntries)
  {
    match MatchAll(cs, req)
    case Some(hit) => Served(Some(hit), cs, false)
    case None =>
      match network
      case None => Served(Some(AssetOffline), cs, true)
      case Some(resp) =>
        Served(Some(resp), if IsOk(resp) then cs.(staticEntries := Put(cs.staticEntries, req, resp)) else cs, true)
  }

  /** `handleApiRequest`, network first: an ok response is returned (and cached when
      the request is a GET); otherwise a GET falls back to the cache, and anything else
      gets the 503 JSON error. */
  function HandleApiRequest(cs: CacheStorage, req: Request, network: Option<Response>): (r: Served)
    ensures r.usedNetwork && r.caches.staticEntries == cs.staticEntries
    ensures r.caches != cs ==> req.httpMethod == "GET" && network.Some? && IsOk(network.value)
    ensures network.Some? && IsOk(network.value) ==>
      r.response == network && r.caches.dynamicEntries == Put(cs.dynamicEntries, req, network.value)
    ensures !(network.Some? && IsOk(network.value)) ==>
      r.response == (if MatchAll(cs, req).Some? then MatchAll(cs, req) else Some(ApiOffline))
    ensures req.httpMethod != "GET" && !(network.Some? && IsOk(network.value)) ==> r.response == Some(ApiOffline)
  {
    if network.Some? && IsOk(network.value) then
      Served(network, cs.(dynamicEntries := Put(cs.dynamicEntries, req, network.value)), true)
    else
      match MatchAll(cs, req)
      case Some(hit) => Served(Some(hit), cs, true)
      case None => Served(Some(ApiOffline), cs, true)
  }

  /** An API GET answered while online is answered the same way once offline. */
  lemma {:induction false} ApiResponseServedOffline(cs: CacheStorage, req: Request, online: Response, offline: Option<Response>)
    requires req.httpMethod == "GET" && IsOk(online) && req.url !in cs.staticEntries
    requires offline.None? || !IsOk(offline.value)
    ensures var after := HandleApiRequest(cs, req, Some(online)).caches;
      HandleApiRequest(after, req, offline).response == Some(online)
  {
    var after := HandleApiRequest(cs, req, Some(online)).caches;
    assert after.dynamicEntries[req.url] == online;
    assert MatchAll(after, req) == Some(online);
  }

  const OfflinePage := "/offline.html"

  /** `handleNavigation`: an ok network response, else the cached page, else the cached
      offline page (none at all when that was never cached). Never writes a cache. */
  function HandleNavigation(cs: CacheStorage, origin: string, req: Request, network: Option<Response>): (r: Served)
    ensures r.caches == cs && r.usedNetwork
    ensures network.Some? && IsOk(network.value) ==> r.response == network
    ensures !(network.Some? && IsOk(network.value)) && MatchAll(cs, req).Some? ==> r.response == MatchAll(cs, req)
    ensures !(network.Some? && IsOk(network.value)) && MatchAll(cs, req).None? ==>
      r.response == MatchAll(cs, OfflineRequest(origin))
  {
    if network.Some? && IsOk(network.value) then Served(network, cs, true)
    else
      match MatchAll(cs, req)
      case Some(hit) => Served(Some(hit), cs, true)
      case None => Served(MatchAll(cs, OfflineRequest(origin)), cs, true)
  }

  /** `caches.match('/offline.html')`, resolved against the worker's origin. */
  function OfflineRequest(origin: string): Request {
    Request(Resolve(origin, OfflinePage), OfflinePage, "GET", "", None)
  }

  /** After a successful install, a navigation to a precached page while offline is
      answered with the page fetched at install, and any other navigation with the
      precached offline page. */
  lemma {:induction false} PrecachedPagesServedOffline(cs: CacheStorage, origin: string, fetched: seq<Option<Response>>,
                                                       req: Request, network: Option<Response>)
    requires |fetched| == |StaticAssets| && Install(cs, origin, fetched).0
    requires req.httpMethod == "GET" && !(network.Some? && IsOk(network.value))
    ensures var installed := Install(cs, origin, fetched).1;
      forall k :: 0 <= k < |StaticAssets| && req.url == Resolve(origin, StaticAssets[k]) ==>
        HandleNavigation(installed, origin, req, network).response == Some(fetched[k].value)
    ensures var installed := Install(cs, origin, fetched).1;
      MatchAll(installed, req).None? ==> HandleNavigation(installed, origin, req, network).response == Some(fetched[4].value)
  {
    assert StaticAssets[4] == OfflinePage;
  }

  /** `handleDynamic`, stale-while-revalidate: the dynamic cache's response when there
      is one, else the network's (none when the fetch fails); the fetch always runs and
      an ok response refreshes the dynamic cache. */
  function HandleDynamic(cs: CacheStorage, req: Request, network: Option<Response>): (r: Served)
    ensures r.usedNetwork && r.caches.staticEntries == cs.staticEntries
    ensures r.caches.dynamicEntries ==
      if network.Some? && IsOk(network.value) then Put(cs.dynamicEntries, req, network.value) else cs.dynamicEntries
    ensures req.httpMethod == "GET" && req.url in cs.dynamicEntries ==> r.response == Some(cs.dynamicEntries[req.url])
    ensures !(req.httpMethod == "GET" && req.url in cs.dynamicEntries) ==> r.response == network
  {
    var cached := if req.httpMethod == "GET" && req.url in cs.dynamicEntries then Some(cs.dynamicEntries[req.url]) else None;
    var caches' := if network.Some? && IsOk(network.value) then cs.(dynamicEntries := Put(cs.dynamicEntries, req, network.value)) else cs;
    Served(if cached.Some? then cached else network, caches', true)
  }

  /** Stale-while-revalidate: the first request gets the network's answer, and a second
      one gets that answer from the cache even when the network has moved on. */
  lemma {:induction false} DynamicServesPreviousAnswer(cs: CacheStorage, req: Request, first: Response, second: Option<Response>)
    requires req.httpMethod == "GET" && req.url !in cs.dynamicEntries && IsOk(first)
    ensures var r1 := HandleDynamic(cs, req, Some(first));
      r1.response == Some(first) && HandleDynamic(r1.caches, req, second).response == Some(first)
  {
    var r1 := HandleDynamic(cs, req, Some(first));
    assert r1.caches.dynamicEntries[req.url] == first;
  }

  /** The response to a request through the listener: the strategy it is routed to,
      or `None` when the worker does not answer (ignored, or the listener threw). */
  function Respond(cs: CacheStorage, origin: string, routing: Routing, req: Request, network: Option<Response>): (r: Option<Served>)
    ensures r.Some? <==> routing.Handled?
  {
    match routing
    case Handled(CacheFirst) => Some(HandleStaticAsset(cs, req, network))
    case Handled(NetworkFirstApi) => Some(HandleApiRequest(cs, req, network))
    case Handled(NavigationFallback) => Some(HandleNavigation(cs, origin, req, network))
    case Handled(StaleWhileRevalidate) => Some(HandleDynamic(cs, req, network))
    case _ => None
  }
}

=== FILE: sorting.dfy ===
/** Sorting by an integer key, largest first, as the source's
    `sort((a, b) => key(b) - key(a))` comparators do with the stable
    `Array.prototype.sort`: elements with equal keys keep their order. */
module Sorting {

  /** `key` never increases along `s`. */
  predicate SortedDesc<T>(s: seq<T>, key: T -> int) {
    forall i, j :: 0 <= i < j < |s| ==> key(s[i]) >= key(s[j])
  }

  /** Inserts `x` before the first element whose key is not larger, so `x` goes ahead
      of the elements with the same key. */
  function InsertDesc<T(==)>(x: T, s: seq<T>, key: T -> int): (r: seq<T>)
    requires SortedDesc(s, key)
    ensures SortedDesc(r, key)
    ensures multiset(r) == multiset(s) + multiset{x}
    ensures |r| > 0 && key(r[0]) == if |s| > 0 && key(s[0]) > key(x) then key(s[0]) else key(x)
  {
    if |s| == 0 then [x]
    else if key(s[0]) <= key(x) then [x] + s
    else
      var rest := InsertDesc(x, s[1..], key);
      assert s == [s[0]] + s[1..];
      assert forall j :: 0 <= j < |rest| ==> key(rest[0]) >= key(rest[j]);
      [s[0]] + rest
  }

  /** Insertion sort, largest key first: a permutation of `s` that is sorted. */
  function SortDesc<T(==)>(s: seq<T>, key: T -> int): (r: seq<T>)
    ensures SortedDesc(r, key)
    ensures multiset(r) == multiset(s)
  {
    if |s| == 0 then []
    else
      assert s == [s[0]] + s[1..];
      InsertDesc(s[0], SortDesc(s[1..], key), key)
  }

  /** The elements of `s` whose key is `k`, in their order in `s`. */
  function WithKey<T>(s: seq<T>, key: T -> int, k: int): seq<T>
    decreases |s|
  {
    if |s| == 0 then [] else (if key(s[0]) == k then [s[0]] else []) + WithKey(s[1..], key, k)
  }

  /** Inserting `x` puts it ahead of every element with the same key. */
  lemma {:induction false} InsertKeepsTies<T>(x: T, s: seq<T>, key: T -> int, k: int)
    requires SortedDesc(s, key)
    ensures WithKey(InsertDesc(x, s, key), key, k) == (if key(x) == k then [x] else []) + WithKey(s, key, k)
    decreases |s|
  {
    var mine: seq<T> := if key(x) == k then [x] else [];
    if |s| == 0 {
      assert InsertDesc(x, s, key) == [x];
      assert [x][1..] == [];
    } else if key(s[0]) <= key(x) {
      assert InsertDesc(x, s, key) == [x] + s;
      assert ([x] + s)[1..] == s;
    } else {
      var rest := InsertDesc(x, s[1..], key);
      assert InsertDesc(x, s, key) == [s[0]] + rest;
      InsertKeepsTies(x, s[1..], key, k);
      assert ([s[0]] + rest)[1..] == rest;
      var head: seq<T> := if key(s[0]) == k then [s[0]] else [];
      assert WithKey([s[0]] + rest, key, k) == head + (mine + WithKey(s[1..], key, k));
      assert WithKey(s, key, k) == head + WithKey(s[1..], key, k);
      assert head == [] || mine == [];
    }
  }

  /** The sort is stable: for every key, the elements with that key come out in the
      order they went in. */
  lemma {:induction false} SortDescIsStable<T>(s: seq<T>, key: T -> int, k: int)
    ensures WithKey(SortDesc(s, key), key, k) == WithKey(s, key, k)
    decreases |s|
  {
    if |s| > 0 {
      SortDescIsStable(s[1..], key, k);
      InsertKeepsTies(s[0], SortDesc(s[1..], key), key, k);
    }
  }

  /** A sorted permutation keeps the length. */
  lemma SortKeepsLength<T>(s: seq<T>, key: T -> int)
    ensures |SortDesc(s, key)| == |s|
  {
    assert |multiset(SortDesc(s, key))| == |multiset(s)|;
  }
}

=== FILE: text.dfy ===
/** String helpers with the meaning of the JavaScript string methods the source uses:
    `startsWith`, `endsWith`, `includes`, `toLowerCase` (ASCII letters only),
    `replace` of the first occurrence, and removal of a trailing run of one character. */
module Text {
  import opened Wrappers

  predicate StartsWith(s: string, prefix: string) {
    |prefix| <= |s| && s[..|prefix|] == prefix
  }

  predicate EndsWith(s: string, suffix: string) {
    |suffix| <= |s| && s[|s| - |suffix|..] == suffix
  }

  /** `s.includes(p)`: `p` occurs in `s` at some position. */
  predicate Contains(s: string, p: string)
    decreases |s|
  {
    StartsWith(s, p) || (|s| > 0 && Contains(s[1..], p))
  }

  /** `p` occurs in `s` starting at index `i`. */
  predicate OccursAt(s: string, p: string, i: int) {
    0 <= i && i + |p| <= |s| && s[i..i + |p|] == p
  }

  /** `Contains` agrees with the positional definition of an occurrence. */
  lemma {:induction false} ContainsIffOccurs(s: string, p: string)
    ensures Contains(s, p) <==> exists i :: OccursAt(s, p, i)
    decreases |s|
  {
    if StartsWith(s, p) {
      assert OccursAt(s, p, 0);
    } else if |s| > 0 {
      ContainsIffOccurs(s[1..], p);
      if Contains(s[1..], p) {
        var i :| OccursAt(s[1..], p, i);
        assert s[i + 1..i + 1 + |p|] == s[1..][i..i + |p|];
        assert OccursAt(s, p, i + 1);
      }
      if exists i :: OccursAt(s, p, i) {
        var i :| OccursAt(s, p, i);
        if i > 0 {
          assert s[1..][i - 1..i - 1 + |p|] == s[i..i + |p|];
          assert OccursAt(s[1..], p, i - 1);
        }
      }
    } else {
      assert forall i :: OccursAt(s, p, i) ==> StartsWith(s, p);
    }
  }

  /** A string contains every piece it is built from. */
  lemma {:induction false} ContainsInfix(a: string, p: string, b: string)
    ensures Contains(a + p + b, p)
    decreases |a|
  {
    if |a| == 0 {
      assert a + p + b == p + b;
      assert (p + b)[..|p|] == p;
    } else {
      assert (a + p + b)[1..] == a[1..] + p + b;
      ContainsInfix(a[1..], p, b);
    }
  }

  function LowerChar(c: char): char {
    if 'A' <= c <= 'Z' then (c as int + 32) as char else c
  }

  /** `s.toLowerCase()` on ASCII letters; other characters are kept. */
  function ToLower(s: string): (r: string)
    ensures |r| == |s|
    ensures forall i :: 0 <= i < |s| ==> r[i] == LowerChar(s[i])
  {
    seq(|s|, i requires 0 <= i < |s| => LowerChar(s[i]))
  }

  lemma ToLowerIdempotent(s: string)
    ensures ToLower(ToLower(s)) == ToLower(s)
  {
  }

  /** Index of the first occurrence of `p` in `s`, if any. */
  function IndexOf(s: string, p: string): (r: Option<nat>)
    ensures r.Some? ==> r.value + |p| <= |s| && s[r.value..r.value + |p|] == p
    ensures r.Some? ==> forall j :: 0 <= j < r.value ==> !StartsWith(s[j..], p)
    ensures r.None? <==> !Contains(s, p)
    decreases |s|
  {
    if StartsWith(s, p) then Some(0)
    else if |s| == 0 then None
    else
      match IndexOf(s[1..], p)
      case None => None
      case Some(k) =>
        assert forall j :: 1 <= j <= k ==> s[j..] == s[1..][j - 1..];
        Some(k + 1)
  }

  /** `s.replace(p, q)` with a string pattern: only the first occurrence is replaced. */
  function ReplaceFirst(s: string, p: string, q: string): (r: string)
    ensures !Contains(s, p) ==> r == s
    ensures Contains(s, p) ==>
      exists i :: 0 <= i && i + |p| <= |s| && s[i..i + |p|] == p && r == s[..i] + q + s[i + |p|..]
  {
    match IndexOf(s, p)
    case None => s
    case Some(i) => s[..i] + q + s[i + |p|..]
  }

  /** `s.replace(/c+$/, '')`: drops the run of `c` at the end of `s`. */
  function TrimTrailing(s: string, c: char): (r: string)
    ensures |r| <= |s| && r == s[..|r|]
    ensures |r| > 0 ==> r[|r| - 1] != c
    ensures forall i :: |r| <= i < |s| ==> s[i] == c
  {
    if |s| > 0 && s[|s| - 1] == c then TrimTrailing(s[..|s| - 1], c) else s
  }

  function DigitChar(d: nat): char
    requires d < 10
  {
    ['0', '1', '2', '3', '4', '5', '6', '7', '8', '9'][d]
  }

  /** Decimal rendering of an integer, as template literals print it. */
  function IntToString(n: int): (r: string)
    ensures |r| > 0
    ensures n >= 0 ==> r[0] != '-'
    decreases if n < 0 then -n + 1 else n
  {
    if n < 0 then "-" + IntToString(-n)
    else if n < 10 then [DigitChar(n)]
    else IntToString(n / 10) + [DigitChar(n % 10)]
  }
}

=== FILE: wrappers.dfy ===
/** Option and Result: absent values and the outcomes of calls that can fail
    (network requests, storage writes, JSON parsing) in the modelled code. */
module Wrappers {

  /** A value that may be missing: an unset query parameter, an optional field. */
  datatype Option<+T> = None | Some(value: T) {

    /** The contained value, or `default` when missing (the `??`/`||` fallbacks of the source). */
    function GetOr(default: T): T {
      match this
      case Some(v) => v
      case None => default
    }
  }

  /** The outcome of an operation that either produces a value or fails with an error. */
  datatype Result<+T, +E> = Ok(value: T) | Err(error: E) {

    function ToOption(): Option<T> {
      match this
      case Ok(v) => Some(v)
      case Err(_) => None
    }
  }
}
